=== FILE: README.md ===
# decision-engine, modelled in Dafny

The decision engine turns indicator snapshots into trading signals. For each
symbol's snapshot it evaluates a set of configured technical-analysis rules:
RSI, MACD, moving-average trend, composite, "enhanced" and mining-sector
rules. It then sorts the triggered results into BUY, SELL and WATCH, picks
the majority direction, and aggregates that direction's confidences with a
consensus boost. A BUY is dampened by the market regime. A BUY also gets a
trade plan (entry zone, stop, invalidation, targets, position size) and a
five-point pre-trade checklist. Finally, publication is subject to a
confidence threshold, debouncing, a position gate for SELLs and an optional
risk check.

Around that pipeline sit several stateful helpers:
- a per-symbol state manager with a bounded signal history;
- a position tracker that follows order fills;
- a ranker that orders current signals by a weighted score;
- a rule-based strategy adapter for backtests.

The model is written in pure functional Dafny, one module per source file:

| module | file | models |
|---|---|---|
| `Wrappers` | wrappers.dfy | `Option` / `Result` |
| `Base` | base.dfy | `RuleResult` and its validity check, `SymbolContext`, indicator lookup, ASCII case mapping |
| `Signals` | signals.dfy | `Signal`, `AggregatedSignal`, `ConfidenceAggregator` |
| `RsiRules`, `MacdRules`, `TrendRules`, `CompositeRules`, `EnhancedRules`, `MiningRules` | *_rules.dfy | the 24 rules, one function per `evaluate` |
| `Rules` | rules.dfy | the rule sum type: names, required indicators, `can_evaluate`, dispatch |
| `Registry` | registry.dfy | `RuleRegistry.create_rule` and `load_rules_from_config` |
| `MarketContext` | market_context.dfy | the regime multiplier table and the refresh step |
| `TradePlanner` | trade_planner.dfy | `TradePlanEngine` |
| `Checklist` | checklist.dfy | `ChecklistEvaluator` |
| `StateManager` | state_manager.dfy | `SignalHistory`, `SymbolState`, `StateManager` |
| `Ranker` | ranker.dfy | `SymbolRanker`, `RankingResult.top` |
| `PositionTracker` | position_tracker.dfy | order-fill handling and the open-position book |
| `Service` | service.dfy | `DecisionEngineService.handle_indicator_event` and its helpers |
| `Backtesting` | backtesting.dfy | `RuleBasedStrategy` |

Conventions:
- Indicator snapshots are `map<string, real>`.
- A rule that divides by a zero moving average returns `Failure(ZeroDivision)`, where Python raises `ZeroDivisionError`.
- A `RuleResult` that would fail its constructor check returns `Failure(InvalidResult)`.
- Every rule contract shows that the second failure never happens.
- Mutable objects become values passed in and returned.
- Clocks, Redis reads, Kafka messages, the market-regime reader, the position sizer and the risk engine become parameters.

## Model

| member | source | states |
|---|---|---|
| Base.MakeResult | decision_engine/rules/base.py:42-46 | a result is built exactly when a triggered result carries a signal and the confidence lies in [0, 1]; otherwise the error is the validity failure |
| Base.Untriggered | decision_engine/rules/base.py:36-40 | the default result is valid, untriggered, signal-less, zero-confidence and factor-free |
| Base.GetIndicator | decision_engine/rules/base.py:66-68 | the stored value when the name is present, the default otherwise |
| Base.CheckIndicators | decision_engine/rules/base.py:70-75 | the early-exit scan answers true exactly when every requested name is present (the declarative `HasIndicators`), and true for no names |
| Base.Upper | decision_engine/rules/mining_rules.py:143 | upper-casing keeps the length and maps each character by ASCII upper-case |
| Base.Lower | decision_engine/position_tracker.py:128 | lower-casing keeps the length and maps each character by ASCII lower-case |
| Base.UpperIdempotent | decision_engine/rules/mining_rules.py:143 | upper-casing twice is upper-casing once |
| Signals.WeightedAverage | decision_engine/models/signals.py:79-97 | 0 for no signals; with no weights it is the plain mean; with a weight table it is the weighted sum over the total weight (missing rules weigh 1.0), or 0 when the total is not positive; with confidences in [0, 1] and non-negative weights it stays in [0, 1] |
| Signals.WeightedAverageOfEqual | decision_engine/models/signals.py:90-96 | for signals that all share one confidence and a positive total weight, the weighted average is that confidence, whatever the weights |
| Signals.UniformWeightedSum | decision_engine/models/signals.py:90-95 | for equal confidences c, the weighted sum is c times the total weight |
| Signals.UnitWeightsReduceToMean | decision_engine/models/signals.py:91-95 | when every signal's weight is 1 (the no-weights case) the total weight is the count and the weighted sum is the sum of confidences |
| Signals.WeightedSumBounds | decision_engine/models/signals.py:93-97 | confidences in [0, 1] and non-negative weights put the weighted sum between 0 and the total weight |
| Signals.Highest | decision_engine/models/signals.py:99-104 | 0 for no signals; otherwise one of the confidences and no smaller than any of them |
| Signals.ConsensusBoost | decision_engine/models/signals.py:106-123 | 0 for no signals; otherwise the unweighted mean plus min(5% per extra rule, 15%), capped at 1; it stays in [0, 1] and never falls below the mean |
| Signals.UniformSum | decision_engine/models/signals.py:91-95 | signals of one confidence c sum to count times c |
| Signals.ConsensusBoostUniform | decision_engine/models/signals.py:106-123 | for signals all of confidence c the boost is min(c + agreement bonus, 1) |
| Signals.ConsensusBoostMonotoneInCount | decision_engine/models/signals.py:119-123 | at equal confidence, more agreeing rules never lower the boost |
| Signals.ConsensusBoostCaps | decision_engine/models/signals.py:119-123 | five rules at 0.7 give 0.85 (the bonus stops at 15%); four at 0.95 hit the 1.0 cap |
| RsiRules.Oversold | decision_engine/rules/rsi_rules.py:32-59 | triggers exactly when RSI is below the threshold, as a BUY with confidence in (0.5, 0.9], exactly 0.9 at or below the extreme level, reporting RSI_14 |
| RsiRules.OversoldDeeperIsStronger | decision_engine/rules/rsi_rules.py:43-50 | among oversold readings a lower RSI never gives a lower confidence |
| RsiRules.Overbought | decision_engine/rules/rsi_rules.py:85-112 | triggers exactly above the threshold: SELL at 0.85 from the extreme level up, WATCH in (0.4, 0.7) below it |
| RsiRules.RsiRulesDirection | decision_engine/rules/rsi_rules.py:53-56 | the oversold rule never says SELL and the overbought rule never says BUY |
| RsiRules.ApproachingOversold | decision_engine/rules/rsi_rules.py:138-154 | triggers exactly when RSI lies between the buy and the watch threshold inclusive, as a WATCH at 0.4 |
| MacdRules.BullishCrossover | decision_engine/rules/macd_rules.py:31-69 | BUY exactly when MACD is above its signal line with a positive histogram; fresh crossovers (below the histogram threshold) score in (0.65, 0.85], established ones 0.5; the histogram falls back to MACD minus signal |
| MacdRules.FreshCrossoverOutranksEstablished | decision_engine/rules/macd_rules.py:44-50 | a fresh bullish crossover always outscores an established one |
| MacdRules.BearishCrossover | decision_engine/rules/macd_rules.py:93-128 | WATCH (never SELL) exactly when MACD is below its signal line with a negative histogram; fresh ones in (0.6, 0.8], established ones 0.5 |
| MacdRules.CrossoversExclusive | decision_engine/rules/macd_rules.py:37-38 | the bullish and bearish crossover never trigger on the same snapshot |
| MacdRules.Momentum | decision_engine/rules/macd_rules.py:149-187 | triggers exactly when MACD minus signal is beyond ±0.05: BUY above, WATCH below, confidence in (0.5, 0.7] |
| MacdRules.MomentumSymmetric | decision_engine/rules/macd_rules.py:155-170 | mirror-image MACD gaps trigger alike and score alike |
| TrendRules.WeeklyUptrend | decision_engine/rules/trend_rules.py:32-68 | WATCH exactly when SMA_20 > SMA_50; 0.85 exactly at a spread of 2% or more, 0.55 exactly below 1%, 0.7 otherwise |
| TrendRules.MonthlyUptrend | decision_engine/rules/trend_rules.py:89-120 | WATCH exactly when SMA_50 > SMA_200; 0.85 from a 5% spread, 0.55 below 2% |
| TrendRules.FullTrendAlignment | decision_engine/rules/trend_rules.py:141-179 | BUY exactly when SMA_20 > SMA_50 > SMA_200, confidence in [0.6, 0.95], reporting the 20/50 spread |
| TrendRules.FullTrendAlignmentMonotone | decision_engine/rules/trend_rules.py:145-165 | a wider total spread never gives a lower alignment confidence |
| TrendRules.TrendBreakWarning | decision_engine/rules/trend_rules.py:200-233 | SELL exactly when SMA_20 < SMA_50; 0.7 for a spread above -0.5%, 0.6 otherwise |
| TrendRules.WeeklyTrendExclusive | decision_engine/rules/trend_rules.py:38-40 | the weekly uptrend and the trend-break warning never both trigger, and neither triggers when the averages are equal |
| TrendRules.GoldenCross | decision_engine/rules/trend_rules.py:254-285 | BUY exactly when SMA_50 > SMA_200; 0.75 for a spread under 1%, 0.5 from 1% |
| TrendRules.DeathCross | decision_engine/rules/trend_rules.py:306-336 | SELL exactly when SMA_50 < SMA_200; 0.75 exactly when SMA_50 is less than 1% below a positive SMA_200 (or SMA_200 is not positive), otherwise 0.6 |
| TrendRules.CrossesExclusive | decision_engine/rules/trend_rules.py:254-336 | golden and death cross never both trigger; the golden cross triggers exactly when the monthly uptrend does |
| CompositeRules.BuyDipInUptrend | decision_engine/rules/composite_rules.py:40-100 | BUY exactly when SMA_20 > SMA_50 and RSI is below the threshold, confidence in [0.55, 0.95]; dip quality is "deep" exactly below RSI 30, trend quality "strong" exactly from a 2% spread |
| CompositeRules.BuyDipDeeperIsStronger | decision_engine/rules/composite_rules.py:56-85 | with the same averages, a deeper dip still triggers and never scores lower |
| CompositeRules.StrongBuySignal | decision_engine/rules/composite_rules.py:129-185 | BUY exactly with full alignment and RSI below the threshold, confidence in [0.7, 0.98] and at least 0.9 below RSI 25 |
| CompositeRules.RsiMacdConfluence | decision_engine/rules/composite_rules.py:209-255 | BUY exactly when RSI is below the threshold and MACD above its signal, confidence in [0.7, 0.9], the 0.7 base when neither bonus applies |
| CompositeRules.DipRecovery | decision_engine/rules/composite_rules.py:281-320 | BUY exactly in an uptrend with RSI inside the recovery zone, confidence in [0.55, 0.75], 0.55 at the top of the zone |
| CompositeRules.DipRecoveryLowerIsStronger | decision_engine/rules/composite_rules.py:300-307 | within the zone a lower RSI never scores lower |
| EnhancedRules.EnhancedBuyDip | decision_engine/rules/enhanced_rules.py:58-186 | raises division by zero exactly when every gate passes and SMA_200 is 0; otherwise triggers exactly when the gates pass, as a BUY in [0.5, 0.9] whose alignment is "full" exactly when SMA_50 > SMA_200 |
| EnhancedRules.DipConfidence | decision_engine/rules/enhanced_rules.py:124-161 | the summed dip, trend, alignment and volume scores, clamped, always lie in [0.5, 0.9]; the top score of every part gives exactly 0.9 |
| EnhancedRules.EnhancedBuyDipTotalOnPositivePrices | decision_engine/rules/enhanced_rules.py:177 | with a positive SMA_200 the rule never raises |
| EnhancedRules.MomentumReversal | decision_engine/rules/enhanced_rules.py:218-309 | BUY exactly when RSI is in range, MACD above its signal, and not (weak histogram with low volume), confidence in [0.55, 0.9], reporting the uptrend flag |
| EnhancedRules.MomentumReversalUptrendBonus | decision_engine/rules/enhanced_rules.py:270-290 | on otherwise equal snapshots the uptrend adds exactly 0.15 before the 0.9 cap and does not change whether the rule fires |
| EnhancedRules.TrendContinuation | decision_engine/rules/enhanced_rules.py:342-431 | never raises with a positive SMA_200 and raises only under full alignment; when SMA_20 is non-zero it triggers exactly when the pullback and RSI gates pass, as a BUY in [0.55, 0.85] |
| EnhancedRules.TrendContinuationZeroSma20Fails | decision_engine/rules/enhanced_rules.py:353-360 | an aligned snapshot with SMA_20 = 0 (all averages non-positive) raises division by zero |
| MiningRules.SeasonalTablesConsistent | decision_engine/rules/mining_rules.py:76-95 | every commodity but palladium has non-empty, disjoint strong and weak month sets within 1..12 |
| MiningRules.PalladiumHasNoSeason | decision_engine/rules/mining_rules.py:76-95 | a commodity has neither strong nor weak months exactly when it is palladium |
| MiningRules.CommodityLookupIgnoresCase | decision_engine/rules/mining_rules.py:26-73 | for every symbol, the lookup gives the same commodity as for its upper-cased spelling |
| MiningRules.CommodityLookupExamples | decision_engine/rules/mining_rules.py:26-73 | "gdx" is gold, "Ccj" is uranium, and a non-miner has no commodity |
| MiningRules.CommodityBreakout | decision_engine/rules/mining_rules.py:134-227 | non-miners give the default result; raises exactly for an uptrending miner with a zero SMA_50, or a zero SMA_20 once the trend strength passes; otherwise fires exactly when the trend-strength, breakout and RSI 45-75 gates all pass, as a BUY in [0.55, 0.85] |
| MiningRules.MinerMetalRatio | decision_engine/rules/mining_rules.py:265-347 | raises exactly for a miner in a long-term uptrend with RSI at or below the threshold and a zero SMA_50 or SMA_200; otherwise fires exactly when those gates pass and close is near one of the two supports; labels SMA_200 exactly when near it; a BUY in [0.6, 0.85] |
| MiningRules.DollarWeaknessIndicators | decision_engine/rules/mining_rules.py:384-388 | MACD is required exactly when the MACD-positive gate is on |
| MiningRules.DollarWeakness | decision_engine/rules/mining_rules.py:390-484 | raises exactly for a fully aligned miner with a zero SMA_50 or SMA_200, or a zero SMA_20 once the other gates pass, and never with a positive SMA_200; otherwise fires exactly when the spread, optional MACD and RSI 50-75 gates pass, as a BUY in [0.55, 0.8] |
| MiningRules.DollarWeaknessConfidence | decision_engine/rules/mining_rules.py:448-465 | the summed spread and RSI bonuses keep the confidence in [0.55, 0.8], so the 0.85 cap never applies; with no bonus earned it is the 0.55 base |
| MiningRules.Seasonality | decision_engine/rules/mining_rules.py:523-613 | raises exactly when every gate passes but SMA_50 is 0; otherwise fires exactly for an uptrending miner with RSI 30-65 that is held long if the month is weak; a BUY in [0.40, 0.85] reporting the month's seasonal status |
| MiningRules.SeasonalOrdering | decision_engine/rules/mining_rules.py:564-581 | with non-negative boost and penalty, weak-month base ≤ neutral ≤ strong-month base |
| MiningRules.VolumeBreakout | decision_engine/rules/mining_rules.py:651-737 | raises exactly for an uptrending miner that passes the volume gate with a zero SMA_20; otherwise fires exactly when the uptrend, volume-ratio, breakout and RSI-band gates pass, as a BUY in [0.6, 0.85]; without average volume a positive minimum ratio never triggers |
| Rules.Evaluate | decision_engine/rules/base.py:134-148 | every rule's result is valid (the constructor check never fails); only the seven dividing rules can raise, and only division by zero; with positive moving averages no rule raises |
| Rules.SignalDirections | decision_engine/rules/base.py:134-144 | each rule fires in its fixed direction: the 16 buy-side rules BUY, the MACD bearish, uptrend and approaching rules WATCH, trend break and death cross SELL |
| Rules.StrongBuyImpliesDipAndAlignment | decision_engine/rules/composite_rules.py:129-160 | whenever the strong buy fires at a threshold, the dip-in-uptrend rule at that threshold and full alignment fire too |
| Rules.CanEvaluateRsiRules | decision_engine/rules/rsi_rules.py:29-30 | the RSI rules can be evaluated exactly when RSI_14 is present |
| Registry.Forwarded | decision_engine/rules/registry.py:97-111 | only the four recognised parameter keys are forwarded, with their values |
| Registry.CreateRule | decision_engine/rules/registry.py:78-119 | unknown names give nothing; a known name gives a rule exactly when every forwarded key is a parameter of that rule's constructor (otherwise the constructor raises and nothing is returned) |
| Registry.RegistryTable | decision_engine/rules/registry.py:30-54 | 16 distinct registered names, each constructible from an empty configuration |
| Registry.CreateRuleIgnoresOtherKeys | decision_engine/rules/registry.py:97-111 | keys outside the four forwarded ones never change the outcome |
| Registry.CreateRulePassesThreshold | decision_engine/rules/registry.py:100-114 | "rsi_oversold" with a threshold builds that rule with the default extreme level |
| Registry.CreateRuleRejectsUnaccepted | decision_engine/rules/registry.py:113-119 | a parameter the constructor does not take makes creation fail |
| Registry.LoadRulesFromConfig | decision_engine/rules/registry.py:122-151 | no more rules than entries, and the weight table is keyed by exactly the loaded rules' names |
| Registry.LoadedRulesAreEnabledEntries | decision_engine/rules/registry.py:136-146 | a rule is loaded exactly when some enabled entry creates it |
| Registry.LoadPreservesOrder | decision_engine/rules/registry.py:136-146 | loading a concatenation loads each part in order |
| Registry.LoadSkipsDisabled | decision_engine/rules/registry.py:138-140 | a disabled entry changes nothing |
| Registry.LoadRecordsWeight | decision_engine/rules/registry.py:142-146 | an entry that creates a rule appends it and records its weight, default 1.0, under its name |
| MarketContext.Multiplier | decision_engine/market_context.py:140-154 | non-BUY signals get 1.0; a BUY gets the table entry for the regime, 1.0 for an unknown regime; always in (0, 1] |
| MarketContext.MultiplierTableOrdered | decision_engine/market_context.py:26-32 | the table's entries lie in [0, 1] with BEAR < SIDEWAYS ≤ BULL and UNKNOWN neutral |
| MarketContext.BuyMultipliers | decision_engine/market_context.py:26-32 | BULL 1.0, SIDEWAYS 0.7, BEAR 0.3, UNKNOWN and unrecognised regimes 1.0 |
| MarketContext.Refresh | decision_engine/market_context.py:160-189 | a missing client, absent key or failed read keeps the state; a payload sets the upper-cased regime (default UNKNOWN) and its confidence (default 0) |
| MarketContext.RefreshForgetsPrevious | decision_engine/market_context.py:182-189 | after a successful read the state does not depend on the previous one |
| MarketContext.RefreshIdempotent | decision_engine/market_context.py:160-189 | applying the same read twice is applying it once |
| MarketContext.RefreshUpperCasesRegime | decision_engine/market_context.py:176-177 | "bear" is stored as BEAR and then dampens BUYs to 0.3; an empty payload resets to UNKNOWN/0 |
| TradePlanner.Classify | decision_engine/trade_planner.py:272-287 | oversold bounce exactly when a bounce rule contributed; otherwise pullback exactly with trend continuation; otherwise breakout exactly with a breakout rule; otherwise generic |
| TradePlanner.ClassifyPrecedence | decision_engine/trade_planner.py:274-286 | bounce rules outrank trend continuation, which outranks breakouts; other rules give the generic setup |
| TradePlanner.MakeEntryZone | decision_engine/trade_planner.py:293-324 | the entry is SMA_20 for a pullback, close plus 0.1% for a breakout, else the close; the zone strictly brackets a positive entry |
| TradePlanner.CalculateStop | decision_engine/trade_planner.py:330-355 | inside the configured band the ATR stop is kept with no warning; below the minimum it is widened to minimum + 1% with a warning; above the maximum it is capped at 10% with a warning; the reported percentage is always the stop's distance from entry |
| TradePlanner.StopCapIgnoresMaximum | decision_engine/trade_planner.py:347-353 | the cap is 10% whatever the configured maximum, and the ATR stop is labelled "atr_2x" whatever the multiplier |
| TradePlanner.StopFloorAndCapDefaults | decision_engine/trade_planner.py:337-355 | with the default configuration: ATR 1 on 100 widens to 96, ATR 10 caps at 90, ATR 4 keeps 92 |
| TradePlanner.InvalidationPrice | decision_engine/trade_planner.py:361-376 | per setup: the lower of 99% of stop and of SMA_50, 99% of SMA_50, close less half an ATR, 99% of stop; for bounce and generic setups it lies strictly below a positive stop |
| TradePlanner.Trunc | decision_engine/trade_planner.py:418 | `int()` truncation toward zero |
| TradePlanner.FallbackSizing | decision_engine/trade_planner.py:413-422 | with no risk per share everything is 0; otherwise the whole number of shares that risks at most 2% of the balance, and one more share would exceed it; risk percentage within [0, 2] |
| TradePlanner.SizePosition | decision_engine/trade_planner.py:382-422 | the sizer's figures and warnings when it answers; the 2% fallback when it is absent or raises |
| TradePlanner.AccountBalance | decision_engine/trade_planner.py:428-452 | a fresh cache is returned unchanged; otherwise a fetched balance is returned and cached at the current time; otherwise the default, cache untouched |
| TradePlanner.BalanceCachedForTtl | decision_engine/trade_planner.py:433-445 | a fetched balance is served for the whole TTL whatever later fetches would say |
| TradePlanner.Assemble | decision_engine/trade_planner.py:206-266 | targets at 2R and 3R, reward/risk exactly 2, valid exactly when 2 meets the minimum, the warning exactly when invalid, the resistance note exactly when BB_UPPER is below target 1 |
| TradePlanner.ZeroRiskCause | decision_engine/trade_planner.py:337-343 | a zero-width stop (division by zero in the reward/risk ratio) needs a zero ATR multiplier or a -1% minimum |
| TradePlanner.Generate | decision_engine/trade_planner.py:143-266 | a non-positive close or ATR is rejected in that order; division by zero only for a pullback or the degenerate stop configurations; a plan has the classified setup, a bracketing zone, 2R/3R targets, ratio 2, validity against the minimum and consistent stop percentage; its entry, stop, invalidation and sizing are those of the entry-zone, stop, invalidation and sizing steps, fed the close, ATR_14, SMA_20 (default: the close) and SMA_50 (default: 95% of the close) |
| TradePlanner.MissingAveragesDefault | decision_engine/trade_planner.py:166-167 | without SMA_20 a pullback enters at the close; without SMA_50 a pullback is invalidated at 99% of 95% of the close |
| TradePlanner.DefaultPlansValid | decision_engine/trade_planner.py:209-235 | in exact arithmetic every plan under the default configuration is valid: target 1 sits at exactly 2R, so its reward-to-risk ratio equals the minimum of 2 |
| TradePlanner.DefaultPlanExists | decision_engine/trade_planner.py:164-175 | with positive close, ATR and (if present) SMA_20 the default engine always produces a plan |
| TradePlanner.PlanRiskBounds | decision_engine/trade_planner.py:369-422 | without a sizer, a plan's fallback dollar risk stays within 2% of the balance, and bounce or generic invalidation lies below a positive stop |
| Checklist.GetEarnings | decision_engine/checklist.py:267-296 | a record is used exactly when the client is connected, the key is present and the record is not older than 24 hours (a zero or unreadable timestamp is not stale) |
| Checklist.Evaluate | decision_engine/checklist.py:158-261 | the three plan checks fail without a plan; earnings check false without a client, true without data, else days-away above 5 (default 999); regime check rejects BEAR; BLOCKED exactly for earnings within 5 days or risk above 5%; GO exactly when not blocked and all five pass |
| Checklist.GoNeedsPlanAndStore | decision_engine/checklist.py:183-249 | GO is only possible with a plan, a connected store and a non-BEAR regime |
| Checklist.StatusTable | decision_engine/checklist.py:234-249 | BEAR reviews; risk exactly 5% reviews but 5.01% blocks; earnings in 3 days blocks without a plan; a clean plan goes; no client reviews |
| Checklist.StaleEarningsIgnored | decision_engine/checklist.py:280-291 | 25-hour-old earnings are ignored while 1-hour-old ones block; a zero timestamp is never stale; a record without days-away reports 999 |
| StateManager.LastN | decision_engine/state_manager.py:22 | the last min(n, length) elements, as a bounded deque keeps them |
| StateManager.AddSignal | decision_engine/state_manager.py:24-26 | the new signal is last and the history grows by one up to the capacity of 50 |
| StateManager.AddSignalDropsOldest | decision_engine/state_manager.py:22-26 | appending keeps all earlier signals below capacity and drops only the oldest at it |
| StateManager.AddAllKeepsLast | decision_engine/state_manager.py:104-105 | appending a sequence leaves the last 50 of history plus sequence |
| StateManager.LastNOfLastN | decision_engine/state_manager.py:22 | truncating before appending and truncating after agree |
| StateManager.GetLastSignal | decision_engine/state_manager.py:28-36 | nothing exactly when no signal matches the filter; otherwise the last matching signal |
| StateManager.GetRecentSignals | decision_engine/state_manager.py:38-40 | the last `count` signals for positive counts; the whole history for 0; Python's negative slice otherwise |
| StateManager.RecentZeroReturnsAll | decision_engine/state_manager.py:40 | asking for zero recent signals returns the whole (non-empty) history |
| StateManager.GetState | decision_engine/state_manager.py:81-85 | an existing state is returned without change; a missing one is created fresh and stored |
| StateManager.GetStateStable | decision_engine/state_manager.py:81-85 | a second lookup returns the same state and leaves the manager alone |
| StateManager.UpdateIndicators | decision_engine/state_manager.py:87-96 | only the symbol's indicators and timestamp change; other symbols are untouched |
| StateManager.RecordSignal | decision_engine/state_manager.py:98-105 | the symbol's state (created if needed) gets the signal; no other symbol changes |
| StateManager.WithSignal | decision_engine/state_manager.py:100-105 | the current signal is set and the contributing signals enter the bounded history; nothing else in the state changes |
| StateManager.CurrentSignals | decision_engine/state_manager.py:112-118 | exactly the symbols with a current signal, mapped to it |
| StateManager.SymbolsWithSignal | decision_engine/state_manager.py:120-126 | exactly the symbols whose current signal has the type |
| StateManager.ClearStaleSignals | decision_engine/state_manager.py:132-142 | signals older than the maximum age are cleared and all else kept |
| StateManager.ClearStaleComplete | decision_engine/state_manager.py:132-142 | after clearing no state is stale, and clearing again changes nothing |
| StateManager.GetSummary | decision_engine/state_manager.py:147-158 | total is the number of tracked symbols; the three counts are the sizes of the per-type symbol sets |
| StateManager.SummaryCountsBounded | decision_engine/state_manager.py:147-158 | BUY + SELL + WATCH counts never exceed the number of symbols |
| Ranker.DipDepth | decision_engine/ranker.py:186-197 | 0.5 without RSI or for WATCH; (50 − RSI)/30 floored at 0 for BUY; (RSI − 50)/30 floored at 0 for SELL |
| Ranker.DipDepthDeeperIsMore | decision_engine/ranker.py:188-190 | for BUYs a lower RSI never lowers the dip depth |
| Ranker.TrendStrength | decision_engine/ranker.py:200-216 | always in [0, 1]; 0.5 with no spread and no quality labels |
| Ranker.StrongTrendBoost | decision_engine/ranker.py:211-212 | a "strong" trend label never lowers the trend score and lifts the neutral 0.5 to 0.7 |
| Ranker.Factors | decision_engine/ranker.py:174-222 | the factor record carries the signal's confidence, a non-negative dip depth, a trend strength in [0, 1] and volatility 0.5 |
| Ranker.ConfidenceOnlyScore | decision_engine/ranker.py:225-228 | weighting confidence alone scores the signal by its confidence |
| Ranker.DefaultScoreInUnit | decision_engine/ranker.py:91-96 | with factors in [0, 1] the default weights give a score in [0, 1] |
| Ranker.Insert | decision_engine/ranker.py:135 | inserting into a descending list keeps it descending and adds exactly the element |
| Ranker.SortByScore | decision_engine/ranker.py:135 | the result is descending by score and a permutation of the input |
| Ranker.ScoreAll | decision_engine/ranker.py:114-132 | only signals of the type are scored, each an input entry scored by its factors; empty exactly when none has the type |
| Ranker.Number | decision_engine/ranker.py:138-147 | ranks run 1, 2, … in list order |
| Ranker.Rank | decision_engine/ranker.py:98-162 | the ranking holds only entries of the type from the input, numbered from 1, by non-increasing score, where each score is the weighted composite of that signal's own four factors, and is empty exactly when no entry has the type |
| Ranker.RankIsComplete | decision_engine/ranker.py:114-147 | every input entry of the type appears in the ranking with its symbol and signal, and the ranking has exactly as many entries as there are such inputs |
| Ranker.Top | decision_engine/ranker.py:58-60 | a prefix of the ranking of length min(n, size) |
| Ranker.Recommendation | decision_engine/ranker.py:232-253 | nothing exactly when there is no BUY; otherwise a BUY symbol of the input together with the composite score of its signal |
| Ranker.RecommendationIsBest | decision_engine/ranker.py:243-248 | the recommended score is the highest ranked score, and no BUY signal of the input has a higher composite score |
| PositionTracker.Buy | decision_engine/position_tracker.py:158-199 | a new symbol opens at the fill with count 0; a scale-in adds the shares and the fill's cost to the basis, keeps the entry price, counts one more scale-in and lands the average between the old average and the fill price; other symbols unchanged |
| PositionTracker.ScaleIn | decision_engine/position_tracker.py:168-177 | a scale-in adds the shares, adds the fill's cost to the basis, keeps the entry price, counts one more scale-in, and keeps a positive average between the old average and the fill price |
| PositionTracker.Sell | decision_engine/position_tracker.py:201-221 | an unknown symbol changes nothing; the position is closed exactly when the sale covers the shares, otherwise only the share count drops |
| PositionTracker.HandleMessage | decision_engine/position_tracker.py:117-151 | non-fills and fills without symbol, side, positive quantity or positive price change nothing; sides are case-insensitive buy or sell, others ignored; open, scale-in and close notices exactly as the book changes |
| PositionTracker.HasPosition | decision_engine/position_tracker.py:223-225 | true exactly for open symbols |
| PositionTracker.GetPosition | decision_engine/position_tracker.py:227-229 | the open position, or nothing exactly when there is none |
| PositionTracker.BuyAllCostBasis | decision_engine/position_tracker.py:166-194 | buying a fresh symbol fill by fill gives total shares, a basis equal to total cost, the first fill as entry price, one scale-in per later fill, and an average between the lowest and highest fill price |
| PositionTracker.BuyThenSellCloses | decision_engine/position_tracker.py:187-212 | opening and selling the same quantity restores the book |
| PositionTracker.SellExamples | decision_engine/position_tracker.py:201-221 | a partial sell keeps average and entry; an oversell closes; an unknown symbol is ignored |
| PositionTracker.MessageExamples | decision_engine/position_tracker.py:122-151 | an upper-case BUY fill opens a position; a "short" side, a non-fill event or a zero quantity do nothing |
| PositionTracker.ReplayBuyMessages | decision_engine/position_tracker.py:117-199 | replaying buy-fill messages equals buying the fills directly |
| Service.Admit | decision_engine/service.py:247-283 | an event is admitted exactly when it is an INDICATOR_UPDATE with a 1-10 character string symbol, a non-empty table of finite indicators, a readiness flag not false and (when so configured) an active ticker; the admitted values are the event's |
| Service.OutcomeOf | decision_engine/service.py:488-494 | a rule is skipped exactly when it cannot be evaluated; a raise is a division by zero of a dividing rule, never under positive averages; returned results are valid |
| Service.Outcomes | decision_engine/service.py:488-494 | one outcome per rule, in order |
| Service.Ran | decision_engine/service.py:488-493 | the evaluated outcomes, none skipped |
| Service.Tally | decision_engine/service.py:483-514 | the evaluated count is the number of rules that ran; at most that many signals; each bucket holds its type; an error is one a rule raised, and without raises there is no error |
| Service.TallyIgnoresSkipped | decision_engine/service.py:488-493 | skipped rules do not affect the tally |
| Service.TallyMembership | decision_engine/service.py:496-514 | a signal is in a bucket exactly when some rule fired with that type and produced it |
| Service.Evaluable | decision_engine/service.py:488-491 | only rules whose indicators are all present |
| Service.EvaluableOutcomes | decision_engine/service.py:488-494 | evaluating the evaluable rules gives exactly the outcomes of the rules that ran |
| Service.EvaluateAll | decision_engine/service.py:483-514 | evaluated count is the number of evaluable rules; buckets typed, confidences in [0, 1] and no more signals than rules; only division by zero escapes, and never under positive averages |
| Service.SkippingIsFiltering | decision_engine/service.py:488-493 | evaluating all rules equals evaluating the evaluable ones |
| Service.EvaluableIdempotent | decision_engine/service.py:488-491 | filtering twice is filtering once |
| Service.BucketMembership | decision_engine/service.py:496-514 | a signal is in a bucket exactly when some configured rule fires with that type and produced it |
| Service.BucketSize | decision_engine/service.py:507-514 | a bucket holds exactly one signal per outcome that fired with its type, so duplicate signals are all counted |
| Service.BucketCount | decision_engine/service.py:496-524 | the vote counts are the numbers of configured rules that triggered with each type |
| Service.Direction | decision_engine/service.py:516-555 | BUY exactly on a strict BUY majority that meets the consensus minimum; SELL symmetric; WATCH exactly on a BUY/SELL tie with some WATCH |
| Service.DirectionExamples | decision_engine/service.py:521-555 | a tie without WATCH gives nothing; a tie with WATCH gives WATCH; a lone BUY under consensus 2 gives nothing even with WATCH |
| Service.Strongest | decision_engine/service.py:585-586 | the first signal of highest confidence |
| Service.Aggregate | decision_engine/service.py:557-599 | confidence is the consensus boost times the regime multiplier capped at 1, never above the boost, unchanged for non-BUY; the primary signal has top confidence; regime UNKNOWN/0 without a reader |
| Service.RegimeDampensBuy | decision_engine/service.py:570-583 | a BEAR regime scales a BUY's boost by 0.3; BULL and non-BUY signals keep it |
| Service.EvaluateRules | decision_engine/service.py:454-555 | fails exactly when a rule raises; a signal follows the majority direction, carries exactly that bucket, counts the evaluable rules and has confidence in [0, 1]; no signal exactly when no direction wins |
| Service.Evict | decision_engine/service.py:607-613 | up to 100 entries nothing is evicted; beyond that exactly the entries of the last 30 minutes remain, with their times |
| Service.ShouldPublish | decision_engine/service.py:601-634 | publish exactly when confidence meets the minimum, the symbol is not debounced after eviction, and it is not a SELL for an unheld symbol while the tracker is connected |
| Service.PruningKeepsDebounce | decision_engine/service.py:607-620 | eviction never changes a debounce decision when the debounce window is at most 30 minutes |
| Service.PlanFor | decision_engine/service.py:304-330 | a plan only for a BUY with the engine enabled, naming the contributing rules in order; a raise (e.g. non-positive close) gives none; with the engine on, a BUY has a plan exactly when plan generation for its rule names and indicators succeeds, and it is that plan |
| Service.ChecklistFor | decision_engine/service.py:332-348 | a checklist exactly for a BUY with an evaluator; it rejects BEAR, and without a plan the stop check and the overall pass fail; it is the checklist evaluation of the plan's facts, the regime, the earnings store and the current time, so its earnings check and BLOCKED status are those of the checklist |
| Service.Publish | decision_engine/service.py:350-420 | BLOCKED and invalid-plan BUYs are suppressed first, then the publish gate, then a risk rejection; a publish stamps the symbol at the current time and records whether risk passed; a suppressed signal leaves no new stamp; a decision is published exactly when every gate passes |
| Service.HandleIndicatorEvent | decision_engine/service.py:244-423 | an inadmissible event changes nothing; otherwise the symbol's indicators and time are stored; a published decision is for the symbol, meets the confidence floor, is not BLOCKED, carries only a valid BUY plan, is not an unheld SELL, is stamped and is the symbol's current signal; for an admitted event the published signal is the one the rules produced, with the position side held before the update, and that signal is published exactly when every gate passes |
| Service.EventContext | decision_engine/service.py:462-476 | the rules see the event's symbol, indicators, time and month, and the position side held before the indicators were stored |
| Service.Respond | decision_engine/service.py:295-420 | a rule error or no direction publishes nothing and changes neither the state nor the table; without a publish the table only loses entries; the stored indicators and update time survive; a published decision is for the event's symbol, meets the floor, is not BLOCKED, carries only a valid BUY plan, is not an unheld SELL, is stamped and is the current signal; a produced signal is published, as itself, exactly when every gate passes for its plan and checklist |
| Service.Act | decision_engine/service.py:300-420 | once a signal exists it becomes the symbol's current signal; a published decision is that signal, with the same guarantees, and carries the signal's plan, checklist and risk flag; it is published exactly when every gate passes; without a publish the table only loses entries |
| Backtesting.OnPriceUpdate | decision_engine/adapters/backtesting.py:98-130 | SELL exactly when the symbol is long with an entry price and the close reaches the profit target or the stop; that exit only clears the long flag; otherwise nothing changes |
| Backtesting.InsideBandHolds | decision_engine/adapters/backtesting.py:121-130 | a close strictly inside the band never exits |
| Backtesting.ExitIsFinal | decision_engine/adapters/backtesting.py:122-128 | after an exit no later price update exits again |
| Backtesting.Decide | decision_engine/adapters/backtesting.py:167-194 | BUY exactly for quorate BUY results with mean at the threshold on a flat symbol; SELL exactly when the BUY results did not decide and quorate SELL results qualify on a long symbol; entry prices untouched |
| Backtesting.OnIndicatorUpdate | decision_engine/adapters/backtesting.py:132-194 | fails exactly when a rule raises; otherwise decides on the BUY and SELL buckets of the service's evaluation in a context carrying the position |
| Backtesting.NoDoubleEntry | decision_engine/adapters/backtesting.py:175-178 | no second BUY before an exit |
| Backtesting.LoneBuyBlocksSell | decision_engine/adapters/backtesting.py:167-171 | under consensus a single BUY result returns nothing, whatever the SELL results |
| Backtesting.SellNeedsLong | decision_engine/adapters/backtesting.py:189-192 | a SELL needs a long position and leaves the symbol flat |
| Backtesting.Reset | decision_engine/adapters/backtesting.py:196-199 | both tables are emptied |
| Backtesting.ResetForgetsPositions | decision_engine/adapters/backtesting.py:196-199 | after a reset no price update exits |
| Backtesting.GetPosition | decision_engine/adapters/backtesting.py:201-203 | "long" exactly for long symbols |
| Backtesting.SetEntryPrice | decision_engine/adapters/backtesting.py:205-207 | the price is recorded; other entries and positions are untouched, and no other symbol gains an entry |

## Left out

- Kafka consumption and publishing, Redis reads, JSON parsing, threads, locks, logging, `connect`/`start`/`stop`/`shutdown` and `initialize` are left out. Each is I/O or process lifecycle. Their observable results enter the model as parameters: the earnings store's answer, the fetched balance, the regime payload, the risk engine's verdict, the sizer's answer, the tracker-connected flag and the clock.
- Floating point is modelled as exact reals. Rounding (`round(x, 2)` in plans and factors), NaN/infinity beyond the service's finiteness gate, and the `Decimal` conversions before the sizer are left out.
- TradePlanner.DefaultPlansValid: holds for exact reals only. The program computes `(target_1 - entry_price) / risk_per_share` in doubles and compares it unrounded with `min_rr_ratio`. Rounding can leave that ratio just under 2. For example, with close 30.74 and ATR_14 8.25 on a generic setup, IEEE-754 double arithmetic puts the ratio at 1.999999999999999. The program then marks the default plan invalid and suppresses the BUY.
- Reasoning strings, descriptions, `to_dict` and the percent formatting in labels are left out. The exception is labels that carry meaning and are read downstream (factor names, setup and stop-method labels).
- Contributing factors are kept only where something reads them (the ranker) or where they carry a promised label.
- Indicator values of JSON `null` are not modelled. `has_indicators` treats a present-but-null value as missing; here a value is either present and real or absent.
- Timestamps are integers (seconds) or reals. ISO-8601 parsing and its fallback to the current time are not modelled. `valid_until` (end of trading day, trading-day arithmetic) is left out of plans.
- `Base.Upper` and `Base.Lower` map ASCII letters only. Python's Unicode case mapping is not modelled.
- Dictionary iteration order is the order of the sequence given: config entries, signals to rank, rules.
- The position sizer, the risk engine and the market regime reader are foreign objects; only their outcomes are modelled. A sizer's answer is taken as given, so the 2% risk bound of `TradePlanner.PlanRiskBounds` is stated for the fallback path only.
- `_maybe_publish_rankings`, `get_exit_strategy`, the position-open/close/scale-in callbacks and `_load_positions_from_redis` are left out. They are publishing and persistence around the ranker and tracker, which are modelled directly.
- `_get_rules_for_symbol` (per-symbol rule overrides) is left out. The event's rules arrive as `Environment.rules`.
- `StateManager.get_position`, `get_position_metadata`, `open_position` and `evict_stale_states` are called by the service but are not part of this model. Their answer enters as the `hasPosition` input.
- `get_all_symbols` and `get_all_positions` are not separate members. They are the key set of the manager's and the tracker's map.
- `max_history` of `SignalHistory` is never consulted; the deque's capacity is always 50. The model keeps 50 whatever the field says, as the code does.
- The position tracker's sell handler receives the price but does not use it, and neither does the model.
- `RuleRegistry.get_available_rules`, `get_rule_class` and `describe_rules` are left out. They are listing and text helpers; `RegistryTable` states the registry's contents.
- The backtesting adapter keeps a symbol's entry price after an exit, and the model does the same. `BacktestSignal.HOLD` exists but is never returned.
- `ChecklistEvaluator.connect` and `close` are left out (I/O). A client that failed to connect is `NoClient`.

=== FILE: backtesting.dfy ===
/**
 * The rule-based strategy adapter used for backtests: rules are evaluated on
 * each indicator update to enter and leave a long position, and each price
 * update checks the profit target and the stop loss against the recorded
 * entry price. Position state is per symbol: long, or not.
 */
module Backtesting {
  import opened Wrappers
  import opened Base
  import opened Signals
  import Rules
  import Service

  /** The signals a strategy hands to the backtester; HOLD is never produced. */
  datatype BacktestSignal = BuyOrder | SellOrder | Hold

  /** The strategy's parameters (defaults 0.6, off, 7% and 5%). */
  datatype Strategy = Strategy(
    rules: seq<Rules.Rule>,
    minConfidence: real,
    requireConsensus: bool,
    profitTarget: real,
    stopLoss: real)

  /** Entry prices set by the backtester, and the symbols currently held long. */
  datatype BacktestState = BacktestState(entryPrices: map<string, real>, long: set<string>)

  const Empty: BacktestState := BacktestState(map[], {})

  /** The exit band: at or above the profit target, or at or below the stop. */
  predicate ExitHit(entry: real, close: real, profitTarget: real, stopLoss: real) {
    close >= entry * (1.0 + profitTarget) || close <= entry * (1.0 - stopLoss)
  }

  /**
   * `on_price_update`: no signal without a long position or a recorded entry
   * price; otherwise SELL and go flat exactly when the close reaches the
   * profit target or the stop. The entry price is kept after an exit.
   */
  function OnPriceUpdate(s: Strategy, st: BacktestState, symbol: string, close: real): (r: (Option<BacktestSignal>, BacktestState))
    ensures r.0 == Some(SellOrder) <==>
      symbol in st.long && symbol in st.entryPrices && ExitHit(st.entryPrices[symbol], close, s.profitTarget, s.stopLoss)
    ensures r.0 != Some(SellOrder) ==> r == (None, st)
    ensures r.0 == Some(SellOrder) ==> r.1 == st.(long := st.long - {symbol})
  {
    if symbol !in st.long then (None, st)
    else if symbol !in st.entryPrices then (None, st)
    else
      var entry := st.entryPrices[symbol];
      if close >= entry * (1.0 + s.profitTarget) then (Some(SellOrder), st.(long := st.long - {symbol}))
      else if close <= entry * (1.0 - s.stopLoss) then (Some(SellOrder), st.(long := st.long - {symbol}))
      else (None, st)
  }

  /** A close strictly inside the band never exits, even for a long position. */
  lemma InsideBandHolds(s: Strategy, st: BacktestState, symbol: string, close: real)
    requires symbol in st.entryPrices
    requires st.entryPrices[symbol] * (1.0 - s.stopLoss) < close < st.entryPrices[symbol] * (1.0 + s.profitTarget)
    ensures OnPriceUpdate(s, st, symbol, close) == (None, st)
  {
  }

  /** After an exit a second price update for the symbol gives nothing, whatever the price. */
  lemma ExitIsFinal(s: Strategy, st: BacktestState, symbol: string, close: real, next: real)
    requires OnPriceUpdate(s, st, symbol, close).0 == Some(SellOrder)
    ensures OnPriceUpdate(s, OnPriceUpdate(s, st, symbol, close).1, symbol, next).0.None?
  {
  }

  /** The result lists are non-empty and pass the consensus gate (two or more when it is on). */
  predicate Quorate(results: seq<Signal>, requireConsensus: bool) {
    |results| > 0 && !(requireConsensus && |results| < 2)
  }

  /** The BUY results end the decision before SELL is looked at: by failing the gate or by reaching the threshold. */
  predicate BuysDecide(s: Strategy, buys: seq<Signal>) {
    |buys| > 0 && ((s.requireConsensus && |buys| < 2) || Mean(buys) >= s.minConfidence)
  }

  /**
   * The decision of `on_indicator_update` from the BUY and SELL results:
   * BUY when the BUY results are quorate, their mean confidence reaches the
   * threshold and the symbol is not long; SELL, only when the BUY results
   * did not decide, when the SELL results qualify the same way and the symbol
   * is long. A BUY result list that fails the consensus gate returns nothing,
   * whatever the SELL results say.
   */
  function Decide(s: Strategy, st: BacktestState, symbol: string, buys: seq<Signal>, sells: seq<Signal>)
    : (r: (Option<BacktestSignal>, BacktestState))
    ensures r.0 == Some(BuyOrder) <==>
      Quorate(buys, s.requireConsensus) && Mean(buys) >= s.minConfidence && symbol !in st.long
    ensures r.0 == Some(SellOrder) <==>
      !BuysDecide(s, buys) && Quorate(sells, s.requireConsensus) && Mean(sells) >= s.minConfidence && symbol in st.long
    ensures r.0 == Some(BuyOrder) ==> r.1 == st.(long := st.long + {symbol})
    ensures r.0 == Some(SellOrder) ==> r.1 == st.(long := st.long - {symbol})
    ensures r.0.None? ==> r.1 == st
    ensures r.0 != Some(Hold) && r.1.entryPrices == st.entryPrices
  {
    if |buys| > 0 && s.requireConsensus && |buys| < 2 then (None, st)
    else if |buys| > 0 && Mean(buys) >= s.minConfidence then
      if symbol in st.long then (None, st)
      else (Some(BuyOrder), st.(long := st.long + {symbol}))
    else if |sells| > 0 && s.requireConsensus && |sells| < 2 then (None, st)
    else if |sells| > 0 && Mean(sells) >= s.minConfidence && symbol in st.long then
      (Some(SellOrder), st.(long := st.long - {symbol}))
    else (None, st)
  }

  /**
   * `on_indicator_update`: the rules are evaluated as in the service (a rule
   * error propagates to the caller), WATCH results are dropped, and the
   * context carries the symbol's current position.
   */
  function OnIndicatorUpdate(s: Strategy, st: BacktestState, symbol: string, indicators: Indicators, time: int, month: Month)
    : (r: Result<(Option<BacktestSignal>, BacktestState), RuleError>)
    ensures var ctx := SymbolContext(symbol, indicators, time, month, if symbol in st.long then Some("long") else None);
      && (r.Success? <==> Service.EvaluateAll(s.rules, ctx).Success?)
      && (r.Success? ==> r.value == Decide(s, st, symbol,
            Service.EvaluateAll(s.rules, ctx).value.buy, Service.EvaluateAll(s.rules, ctx).value.sell))
  {
    var ctx := SymbolContext(symbol, indicators, time, month, if symbol in st.long then Some("long") else None);
    var b :- Service.EvaluateAll(s.rules, ctx);
    Success(Decide(s, st, symbol, b.buy, b.sell))
  }

  /** Two BUYs are never emitted for a symbol without an exit in between. */
  lemma NoDoubleEntry(s: Strategy, st: BacktestState, symbol: string,
                      buys: seq<Signal>, sells: seq<Signal>, buys2: seq<Signal>, sells2: seq<Signal>)
    requires Decide(s, st, symbol, buys, sells).0 == Some(BuyOrder)
    ensures Decide(s, Decide(s, st, symbol, buys, sells).1, symbol, buys2, sells2).0 != Some(BuyOrder)
  {
  }

  /** With the consensus gate on, a lone BUY result ends the decision, however strong the SELL results. */
  lemma LoneBuyBlocksSell(s: Strategy, st: BacktestState, symbol: string, buys: seq<Signal>, sells: seq<Signal>)
    requires s.requireConsensus && |buys| == 1
    ensures Decide(s, st, symbol, buys, sells) == (None, st)
  {
  }

  /** A SELL is only ever emitted for a symbol held long, and leaves it flat. */
  lemma SellNeedsLong(s: Strategy, st: BacktestState, symbol: string, buys: seq<Signal>, sells: seq<Signal>)
    requires Decide(s, st, symbol, buys, sells).0 == Some(SellOrder)
    ensures symbol in st.long && symbol !in Decide(s, st, symbol, buys, sells).1.long
  {
  }

  /** `reset`: both tables emptied. */
  function Reset(st: BacktestState): (r: BacktestState)
    ensures |r.entryPrices| == 0 && |r.long| == 0
  {
    Empty
  }

  /** After a reset no price update can exit. */
  lemma ResetForgetsPositions(s: Strategy, st: BacktestState, symbol: string, close: real)
    ensures OnPriceUpdate(s, Reset(st), symbol, close) == (None, Reset(st))
  {
  }

  /** `get_position`. */
  function GetPosition(st: BacktestState, symbol: string): (p: Option<string>)
    ensures p.Some? <==> symbol in st.long
    ensures p.Some? ==> p.value == "long"
  {
    if symbol in st.long then Some("long") else None
  }

  /** `set_entry_price`: records the price, leaves the position alone. */
  function SetEntryPrice(st: BacktestState, symbol: string, price: real): (r: BacktestState)
    ensures symbol in r.entryPrices && r.entryPrices[symbol] == price
    ensures r.entryPrices.Keys == st.entryPrices.Keys + {symbol}
    ensures forall k :: k in st.entryPrices && k != symbol ==> k in r.entryPrices && r.entryPrices[k] == st.entryPrices[k]
    ensures r.long == st.long
  {
    st.(entryPrices := st.entryPrices[symbol := price])
  }
}

=== FILE: base.dfy ===
/**
 * The rule contract: signal types, rule results with their construction-time
 * invariant, the symbol context handed to every rule, and indicator lookup.
 */
module Base {
  import opened Wrappers

  /** Trading signal types. */
  datatype SignalType = Buy | Sell | Watch

  /** A calendar month, as `datetime.month` yields it. */
  type Month = m: int | 1 <= m <= 12 witness 1

  /** A value in a result's contributing factors: a number, a label or a flag. */
  datatype Factor = Num(n: real) | Text(s: string) | Flag(b: bool)

  type Factors = map<string, Factor>

  /** An indicator snapshot: indicator name to value. */
  type Indicators = map<string, real>

  /** The outcome of one rule evaluation (reasoning text is not modelled). */
  datatype RuleResult = RuleResult(
    triggered: bool,
    signal: Option<SignalType>,
    confidence: real,
    factors: Factors)

  /** The exceptions a rule evaluation can raise. */
  datatype RuleError =
    | ZeroDivision   // an unguarded division by a zero indicator
    | InvalidResult  // the result constructor rejected its arguments

  /** The invariant every constructed result satisfies. */
  predicate WellFormed(r: RuleResult) {
    && (r.triggered ==> r.signal.Some?)
    && 0.0 <= r.confidence <= 1.0
  }

  /**
   * Constructs a result, failing exactly when the constructor's check fails:
   * a triggered result without a signal, or a confidence outside [0, 1].
   */
  function MakeResult(triggered: bool, signal: Option<SignalType>, confidence: real, factors: Factors)
    : (r: Result<RuleResult, RuleError>)
    ensures r.Success? <==> (triggered ==> signal.Some?) && 0.0 <= confidence <= 1.0
    ensures r.Success? ==> r.value == RuleResult(triggered, signal, confidence, factors)
    ensures r.Success? ==> WellFormed(r.value)
    ensures r.Failure? ==> r.error == InvalidResult
  {
    if triggered && signal.None? then Failure(InvalidResult)
    else if !(0.0 <= confidence <= 1.0) then Failure(InvalidResult)
    else Success(RuleResult(triggered, signal, confidence, factors))
  }

  /** `RuleResult(triggered=False)`: all other fields at their defaults. */
  function Untriggered(): (r: Result<RuleResult, RuleError>)
    ensures r.Success? && WellFormed(r.value)
    ensures !r.value.triggered && r.value.signal.None?
    ensures r.value.confidence == 0.0 && r.value.factors == map[]
  {
    MakeResult(false, None, 0.0, map[])
  }

  /** Current indicator data and position state handed to a rule. */
  datatype SymbolContext = SymbolContext(
    symbol: string,
    indicators: Indicators,
    time: int,
    month: Month,
    currentPosition: Option<string>)

  /** `get_indicator(name, default)`: the stored value, else the default. */
  function GetIndicator(ctx: SymbolContext, name: string, default: real): (v: real)
    ensures name in ctx.indicators ==> v == ctx.indicators[name]
    ensures name !in ctx.indicators ==> v == default
  {
    if name in ctx.indicators then ctx.indicators[name] else default
  }

  /** `get_indicator(name)` with its default of 0.0. */
  function Ind(ctx: SymbolContext, name: string): real {
    GetIndicator(ctx, name, 0.0)
  }

  function Sma20(ctx: SymbolContext): real {
    Ind(ctx, "SMA_20")
  }

  function Sma50(ctx: SymbolContext): real {
    Ind(ctx, "SMA_50")
  }

  function Sma200(ctx: SymbolContext): real {
    Ind(ctx, "SMA_200")
  }

  function Rsi(ctx: SymbolContext): real {
    Ind(ctx, "RSI_14")
  }

  function Close(ctx: SymbolContext): real {
    Ind(ctx, "close")
  }

  /** `has_indicators(*names)`, specified declaratively. */
  predicate HasIndicators(ctx: SymbolContext, names: seq<string>) {
    forall i :: 0 <= i < |names| ==> names[i] in ctx.indicators
  }

  /** `has_indicators` as written: scan the names, stop at the first missing one. */
  method CheckIndicators(ctx: SymbolContext, names: seq<string>) returns (ok: bool)
    ensures ok <==> HasIndicators(ctx, names)
    ensures |names| == 0 ==> ok
  {
    var i := 0;
    while i < |names|
      invariant 0 <= i <= |names|
      invariant forall j :: 0 <= j < i ==> names[j] in ctx.indicators
    {
      if names[i] !in ctx.indicators {
        return false;
      }
      i := i + 1;
    }
    return true;
  }

  function Min(a: real, b: real): real {
    if a <= b then a else b
  }

  function Max(a: real, b: real): real {
    if a >= b then a else b
  }

  function Abs(a: real): real {
    if a >= 0.0 then a else -a
  }

  lemma ScaleMonotone(a: real, b: real, range: real)
    requires a <= b && range > 0.0
    ensures a / range <= b / range
  {
    assert b / range - a / range == (b - a) / range;
  }

  lemma ScaleWithinUnit(a: real, range: real)
    requires 0.0 < a < range
    ensures 0.0 < a / range < 1.0
  {
    var q := a / range;
    assert q * range == a;
    if q >= 1.0 {
      assert false;
    }
  }

  lemma ProductWithinWeight(c: real, w: real)
    requires 0.0 <= c <= 1.0 && w >= 0.0
    ensures 0.0 <= c * w <= w
  {
    assert w - c * w == (1.0 - c) * w;
  }

  lemma QuotientWithinUnit(a: real, b: real)
    requires 0.0 <= a <= b && b > 0.0
    ensures 0.0 <= a / b <= 1.0
  {
    assert a / b * b == a;
  }

  lemma NegatedQuotient(a: real, b: real)
    requires b != 0.0
    ensures (-a) / b == -(a / b)
  {
  }

  /** Percentage spread of `a` over `b`, guarded as the trend rules guard it (0 when b <= 0). */
  function GuardedSpread(a: real, b: real): real {
    if b > 0.0 then (a - b) / b * 100.0 else 0.0
  }

  /** Volume over average volume, 1.0 when the average is not positive. */
  function VolumeRatio(ctx: SymbolContext): real {
    var volume := Ind(ctx, "volume");
    var avgVolume := GetIndicator(ctx, "volume_sma_20", volume);
    if avgVolume > 0.0 then volume / avgVolume else 1.0
  }

  /** ASCII upper-casing of one character. */
  function UpperChar(c: char): char {
    if 'a' <= c <= 'z' then (c as int - 32) as char else c
  }

  /** ASCII lower-casing of one character. */
  function LowerChar(c: char): char {
    if 'A' <= c <= 'Z' then (c as int + 32) as char else c
  }

  /** `str.upper()` on ASCII text. */
  function Upper(s: string): (u: string)
    ensures |u| == |s|
    ensures forall i :: 0 <= i < |s| ==> u[i] == UpperChar(s[i])
  {
    seq(|s|, i requires 0 <= i < |s| => UpperChar(s[i]))
  }

  /** `str.lower()` on ASCII text. */
  function Lower(s: string): (u: string)
    ensures |u| == |s|
    ensures forall i :: 0 <= i < |s| ==> u[i] == LowerChar(s[i])
  {
    seq(|s|, i requires 0 <= i < |s| => LowerChar(s[i]))
  }

  /** Upper-casing is idempotent: text already upper-cased is left alone. */
  lemma UpperIdempotent(s: string)
    ensures Upper(Upper(s)) == Upper(s)
  {
  }
}

=== FILE: checklist.dfy ===
/**
 * The pre-trade checklist: five boolean checks over the trade plan, the
 * earnings calendar and the market regime, and the GO / REVIEW / BLOCKED
 * status derived from them. The earnings store is replaced by the outcome
 * of one read, passed in as a value together with the current time.
 */
module Checklist {
  import opened Wrappers
  import TradePlanner

  const EarningsHardGateDays: int := 5
  const MaxRiskPctBlocked: real := 5.0
  const MaxRiskPctReview: real := 2.0
  const MinRrRatio: real := 2.0
  const BearRegimes: set<string> := {"BEAR"}
  const EarningsStalenessHours: real := 24.0

  datatype Status = Go | Review | Blocked

  /** The `updated_at` field of an earnings record: absent (or zero), a number, or not a number. */
  datatype Stamp = NoStamp | Numeric(seconds: real) | Unreadable

  /** An earnings record as stored; a missing `days_away` counts as 999. */
  datatype EarningsRecord = EarningsRecord(updatedAt: Stamp, daysAway: Option<int>)

  /** What reading the earnings key saw when a client exists. */
  datatype EarningsRead = ReadError | KeyAbsent | Record(record: EarningsRecord)

  /** The earnings store: no client at all, or a client and what its read returned. */
  datatype EarningsStore = NoClient | Client(read: EarningsRead)

  /** A record older than 24 hours, by a readable non-zero stamp. */
  predicate Stale(record: EarningsRecord, now: real) {
    record.updatedAt.Numeric? && record.updatedAt.seconds != 0.0
    && (now - record.updatedAt.seconds) / 3600.0 > EarningsStalenessHours
  }

  /** `_get_earnings`: the record, unless there is no client, the read failed, the key is absent or the data is stale. */
  function GetEarnings(store: EarningsStore, now: real): (e: Option<EarningsRecord>)
    ensures e.Some? <==> store.Client? && store.read.Record? && !Stale(store.read.record, now)
    ensures e.Some? ==> e.value == store.read.record
  {
    match store
    case NoClient => None
    case Client(Record(record)) => if Stale(record, now) then None else Some(record)
    case Client(_) => None
  }

  /** The plan fields the checklist reads. */
  datatype PlanFacts = PlanFacts(stopPrice: real, riskPct: real, riskRewardRatio: real, planValid: bool)

  function FactsOf(plan: TradePlanner.TradePlan): PlanFacts {
    PlanFacts(plan.stopPrice, plan.sizing.riskPct, plan.riskRewardRatio, plan.planValid)
  }

  datatype ChecklistResult = ChecklistResult(
    stopLossDefined: bool,
    positionSizedCorrectly: bool,
    rrRatioAcceptable: bool,
    noEarningsImminent: bool,
    regimeCompatible: bool,
    allChecksPassed: bool,
    status: Status,
    earningsDaysAway: Option<int>,
    regimeId: string,
    riskPct: real,
    rrRatio: real)

  /** The status rule on its own: the hard gates first, then all-or-nothing. */
  function StatusOf(earningsDays: Option<int>, plan: Option<PlanFacts>, allPassed: bool): Status {
    if (earningsDays.Some? && earningsDays.value <= EarningsHardGateDays)
       || (plan.Some? && plan.value.riskPct > MaxRiskPctBlocked)
    then Blocked
    else if allPassed then Go
    else Review
  }

  /**
   * `evaluate`: checks 1-3 read the plan and are false without one; the
   * earnings check fails closed without a client, passes when a client finds
   * no current data, and otherwise passes iff the earnings are more than
   * five days away; the regime check fails only for BEAR.
   */
  function Evaluate(plan: Option<PlanFacts>, regimeId: string, store: EarningsStore, now: real): (r: ChecklistResult)
    ensures r.stopLossDefined <==> plan.Some? && plan.value.stopPrice > 0.0
    ensures r.positionSizedCorrectly <==> plan.Some? && plan.value.riskPct <= 2.0
    ensures r.rrRatioAcceptable <==> plan.Some? && plan.value.planValid && plan.value.riskRewardRatio >= 2.0
    ensures plan.None? ==> r.riskPct == 0.0 && r.rrRatio == 0.0
    ensures store.NoClient? ==> !r.noEarningsImminent && r.earningsDaysAway.None?
    ensures GetEarnings(store, now).None? && store.Client? ==> r.noEarningsImminent && r.earningsDaysAway.None?
    ensures GetEarnings(store, now).Some? ==>
      r.earningsDaysAway == Some(GetEarnings(store, now).value.daysAway.GetOr(999))
      && (r.noEarningsImminent <==> GetEarnings(store, now).value.daysAway.GetOr(999) > 5)
    ensures r.regimeCompatible <==> regimeId != "BEAR"
    ensures r.allChecksPassed <==>
      r.stopLossDefined && r.positionSizedCorrectly && r.rrRatioAcceptable && r.noEarningsImminent && r.regimeCompatible
    ensures r.status == Blocked <==>
      (r.earningsDaysAway.Some? && r.earningsDaysAway.value <= 5) || (plan.Some? && plan.value.riskPct > 5.0)
    ensures r.status == Go <==> r.status != Blocked && r.allChecksPassed
  {
    var stopOk := plan.Some? && plan.value.stopPrice > 0.0;
    var sizeOk := plan.Some? && plan.value.riskPct <= MaxRiskPctReview;
    var rrOk := plan.Some? && plan.value.planValid && plan.value.riskRewardRatio >= MinRrRatio;
    var riskPct := if plan.Some? then plan.value.riskPct else 0.0;
    var rrRatio := if plan.Some? then plan.value.riskRewardRatio else 0.0;
    var earnings := GetEarnings(store, now);
    var days := if earnings.Some? then Some(earnings.value.daysAway.GetOr(999)) else None;
    var earningsOk :=
      if earnings.None? && store.NoClient? then false
      else if earnings.None? then true
      else days.value > EarningsHardGateDays;
    var regimeOk := regimeId !in BearRegimes;
    var all := stopOk && sizeOk && rrOk && earningsOk && regimeOk;
    ChecklistResult(stopOk, sizeOk, rrOk, earningsOk, regimeOk, all,
      StatusOf(days, plan, all), days, regimeId, riskPct, rrRatio)
  }

  /** GO exactly when every check passes, which needs a plan and a reachable earnings store. */
  lemma GoNeedsPlanAndStore(plan: Option<PlanFacts>, regimeId: string, store: EarningsStore, now: real)
    ensures Evaluate(plan, regimeId, store, now).status == Go ==> plan.Some? && store.Client? && regimeId != "BEAR"
  {
  }

  /**
   * BEAR on its own makes the status REVIEW, never BLOCKED; a risk of
   * exactly 5% is not blocked; imminent earnings block even without a plan.
   */
  lemma StatusTable(now: real)
    ensures var good := Some(PlanFacts(95.0, 1.5, 2.0, true));
      Evaluate(good, "BEAR", Client(KeyAbsent), now).status == Review
    ensures Evaluate(Some(PlanFacts(95.0, 5.0, 2.0, true)), "BULL", Client(KeyAbsent), now).status == Review
    ensures Evaluate(Some(PlanFacts(95.0, 5.01, 2.0, true)), "BULL", Client(KeyAbsent), now).status == Blocked
    ensures Evaluate(None, "BULL", Client(Record(EarningsRecord(NoStamp, Some(3)))), now).status == Blocked
    ensures Evaluate(Some(PlanFacts(95.0, 1.5, 2.0, true)), "BULL", Client(KeyAbsent), now).status == Go
    ensures Evaluate(Some(PlanFacts(95.0, 1.5, 2.0, true)), "BULL", NoClient, now).status == Review
  {
  }

  /**
   * Stale data counts as absent: a record 25 hours old with earnings in 2
   * days does not block, while the same record one hour old does. A zero
   * or unreadable stamp leaves the record in use.
   */
  lemma StaleEarningsIgnored()
    ensures var record := EarningsRecord(Numeric(1000.0), Some(2));
      && Evaluate(None, "BULL", Client(Record(record)), 1000.0 + 25.0 * 3600.0).status == Review
      && Evaluate(None, "BULL", Client(Record(record)), 1000.0 + 3600.0).status == Blocked
    ensures Evaluate(None, "BULL", Client(Record(EarningsRecord(Numeric(0.0), Some(2)))), 1.0e9).status == Blocked
    ensures Evaluate(None, "BULL", Client(Record(EarningsRecord(Unreadable, None))), 0.0).earningsDaysAway == Some(999)
  {
  }
}

=== FILE: composite_rules.dfy ===
/**
 * Composite rules combining trend, RSI and MACD conditions: buy the dip in
 * an uptrend, strong buy on full alignment, RSI/MACD confluence, and dip
 * recovery. All spreads here are guarded.
 */
module CompositeRules {
  import opened Wrappers
  import opened Base

  function DipQuality(rsi: real): string {
    if rsi < 30.0 then "deep" else if rsi < 35.0 then "solid" else "shallow"
  }

  function TrendQuality(spread: real): string {
    if spread >= 2.0 then "strong" else if spread >= 1.0 then "solid" else "weak"
  }

  /**
   * Buy Dip in Uptrend: BUY exactly when SMA_20 > SMA_50 and RSI is below
   * the threshold. The dip (deep below 30, solid below 35, else shallow)
   * sets the base 0.85/0.7/0.55, the trend spread adds 0.1/0.05/0, capped
   * at 0.95; both qualities are reported as factors.
   */
  function BuyDipInUptrend(rsiThreshold: real, ctx: SymbolContext): (r: Result<RuleResult, RuleError>)
    ensures r.Success? ==> WellFormed(r.value)
    ensures r.Success?
    ensures r.value.triggered <==> Sma20(ctx) > Sma50(ctx) && Rsi(ctx) < rsiThreshold
    ensures r.value.triggered ==> r.value.signal == Some(Buy) && 0.55 <= r.value.confidence <= 0.95
    ensures r.value.triggered ==>
      && "dip_quality" in r.value.factors && "trend_quality" in r.value.factors
      && (r.value.factors["dip_quality"] == Text("deep") <==> Rsi(ctx) < 30.0)
      && (r.value.factors["trend_quality"] == Text("strong") <==> GuardedSpread(Sma20(ctx), Sma50(ctx)) >= 2.0)
  {
    var rsi := Ind(ctx, "RSI_14");
    var sma20 := Ind(ctx, "SMA_20");
    var sma50 := Ind(ctx, "SMA_50");
    if sma20 <= sma50 then Untriggered()
    else if rsi >= rsiThreshold then Untriggered()
    else
      var trendSpread := GuardedSpread(sma20, sma50);
      var rsiConfidence := if rsi < 30.0 then 0.85 else if rsi < 35.0 then 0.7 else 0.55;
      var trendBonus := if trendSpread >= 2.0 then 0.1 else if trendSpread >= 1.0 then 0.05 else 0.0;
      MakeResult(true, Some(Buy), Min(rsiConfidence + trendBonus, 0.95),
        map["RSI_14" := Num(rsi), "SMA_20" := Num(sma20), "SMA_50" := Num(sma50),
            "trend_spread_pct" := Num(trendSpread),
            "dip_quality" := Text(DipQuality(rsi)), "trend_quality" := Text(TrendQuality(trendSpread))])
  }

  /** With the same averages, a deeper dip never yields a lower confidence. */
  lemma BuyDipDeeperIsStronger(rsiThreshold: real, deeper: SymbolContext, shallower: SymbolContext)
    requires Sma20(deeper) == Sma20(shallower) && Sma50(deeper) == Sma50(shallower)
    requires Rsi(deeper) <= Rsi(shallower)
    requires BuyDipInUptrend(rsiThreshold, shallower).value.triggered
    ensures BuyDipInUptrend(rsiThreshold, deeper).value.triggered
    ensures BuyDipInUptrend(rsiThreshold, deeper).value.confidence
         >= BuyDipInUptrend(rsiThreshold, shallower).value.confidence
  {
  }

  /**
   * Strong Buy Signal: BUY exactly when SMA_20 > SMA_50 > SMA_200 and RSI is
   * below the threshold; base 0.9/0.8/0.7 (RSI below 25, below 30, else)
   * plus up to 0.1 for the total spread, capped at 0.98.
   */
  function StrongBuySignal(rsiThreshold: real, ctx: SymbolContext): (r: Result<RuleResult, RuleError>)
    ensures r.Success? ==> WellFormed(r.value)
    ensures r.Success?
    ensures r.value.triggered <==> Sma20(ctx) > Sma50(ctx) > Sma200(ctx) && Rsi(ctx) < rsiThreshold
    ensures r.value.triggered ==> r.value.signal == Some(Buy) && 0.7 <= r.value.confidence <= 0.98
    ensures r.value.triggered && Rsi(ctx) < 25.0 ==> r.value.confidence >= 0.9
    ensures r.value.triggered ==>
      ("spread_20_50" in r.value.factors &&
       r.value.factors["spread_20_50"] == Num(GuardedSpread(Sma20(ctx), Sma50(ctx))))
  {
    var rsi := Ind(ctx, "RSI_14");
    var sma20 := Ind(ctx, "SMA_20");
    var sma50 := Ind(ctx, "SMA_50");
    var sma200 := Ind(ctx, "SMA_200");
    if !(sma20 > sma50 > sma200) then Untriggered()
    else if rsi >= rsiThreshold then Untriggered()
    else
      var spread2050 := GuardedSpread(sma20, sma50);
      var spread50200 := GuardedSpread(sma50, sma200);
      var baseConfidence := if rsi < 25.0 then 0.9 else if rsi < 30.0 then 0.8 else 0.7;
      var totalSpread := spread2050 + spread50200;
      var trendBonus := Min(totalSpread / 50.0, 0.1);
      MakeResult(true, Some(Buy), Min(baseConfidence + trendBonus, 0.98),
        map["RSI_14" := Num(rsi), "SMA_20" := Num(sma20), "SMA_50" := Num(sma50), "SMA_200" := Num(sma200),
            "spread_20_50" := Num(spread2050), "spread_50_200" := Num(spread50200)])
  }

  /**
   * RSI + MACD Confluence: BUY exactly when RSI is below the threshold and
   * MACD is above its signal line; 0.7 plus 0.15 (RSI below 30) or 0.1
   * (below 33), plus 0.05 for a histogram above 0.05, capped at 0.95.
   */
  function RsiMacdConfluence(rsiThreshold: real, ctx: SymbolContext): (r: Result<RuleResult, RuleError>)
    ensures r.Success? ==> WellFormed(r.value)
    ensures r.Success?
    ensures r.value.triggered <==> Rsi(ctx) < rsiThreshold && Ind(ctx, "MACD") > Ind(ctx, "MACD_SIGNAL")
    ensures r.value.triggered ==> r.value.signal == Some(Buy) && 0.7 <= r.value.confidence <= 0.9
    ensures r.value.triggered && Rsi(ctx) >= 33.0 && Ind(ctx, "MACD") - Ind(ctx, "MACD_SIGNAL") <= 0.05
      ==> r.value.confidence == 0.7
  {
    var rsi := Ind(ctx, "RSI_14");
    var macd := Ind(ctx, "MACD");
    var signal := Ind(ctx, "MACD_SIGNAL");
    if !(rsi < rsiThreshold) then Untriggered()
    else if !(macd > signal) then Untriggered()
    else
      var rsiBoost := if rsi < 30.0 then 0.15 else if rsi < 33.0 then 0.1 else 0.0;
      var histogram := macd - signal;
      var histogramBoost := if histogram > 0.05 then 0.05 else 0.0;
      MakeResult(true, Some(Buy), Min(0.7 + rsiBoost + histogramBoost, 0.95),
        map["RSI_14" := Num(rsi), "MACD" := Num(macd), "MACD_SIGNAL" := Num(signal),
            "MACD_HISTOGRAM" := Num(histogram)])
  }

  /**
   * Dip Recovery: BUY exactly when SMA_20 > SMA_50 and RSI lies in the
   * recovery zone [low, high]; confidence 0.55 rising by a thirtieth per
   * point below the top of the zone, capped at 0.75.
   */
  function DipRecovery(zoneLow: real, zoneHigh: real, ctx: SymbolContext): (r: Result<RuleResult, RuleError>)
    ensures r.Success? ==> WellFormed(r.value)
    ensures r.Success?
    ensures r.value.triggered <==> Sma20(ctx) > Sma50(ctx) && zoneLow <= Rsi(ctx) <= zoneHigh
    ensures r.value.triggered ==> r.value.signal == Some(Buy) && 0.55 <= r.value.confidence <= 0.75
    ensures r.value.triggered && Rsi(ctx) == zoneHigh ==> r.value.confidence == 0.55
  {
    var rsi := Ind(ctx, "RSI_14");
    var sma20 := Ind(ctx, "SMA_20");
    var sma50 := Ind(ctx, "SMA_50");
    if sma20 <= sma50 then Untriggered()
    else if !(zoneLow <= rsi <= zoneHigh) then Untriggered()
    else
      var confidence := 0.55 + (zoneHigh - rsi) / 30.0;
      MakeResult(true, Some(Buy), Min(confidence, 0.75),
        map["RSI_14" := Num(rsi), "SMA_20" := Num(sma20), "SMA_50" := Num(sma50)])
  }

  /** Within the zone, a lower RSI never yields a lower recovery confidence. */
  lemma DipRecoveryLowerIsStronger(zoneLow: real, zoneHigh: real, lower: SymbolContext, higher: SymbolContext)
    requires DipRecovery(zoneLow, zoneHigh, lower).value.triggered
    requires DipRecovery(zoneLow, zoneHigh, higher).value.triggered
    requires Rsi(lower) <= Rsi(higher)
    ensures DipRecovery(zoneLow, zoneHigh, lower).value.confidence
         >= DipRecovery(zoneLow, zoneHigh, higher).value.confidence
  {
  }
}

=== FILE: enhanced_rules.dfy ===
/**
 * Enhanced rules: a filtered buy-the-dip, momentum reversal, and trend
 * continuation. Some of their divisions are unguarded; a zero denominator
 * is the `ZeroDivision` error.
 */
module EnhancedRules {
  import opened Wrappers
  import opened Base

  /** The filters of Enhanced Buy Dip, in the order they are applied. */
  predicate EnhancedBuyDipPasses(
    rsiOversold: real, minTrendSpread: real, requireVolumeConfirm: bool, ctx: SymbolContext)
  {
    && Sma20(ctx) > Sma50(ctx)
    && GuardedSpread(Sma20(ctx), Sma50(ctx)) >= minTrendSpread
    && Rsi(ctx) < rsiOversold
    && Close(ctx) >= Sma200(ctx)
    && (requireVolumeConfirm ==> VolumeRatio(ctx) >= 0.8)
  }

  /**
   * Enhanced Buy Dip: BUY exactly when price is in a meaningful uptrend
   * (SMA_20 above SMA_50 by at least the minimum spread), RSI is below the
   * oversold level, close is at or above SMA_200 and, when required, volume
   * is at least 80% of its average. The confidence sums dip, trend,
   * alignment and volume scores and is clamped to [0.5, 0.95]. Reporting
   * the distance from SMA_200 divides by it unguarded.
   */
  function EnhancedBuyDip(
    rsiOversold: real, rsiExtreme: real, minTrendSpread: real, requireVolumeConfirm: bool,
    ctx: SymbolContext): (r: Result<RuleResult, RuleError>)
    ensures r.Success? ==> WellFormed(r.value)
    ensures r.Failure? <==>
      EnhancedBuyDipPasses(rsiOversold, minTrendSpread, requireVolumeConfirm, ctx) && Sma200(ctx) == 0.0
    ensures r.Failure? ==> r.error == ZeroDivision
    ensures r.Success? ==>
      (r.value.triggered <==> EnhancedBuyDipPasses(rsiOversold, minTrendSpread, requireVolumeConfirm, ctx))
    ensures r.Success? && r.value.triggered ==>
      r.value.signal == Some(Buy) && 0.5 <= r.value.confidence <= 0.9
    ensures r.Success? && r.value.triggered ==>
      ("alignment" in r.value.factors &&
       (r.value.factors["alignment"] == Text("full") <==> Sma50(ctx) > Sma200(ctx)))
  {
    var rsi := Ind(ctx, "RSI_14");
    var sma20 := Ind(ctx, "SMA_20");
    var sma50 := Ind(ctx, "SMA_50");
    var sma200 := Ind(ctx, "SMA_200");
    var close := Ind(ctx, "close");
    if sma20 <= sma50 then Untriggered()
    else
      var trendSpread := GuardedSpread(sma20, sma50);
      if trendSpread < minTrendSpread then Untriggered()
      else if rsi >= rsiOversold then Untriggered()
      else if close < sma200 then Untriggered()
      else
        var volumeRatio := VolumeRatio(ctx);
        if requireVolumeConfirm && !(volumeRatio >= 0.8) then Untriggered()
        else
          var dipQuality := if rsi < rsiExtreme then "extreme" else if rsi < rsiOversold - 2.0 then "solid" else "shallow";
          var alignmentStatus := if sma50 > sma200 then "full" else "partial";
          var confidence := DipConfidence(rsi, rsiExtreme, rsiOversold, trendSpread, sma50 > sma200, volumeRatio);
          if sma200 == 0.0 then Failure(ZeroDivision)
          else
            MakeResult(true, Some(Buy), confidence,
              map["RSI_14" := Num(rsi), "trend_spread_pct" := Num(trendSpread),
                  "alignment" := Text(alignmentStatus), "volume_ratio" := Num(volumeRatio),
                  "dip_quality" := Text(dipQuality),
                  "price_vs_sma200" := Num((close - sma200) / sma200 * 100.0)])
  }

  /**
   * The enhanced dip confidence: dip score (0.40 extreme, 0.30 solid, 0.20
   * shallow), trend score by spread, 0.15 for full alignment and a volume
   * score, clamped to [0.5, 0.95]; the parts never sum past 0.9.
   */
  function DipConfidence(rsi: real, rsiExtreme: real, rsiOversold: real, trendSpread: real,
                         aligned: bool, volumeRatio: real): (c: real)
    ensures 0.5 <= c <= 0.9
    ensures aligned && rsi < rsiExtreme && trendSpread >= 3.0 && volumeRatio >= 1.5 ==> c == 0.9
  {
    var rsiScore := if rsi < rsiExtreme then 0.40 else if rsi < rsiOversold - 2.0 then 0.30 else 0.20;
    var trendScore := if trendSpread >= 3.0 then 0.25 else if trendSpread >= 2.0 then 0.20 else 0.15;
    var alignmentScore := if aligned then 0.15 else 0.0;
    var volumeScore :=
      if volumeRatio >= 1.5 then 0.10 else if volumeRatio >= 1.2 then 0.07
      else if volumeRatio >= 1.0 then 0.05 else 0.0;
    Min(Max(rsiScore + trendScore + alignmentScore + volumeScore, 0.5), 0.95)
  }

  /** With a positive SMA_200 the enhanced dip rule never fails. */
  lemma EnhancedBuyDipTotalOnPositivePrices(
    rsiOversold: real, rsiExtreme: real, minTrendSpread: real, requireVolumeConfirm: bool, ctx: SymbolContext)
    requires Sma200(ctx) > 0.0
    ensures EnhancedBuyDip(rsiOversold, rsiExtreme, minTrendSpread, requireVolumeConfirm, ctx).Success?
  {
  }

  /** The filters of Momentum Reversal, in order. */
  predicate MomentumReversalPasses(rsiMin: real, rsiMax: real, ctx: SymbolContext) {
    && rsiMin <= Rsi(ctx) <= rsiMax
    && Ind(ctx, "MACD") > Ind(ctx, "MACD_SIGNAL")
    && !(Ind(ctx, "MACD_HISTOGRAM") <= 0.05 && VolumeRatio(ctx) < 1.0)
  }

  /**
   * Momentum Reversal: BUY exactly when RSI is inside the recovery zone,
   * MACD is above its signal line, and either the stored histogram exceeds
   * 0.05 or volume is at least average. Confidence 0.55 plus bonuses for an
   * uptrend (0.15), histogram strength, RSI depth and volume, capped at 0.9.
   */
  function MomentumReversal(rsiMin: real, rsiMax: real, ctx: SymbolContext): (r: Result<RuleResult, RuleError>)
    ensures r.Success? ==> WellFormed(r.value)
    ensures r.Success?
    ensures r.value.triggered <==> MomentumReversalPasses(rsiMin, rsiMax, ctx)
    ensures r.value.triggered ==> r.value.signal == Some(Buy) && 0.55 <= r.value.confidence <= 0.9
    ensures r.value.triggered ==>
      ("uptrend" in r.value.factors && r.value.factors["uptrend"] == Flag(Sma20(ctx) > Sma50(ctx)))
  {
    var rsi := Ind(ctx, "RSI_14");
    var macd := Ind(ctx, "MACD");
    var signal := Ind(ctx, "MACD_SIGNAL");
    var histogram := Ind(ctx, "MACD_HISTOGRAM");
    var sma20 := Ind(ctx, "SMA_20");
    var sma50 := Ind(ctx, "SMA_50");
    var volumeRatio := VolumeRatio(ctx);
    var uptrend := sma20 > sma50;
    var histogramStrong := histogram > 0.05;
    if !(rsiMin <= rsi <= rsiMax) then Untriggered()
    else if !(macd > signal) then Untriggered()
    else if !histogramStrong && volumeRatio < 1.0 then Untriggered()
    else
      var confidence := ReversalScore(rsi, histogram, volumeRatio) + (if uptrend then 0.15 else 0.0);
      MakeResult(true, Some(Buy), Min(confidence, 0.90),
        map["RSI_14" := Num(rsi), "MACD" := Num(macd), "MACD_SIGNAL" := Num(signal),
            "MACD_HISTOGRAM" := Num(histogram), "uptrend" := Flag(uptrend),
            "volume_ratio" := Num(volumeRatio)])
  }

  /** The reversal confidence before the uptrend bonus and the cap. */
  function ReversalScore(rsi: real, histogram: real, volumeRatio: real): real {
    0.55
    + (if histogram > 0.1 then 0.10 else if histogram > 0.05 then 0.05 else 0.0)
    + (if rsi < 35.0 then 0.10 else if rsi < 40.0 then 0.05 else 0.0)
    + (if volumeRatio >= 1.2 then 0.05 else 0.0)
  }

  /**
   * The trend does not decide whether a reversal fires, and an uptrend adds
   * exactly 0.15 to the confidence, subject to the 0.9 cap.
   */
  lemma MomentumReversalUptrendBonus(rsiMin: real, rsiMax: real, up: SymbolContext, flat: SymbolContext)
    requires Rsi(up) == Rsi(flat) && VolumeRatio(up) == VolumeRatio(flat)
    requires Ind(up, "MACD") == Ind(flat, "MACD") && Ind(up, "MACD_SIGNAL") == Ind(flat, "MACD_SIGNAL")
    requires Ind(up, "MACD_HISTOGRAM") == Ind(flat, "MACD_HISTOGRAM")
    requires Sma20(up) > Sma50(up) && Sma20(flat) <= Sma50(flat)
    ensures MomentumReversal(rsiMin, rsiMax, up).value.triggered == MomentumReversal(rsiMin, rsiMax, flat).value.triggered
    ensures MomentumReversal(rsiMin, rsiMax, up).value.triggered ==>
      MomentumReversal(rsiMin, rsiMax, up).value.confidence
        == Min(MomentumReversal(rsiMin, rsiMax, flat).value.confidence + 0.15, 0.9)
  {
  }

  /** Signed distance of close from SMA_20, in percent. */
  function DistanceFromSma20(ctx: SymbolContext): real
    requires Sma20(ctx) != 0.0
  {
    (Close(ctx) - Sma20(ctx)) / Sma20(ctx) * 100.0
  }

  /** Trend Continuation's filters, assuming the distance is computable. */
  predicate TrendContinuationPasses(tolerance: real, ctx: SymbolContext)
    requires Sma20(ctx) != 0.0
  {
    && Sma20(ctx) > Sma50(ctx) > Sma200(ctx)
    && -tolerance <= DistanceFromSma20(ctx) <= tolerance
    && 35.0 <= Rsi(ctx) <= 60.0
  }

  /**
   * Trend Continuation: BUY exactly when SMA_20 > SMA_50 > SMA_200, close is
   * within the tolerance of SMA_20, and RSI lies in [35, 60]; confidence
   * 0.6 plus bonuses for wide spreads, a tight pullback and volume (minus
   * 0.05 for thin volume), capped at 0.85. Its distance and spreads divide
   * unguarded, so a zero average reached on that path is `ZeroDivision`;
   * with a positive SMA_200 that cannot happen.
   */
  function TrendContinuation(tolerance: real, ctx: SymbolContext): (r: Result<RuleResult, RuleError>)
    ensures r.Success? ==> WellFormed(r.value)
    ensures Sma200(ctx) > 0.0 ==> r.Success?
    ensures r.Failure? ==> r.error == ZeroDivision
    ensures r.Failure? ==> Sma20(ctx) > Sma50(ctx) > Sma200(ctx)
    ensures r.Success? ==> Sma20(ctx) != 0.0 || !(Sma20(ctx) > Sma50(ctx) > Sma200(ctx))
    ensures r.Success? && Sma20(ctx) != 0.0 ==> (r.value.triggered <==> TrendContinuationPasses(tolerance, ctx))
    ensures r.Success? && r.value.triggered ==>
      r.value.signal == Some(Buy) && 0.55 <= r.value.confidence <= 0.85
  {
    var rsi := Ind(ctx, "RSI_14");
    var sma20 := Ind(ctx, "SMA_20");
    var sma50 := Ind(ctx, "SMA_50");
    var sma200 := Ind(ctx, "SMA_200");
    var close := Ind(ctx, "close");
    var volumeRatio := VolumeRatio(ctx);
    if !(sma20 > sma50 > sma200) then Untriggered()
    else if sma20 == 0.0 then Failure(ZeroDivision)
    else
      var distance := (close - sma20) / sma20 * 100.0;
      var atSupport := -tolerance <= distance <= tolerance;
      if !atSupport then Untriggered()
      else if rsi < 35.0 then Untriggered()
      else if rsi > 60.0 then Untriggered()
      else if sma50 == 0.0 || sma200 == 0.0 then Failure(ZeroDivision)
      else
        var spread2050 := (sma20 - sma50) / sma50 * 100.0;
        var spread50200 := (sma50 - sma200) / sma200 * 100.0;
        var confidence :=
          0.60
          + (if spread2050 > 3.0 then 0.10 else 0.0)
          + (if spread50200 > 5.0 then 0.10 else 0.0)
          + (if Abs(distance) < 0.5 then 0.05 else 0.0)
          + (if volumeRatio >= 1.0 then 0.05 else if volumeRatio < 0.8 then -0.05 else 0.0);
        MakeResult(true, Some(Buy), Min(confidence, 0.85),
          map["RSI_14" := Num(rsi), "close" := Num(close), "SMA_20" := Num(sma20),
              "distance_from_sma20_pct" := Num(distance),
              "trend_spread_20_50" := Num(spread2050), "trend_spread_50_200" := Num(spread50200),
              "volume_ratio" := Num(volumeRatio)])
  }

  /** A concrete failure: aligned averages with SMA_20 at zero raise instead of returning a result. */
  lemma TrendContinuationZeroSma20Fails(ctx: SymbolContext)
    requires Sma20(ctx) == 0.0 && Sma50(ctx) == -1.0 && Sma200(ctx) == -2.0
    ensures TrendContinuation(2.0, ctx) == Failure(ZeroDivision)
  {
  }
}

=== FILE: macd_rules.dfy ===
/** MACD-based rules: bullish crossover (BUY), bearish crossover (WATCH), momentum (BUY/WATCH). */
module MacdRules {
  import opened Wrappers
  import opened Base

  function Macd(ctx: SymbolContext): real {
    Ind(ctx, "MACD")
  }

  function MacdSignal(ctx: SymbolContext): real {
    Ind(ctx, "MACD_SIGNAL")
  }

  /** The stored histogram, falling back to MACD minus its signal line. */
  function Histogram(ctx: SymbolContext): real {
    GetIndicator(ctx, "MACD_HISTOGRAM", Macd(ctx) - MacdSignal(ctx))
  }

  function MacdFactors(macd: real, signal: real, histogram: real): Factors {
    map["MACD" := Num(macd), "MACD_SIGNAL" := Num(signal), "MACD_HISTOGRAM" := Num(histogram)]
  }

  /**
   * MACD Bullish Crossover: BUY when MACD is above its signal line and the
   * histogram is positive; a fresh crossover (histogram below the
   * threshold) scores in (0.65, 0.85], an established one scores 0.5.
   */
  function BullishCrossover(histogramThreshold: real, ctx: SymbolContext): (r: Result<RuleResult, RuleError>)
    ensures r.Success? ==> WellFormed(r.value)
    ensures r.Success?
    ensures r.value.triggered <==>
      Macd(ctx) > MacdSignal(ctx) &&
      (0.0 < Histogram(ctx) < histogramThreshold || Histogram(ctx) >= histogramThreshold)
    ensures r.value.triggered ==> r.value.signal == Some(Buy)
    ensures r.value.triggered && 0.0 < Histogram(ctx) < histogramThreshold ==> 0.65 < r.value.confidence <= 0.85
    ensures r.value.triggered && Histogram(ctx) >= histogramThreshold ==> r.value.confidence == 0.5
    ensures r.value.triggered ==> r.value.factors == MacdFactors(Macd(ctx), MacdSignal(ctx), Histogram(ctx))
  {
    var macd := Ind(ctx, "MACD");
    var signal := Ind(ctx, "MACD_SIGNAL");
    var histogram := GetIndicator(ctx, "MACD_HISTOGRAM", macd - signal);
    if macd <= signal then Untriggered()
    else if 0.0 < histogram < histogramThreshold then
      MakeResult(true, Some(Buy), Min(0.65 + Abs(histogram) * 3.0, 0.85), MacdFactors(macd, signal, histogram))
    else if histogram >= histogramThreshold then
      MakeResult(true, Some(Buy), 0.5, MacdFactors(macd, signal, histogram))
    else Untriggered()
  }

  /** A fresh bullish crossover always outscores an established one. */
  lemma FreshCrossoverOutranksEstablished(histogramThreshold: real, recent: SymbolContext, established: SymbolContext)
    requires BullishCrossover(histogramThreshold, recent).value.triggered
    requires BullishCrossover(histogramThreshold, established).value.triggered
    requires Histogram(recent) < histogramThreshold <= Histogram(established)
    ensures BullishCrossover(histogramThreshold, recent).value.confidence
          > BullishCrossover(histogramThreshold, established).value.confidence
  {
  }

  /**
   * MACD Bearish Crossover: a warning (WATCH, never SELL) when MACD is below
   * its signal line and the histogram is negative; confidence in [0.5, 0.8].
   */
  function BearishCrossover(histogramThreshold: real, ctx: SymbolContext): (r: Result<RuleResult, RuleError>)
    ensures r.Success? ==> WellFormed(r.value)
    ensures r.Success?
    ensures r.value.triggered <==>
      Macd(ctx) < MacdSignal(ctx) &&
      (-histogramThreshold < Histogram(ctx) < 0.0 || Histogram(ctx) <= -histogramThreshold)
    ensures r.value.triggered ==> r.value.signal == Some(Watch)
    ensures r.value.triggered && -histogramThreshold < Histogram(ctx) < 0.0 ==> 0.6 < r.value.confidence <= 0.8
    ensures r.value.triggered && Histogram(ctx) <= -histogramThreshold ==> r.value.confidence == 0.5
  {
    var macd := Ind(ctx, "MACD");
    var signal := Ind(ctx, "MACD_SIGNAL");
    var histogram := GetIndicator(ctx, "MACD_HISTOGRAM", macd - signal);
    if macd >= signal then Untriggered()
    else if -histogramThreshold < histogram < 0.0 then
      MakeResult(true, Some(Watch), Min(0.6 + Abs(histogram) * 3.0, 0.8), MacdFactors(macd, signal, histogram))
    else if histogram <= -histogramThreshold then
      MakeResult(true, Some(Watch), 0.5, MacdFactors(macd, signal, histogram))
    else Untriggered()
  }

  /** The two crossover rules never trigger on the same snapshot. */
  lemma CrossoversExclusive(bullThreshold: real, bearThreshold: real, ctx: SymbolContext)
    ensures !(BullishCrossover(bullThreshold, ctx).value.triggered && BearishCrossover(bearThreshold, ctx).value.triggered)
  {
  }

  /**
   * MACD Momentum: from MACD minus its signal line (the stored histogram is
   * not consulted), BUY above 0.05 and WATCH below -0.05, each with
   * confidence in (0.5, 0.7].
   */
  function Momentum(ctx: SymbolContext): (r: Result<RuleResult, RuleError>)
    ensures r.Success? ==> WellFormed(r.value)
    ensures r.Success?
    ensures var h := Macd(ctx) - MacdSignal(ctx);
      && (r.value.triggered <==> h > 0.05 || h < -0.05)
      && (h > 0.05 ==> r.value.signal == Some(Buy))
      && (h < -0.05 ==> r.value.signal == Some(Watch))
    ensures r.value.triggered ==> 0.5 < r.value.confidence <= 0.7
    ensures r.value.triggered ==> r.value.factors == MacdFactors(Macd(ctx), MacdSignal(ctx), Macd(ctx) - MacdSignal(ctx))
  {
    var macd := Ind(ctx, "MACD");
    var signal := Ind(ctx, "MACD_SIGNAL");
    var histogram := macd - signal;
    if histogram > 0.05 then
      MakeResult(true, Some(Buy), Min(0.4 + histogram * 2.0, 0.7), MacdFactors(macd, signal, histogram))
    else if histogram < -0.05 then
      MakeResult(true, Some(Watch), Min(0.4 + Abs(histogram) * 2.0, 0.7), MacdFactors(macd, signal, histogram))
    else Untriggered()
  }

  /** Momentum is symmetric: mirrored histograms give equal confidence. */
  lemma MomentumSymmetric(up: SymbolContext, down: SymbolContext)
    requires Macd(up) - MacdSignal(up) == -(Macd(down) - MacdSignal(down))
    ensures Momentum(up).value.confidence == Momentum(down).value.confidence
    ensures Momentum(up).value.triggered == Momentum(down).value.triggered
  {
  }
}

=== FILE: market_context.dfy ===
/**
 * The market-regime reader: the regime-to-multiplier table, the reader's
 * initial state, the multiplier lookup and the state update performed by a
 * refresh. The key-value store and the background thread are replaced by the
 * outcome of one fetch, passed in as a value.
 */
module MarketContext {
  import opened Wrappers
  import opened Base

  /** Confidence multipliers applied to BUY signals, keyed by regime name. */
  const RegimeMultipliers: map<string, real> :=
    map["BULL" := 1.0, "SIDEWAYS" := 0.7, "BEAR" := 0.3, "UNKNOWN" := 1.0]

  /** The regime the reader currently holds. */
  datatype RegimeState = RegimeState(regime: string, confidence: real)

  /** The reader before any refresh has succeeded. */
  const Initial: RegimeState := RegimeState("UNKNOWN", 0.0)

  /**
   * What one refresh attempt saw: no client, a store error, an absent or
   * empty key, a payload that failed to parse (bad JSON or a confidence that
   * is not a number), or a parsed payload whose fields may be missing.
   */
  datatype FetchOutcome =
    | NoClient
    | StoreError
    | KeyAbsent
    | Unparseable
    | Payload(regime: Option<string>, regimeConfidence: Option<real>)

  /** The multiplier for a signal type: only BUY is dampened, unknown regimes count as 1.0. */
  function Multiplier(state: RegimeState, signalType: SignalType): (m: real)
    ensures signalType != Buy ==> m == 1.0
    ensures signalType == Buy && state.regime in RegimeMultipliers ==> m == RegimeMultipliers[state.regime]
    ensures signalType == Buy && state.regime !in RegimeMultipliers ==> m == 1.0
    ensures 0.0 < m <= 1.0
  {
    if signalType != Buy then 1.0
    else if state.regime in RegimeMultipliers then RegimeMultipliers[state.regime]
    else 1.0
  }

  /** The table's values are in [0, 1] and order the regimes BEAR < SIDEWAYS <= BULL. */
  lemma MultiplierTableOrdered()
    ensures forall k :: k in RegimeMultipliers ==> 0.0 <= RegimeMultipliers[k] <= 1.0
    ensures RegimeMultipliers["BEAR"] < RegimeMultipliers["SIDEWAYS"] <= RegimeMultipliers["BULL"]
    ensures RegimeMultipliers["UNKNOWN"] == 1.0
  {
  }

  /** Per regime, the BUY multiplier the table prescribes. */
  lemma BuyMultipliers()
    ensures Multiplier(RegimeState("BULL", 0.9), Buy) == 1.0
    ensures Multiplier(RegimeState("SIDEWAYS", 0.5), Buy) == 0.7
    ensures Multiplier(RegimeState("BEAR", 0.8), Buy) == 0.3
    ensures Multiplier(Initial, Buy) == 1.0
    ensures Multiplier(RegimeState("CRASH", 0.8), Buy) == 1.0
  {
  }

  /**
   * One refresh: every failed fetch leaves the state as it was; a parsed
   * payload replaces regime and confidence together, upper-casing the regime
   * and defaulting a missing regime to "UNKNOWN" and a missing confidence to 0.0.
   */
  function Refresh(state: RegimeState, outcome: FetchOutcome): (s: RegimeState)
    ensures !outcome.Payload? ==> s == state
    ensures outcome.Payload? ==> s.regime == Upper(outcome.regime.GetOr("UNKNOWN"))
    ensures outcome.Payload? ==> s.confidence == outcome.regimeConfidence.GetOr(0.0)
  {
    match outcome
    case Payload(regime, confidence) =>
      RegimeState(Upper(regime.GetOr("UNKNOWN")), confidence.GetOr(0.0))
    case _ => state
  }

  /** The state after a successful refresh no longer depends on the state before it. */
  lemma RefreshForgetsPrevious(a: RegimeState, b: RegimeState, regime: Option<string>, confidence: Option<real>)
    ensures Refresh(a, Payload(regime, confidence)) == Refresh(b, Payload(regime, confidence))
  {
  }

  /** Refreshing twice with the same outcome is the same as refreshing once. */
  lemma RefreshIdempotent(state: RegimeState, outcome: FetchOutcome)
    ensures Refresh(Refresh(state, outcome), outcome) == Refresh(state, outcome)
  {
  }

  /** A lower-case regime in the payload selects the same multiplier as its upper-case form. */
  lemma RefreshUpperCasesRegime(state: RegimeState)
    ensures Refresh(state, Payload(Some("bear"), Some(0.8))) == RegimeState("BEAR", 0.8)
    ensures Multiplier(Refresh(state, Payload(Some("bear"), None)), Buy) == 0.3
    ensures Refresh(state, Payload(None, None)) == Initial
  {
    assert Upper("bear") == "BEAR";
    assert Upper("UNKNOWN") == "UNKNOWN";
  }
}

=== FILE: mining_rules.dfy ===
/**
 * Mining-sector rules. Each applies only to symbols in the miner/commodity
 * table (matched after upper-casing) and leaves every other symbol
 * untriggered. Their spreads and distances divide unguarded; a zero
 * average reached on that path is `ZeroDivision`.
 */
module MiningRules {
  import opened Wrappers
  import opened Base

  /** The commodities miners are mapped to. */
  datatype Commodity = Gold | Silver | Uranium | Platinum | Palladium | Copper | RareEarth | Industrial

  /** The commodity's name as reported in contributing factors. */
  function CommodityName(c: Commodity): string {
    match c
    case Gold => "gold"
    case Silver => "silver"
    case Uranium => "uranium"
    case Platinum => "platinum"
    case Palladium => "palladium"
    case Copper => "copper"
    case RareEarth => "rare_earth"
    case Industrial => "industrial"
  }

  /** Miner or fund ticker to the commodity it tracks. */
  const MinerCommodity: map<string, Commodity> := map[
    "GDX" := Gold, "GDXJ" := Gold, "GLD" := Gold, "GOLD" := Gold, "NEM" := Gold,
    "RGLD" := Gold, "WPM" := Gold, "FNV" := Gold,
    "SLV" := Silver, "SIL" := Silver, "SILJ" := Silver, "AG" := Silver, "PAAS" := Silver,
    "HL" := Silver, "MAG" := Silver, "CDE" := Silver, "EXK" := Silver, "FSM" := Silver,
    "CCJ" := Uranium, "URA" := Uranium, "URNM" := Uranium, "UUUU" := Uranium,
    "DNN" := Uranium, "UEC" := Uranium, "NXE" := Uranium,
    "PPLT" := Platinum, "PALL" := Palladium,
    "COPX" := Copper, "FCX" := Copper, "SCCO" := Copper,
    "MP" := RareEarth, "IAUM" := Gold,
    "CAT" := Industrial, "ETN" := Industrial, "AVAV" := Industrial]

  /** Seasonally strong months; palladium has no entry in the table, hence none. */
  function StrongMonths(c: Commodity): set<int> {
    match c
    case Gold => {1, 2, 8, 9, 11, 12}
    case Silver => {1, 2, 7, 8, 9}
    case Uranium => {1, 2, 3, 9, 10, 11}
    case Platinum => {1, 4, 12}
    case Palladium => {}
    case Copper => {1, 2, 3, 4}
    case RareEarth => {1, 2, 3, 10, 11}
    case Industrial => {1, 2, 10, 11, 12}
  }

  /** Seasonally weak months; palladium has no entry in the table, hence none. */
  function WeakMonths(c: Commodity): set<int> {
    match c
    case Gold => {5, 6}
    case Silver => {5, 6}
    case Uranium => {6, 7}
    case Platinum => {5, 6}
    case Palladium => {}
    case Copper => {5, 6, 7}
    case RareEarth => {5, 6}
    case Industrial => {5, 6, 7}
  }

  /** The commodity of a symbol, looked up after upper-casing. */
  function CommodityOf(symbol: string): Option<Commodity> {
    var key := Upper(symbol);
    if key in MinerCommodity then Some(MinerCommodity[key]) else None
  }

  /** A seasonal profile: non-empty strong and weak months, disjoint, all real months. */
  predicate ProfileSound(strong: set<int>, weak: set<int>) {
    && |strong| > 0 && |weak| > 0
    && strong * weak == {}
    && (forall m :: m in strong + weak ==> 1 <= m <= 12)
  }

  lemma SetNonEmpty(s: set<int>, x: int)
    requires x in s
    ensures |s| > 0
  {
  }

  /**
   * Every commodity with a seasonal profile has non-empty, disjoint strong
   * and weak months within the calendar.
   */
  lemma SeasonalTablesConsistent(c: Commodity)
    requires c != Palladium
    ensures ProfileSound(StrongMonths(c), WeakMonths(c))
  {
    var strong, weak := StrongMonths(c), WeakMonths(c);
    assert 1 in strong;
    assert 6 in weak;
    SetNonEmpty(strong, 1);
    SetNonEmpty(weak, 6);
    forall m | m in strong ensures m !in weak && 1 <= m <= 12 {
    }
    forall m | m in weak ensures 1 <= m <= 12 {
    }
    assert strong * weak == {} by {
      forall m | m in strong * weak ensures false {
      }
    }
  }

  /** Only palladium has no seasonal profile, so its months are always neutral. */
  lemma PalladiumHasNoSeason(c: Commodity)
    ensures c == Palladium <==> StrongMonths(c) == {} && WeakMonths(c) == {}
  {
    if c != Palladium {
      assert 1 in StrongMonths(c);
    }
  }

  /** Lookup ignores case: any spelling finds the commodity of its upper-cased form. */
  lemma CommodityLookupIgnoresCase(symbol: string)
    ensures CommodityOf(symbol) == CommodityOf(Upper(symbol))
  {
    UpperIdempotent(symbol);
  }

  /** Lookups from the tests: lower- and mixed-case tickers, and a non-miner. */
  lemma CommodityLookupExamples()
    ensures CommodityOf("gdx") == Some(Gold)
    ensures CommodityOf("Ccj") == Some(Uranium)
    ensures CommodityOf("AAPL") == None
  {
    assert Upper("gdx") == "GDX";
    assert Upper("Ccj") == "CCJ";
    assert Upper("AAPL") == "AAPL";
  }

  /** Percent distance of `a` from `base`, unguarded. */
  function PercentFrom(a: real, base: real): real
    requires base != 0.0
  {
    (a - base) / base * 100.0
  }

  function AbsPercentFrom(a: real, base: real): real
    requires base != 0.0
  {
    Abs(a - base) / base * 100.0
  }

  predicate IsMiner(ctx: SymbolContext) {
    CommodityOf(ctx.symbol).Some?
  }

  /** The gates of Commodity Breakout, in order, with the averages it divides by non-zero. */
  predicate CommodityBreakoutPasses(breakoutThreshold: real, minTrendStrength: real, ctx: SymbolContext) {
    && IsMiner(ctx) && Sma20(ctx) > Sma50(ctx) && Sma50(ctx) != 0.0
    && PercentFrom(Sma20(ctx), Sma50(ctx)) >= minTrendStrength
    && Sma20(ctx) != 0.0
    && PercentFrom(Close(ctx), Sma20(ctx)) >= breakoutThreshold
    && 45.0 <= Rsi(ctx) <= 75.0
  }

  /**
   * Commodity Breakout: BUY for a miner in an uptrend whose SMA_20 leads
   * SMA_50 by the minimum strength, whose close breaks above SMA_20 by the
   * threshold, with RSI in [45, 75]; confidence 0.55 plus breakout, volume
   * and RSI sweet-spot bonuses, capped at 0.85.
   */
  function CommodityBreakout(breakoutThreshold: real, minTrendStrength: real, ctx: SymbolContext)
    : (r: Result<RuleResult, RuleError>)
    ensures r.Success? ==> WellFormed(r.value)
    ensures !IsMiner(ctx) ==> r == Untriggered()
    ensures r.Failure? <==>
      && IsMiner(ctx) && Sma20(ctx) > Sma50(ctx)
      && (Sma50(ctx) == 0.0 || (PercentFrom(Sma20(ctx), Sma50(ctx)) >= minTrendStrength && Sma20(ctx) == 0.0))
    ensures r.Failure? ==> r.error == ZeroDivision
    ensures Sma50(ctx) > 0.0 ==> r.Success?
    ensures r.Success? ==> (r.value.triggered <==> CommodityBreakoutPasses(breakoutThreshold, minTrendStrength, ctx))
    ensures r.Success? && r.value.triggered ==> r.value.signal == Some(Buy) && 0.55 <= r.value.confidence <= 0.85
  {
    var rsi := Ind(ctx, "RSI_14");
    var sma20 := Ind(ctx, "SMA_20");
    var sma50 := Ind(ctx, "SMA_50");
    var close := Ind(ctx, "close");
    var commodity := CommodityOf(ctx.symbol);
    if commodity.None? then Untriggered()
    else if sma20 <= sma50 then Untriggered()
    else if sma50 == 0.0 then Failure(ZeroDivision)
    else
      var trendStrength := PercentFrom(sma20, sma50);
      if trendStrength < minTrendStrength then Untriggered()
      else if sma20 == 0.0 then Failure(ZeroDivision)
      else
        var breakout := PercentFrom(close, sma20);
        if breakout < breakoutThreshold then Untriggered()
        else if rsi < 45.0 then Untriggered()
        else if rsi > 75.0 then Untriggered()
        else
          var volumeRatio := VolumeRatio(ctx);
          var confidence :=
            0.55
            + (if breakout > 4.0 then 0.15 else if breakout > 3.0 then 0.10 else if breakout > 2.0 then 0.05 else 0.0)
            + (if volumeRatio > 1.5 then 0.10 else if volumeRatio > 1.2 then 0.05 else 0.0)
            + (if 55.0 <= rsi <= 65.0 then 0.05 else 0.0);
          MakeResult(true, Some(Buy), Min(confidence, 0.85),
            map["commodity" := Text(CommodityName(commodity.value)), "breakout_pct" := Num(breakout),
                "trend_strength_pct" := Num(trendStrength), "RSI_14" := Num(rsi),
                "volume_ratio" := Num(volumeRatio)])
  }

  /** The support conditions of Miner Metal Ratio, reached once both averages are non-zero. */
  predicate NearSupport(tolerance: real, close: real, sma: real)
    requires sma != 0.0
  {
    AbsPercentFrom(close, sma) <= tolerance
  }

  /** The gates of Miner Metal Ratio, in order, with both averages non-zero. */
  predicate MinerMetalRatioPasses(rsiOversold: real, supportTolerance: real, ctx: SymbolContext) {
    && IsMiner(ctx)
    && (Close(ctx) > Sma200(ctx) || Sma50(ctx) > Sma200(ctx))
    && Rsi(ctx) <= rsiOversold
    && Sma50(ctx) != 0.0 && Sma200(ctx) != 0.0
    && (NearSupport(supportTolerance, Close(ctx), Sma50(ctx)) || NearSupport(supportTolerance, Close(ctx), Sma200(ctx)))
  }

  /**
   * Miner Metal Ratio: BUY for a miner whose long-term trend is intact
   * (close or SMA_50 above SMA_200), with RSI at or below the oversold
   * level, and close within the tolerance of SMA_50 or SMA_200. SMA_200 is
   * reported as the support exactly when close is near it; confidence 0.6
   * plus RSI, support and alignment bonuses, capped at 0.85.
   */
  function MinerMetalRatio(rsiOversold: real, supportTolerance: real, ctx: SymbolContext)
    : (r: Result<RuleResult, RuleError>)
    ensures r.Success? ==> WellFormed(r.value)
    ensures !IsMiner(ctx) ==> r == Untriggered()
    ensures r.Failure? <==>
      && IsMiner(ctx)
      && (Close(ctx) > Sma200(ctx) || Sma50(ctx) > Sma200(ctx))
      && Rsi(ctx) <= rsiOversold
      && (Sma50(ctx) == 0.0 || Sma200(ctx) == 0.0)
    ensures r.Failure? ==> r.error == ZeroDivision
    ensures r.Success? ==> (r.value.triggered <==> MinerMetalRatioPasses(rsiOversold, supportTolerance, ctx))
    ensures r.Success? && r.value.triggered ==>
      && Sma50(ctx) != 0.0 && Sma200(ctx) != 0.0
      && "support_level" in r.value.factors
      && (r.value.factors["support_level"] == Text("SMA_200") <==> NearSupport(supportTolerance, Close(ctx), Sma200(ctx)))
    ensures r.Success? && r.value.triggered ==> r.value.signal == Some(Buy) && 0.6 <= r.value.confidence <= 0.85
  {
    var rsi := Ind(ctx, "RSI_14");
    var sma20 := Ind(ctx, "SMA_20");
    var sma50 := Ind(ctx, "SMA_50");
    var sma200 := Ind(ctx, "SMA_200");
    var close := Ind(ctx, "close");
    var commodity := CommodityOf(ctx.symbol);
    if commodity.None? then Untriggered()
    else if !(close > sma200 || sma50 > sma200) then Untriggered()
    else if rsi > rsiOversold then Untriggered()
    else if sma50 == 0.0 || sma200 == 0.0 then Failure(ZeroDivision)
    else
      var dist50 := AbsPercentFrom(close, sma50);
      var dist200 := AbsPercentFrom(close, sma200);
      var near50 := dist50 <= supportTolerance;
      var near200 := dist200 <= supportTolerance;
      if !(near50 || near200) then Untriggered()
      else
        var confidence :=
          0.60
          + (if rsi < 25.0 then 0.15 else if rsi < 30.0 then 0.10 else 0.0)
          + (if near200 then 0.10 else 0.0)
          + (if sma20 > sma50 > sma200 then 0.05 else 0.0);
        MakeResult(true, Some(Buy), Min(confidence, 0.85),
          map["commodity" := Text(CommodityName(commodity.value)), "RSI_14" := Num(rsi),
              "support_level" := Text(if near200 then "SMA_200" else "SMA_50"),
              "dist_to_support_pct" := Num(Min(dist50, dist200)),
              "long_term_trend" := Text("intact")])
  }

  /** Indicators Dollar Weakness needs; MACD only when it is required. */
  function DollarWeaknessIndicators(requireMacdPositive: bool): (names: seq<string>)
    ensures ("MACD" in names) <==> requireMacdPositive
  {
    ["RSI_14", "SMA_20", "SMA_50", "SMA_200", "close"]
    + (if requireMacdPositive then ["MACD", "MACD_SIGNAL"] else [])
  }

  /** The gates of Dollar Weakness, in order, with the averages it divides by non-zero. */
  predicate DollarWeaknessPasses(minTrendSpread: real, requireMacdPositive: bool, ctx: SymbolContext) {
    && IsMiner(ctx) && Sma20(ctx) > Sma50(ctx) > Sma200(ctx)
    && Sma50(ctx) != 0.0 && Sma200(ctx) != 0.0
    && PercentFrom(Sma20(ctx), Sma50(ctx)) >= minTrendSpread
    && (requireMacdPositive ==> Ind(ctx, "MACD") > Ind(ctx, "MACD_SIGNAL"))
    && 50.0 <= Rsi(ctx) <= 75.0
    && Sma20(ctx) != 0.0
  }

  /**
   * Dollar Weakness: BUY for a fully aligned miner whose SMA_20 leads SMA_50
   * by the minimum spread, with MACD above its signal when required, and
   * RSI in [50, 75]; confidence 0.55 plus spread and RSI bonuses, capped at
   * 0.85.
   */
  function DollarWeakness(minTrendSpread: real, requireMacdPositive: bool, ctx: SymbolContext)
    : (r: Result<RuleResult, RuleError>)
    ensures r.Success? ==> WellFormed(r.value)
    ensures !IsMiner(ctx) ==> r == Untriggered()
    ensures r.Failure? <==>
      && IsMiner(ctx) && Sma20(ctx) > Sma50(ctx) > Sma200(ctx)
      && (Sma50(ctx) == 0.0 || Sma200(ctx) == 0.0
          || (&& PercentFrom(Sma20(ctx), Sma50(ctx)) >= minTrendSpread
              && (requireMacdPositive ==> Ind(ctx, "MACD") > Ind(ctx, "MACD_SIGNAL"))
              && 50.0 <= Rsi(ctx) <= 75.0
              && Sma20(ctx) == 0.0))
    ensures r.Failure? ==> r.error == ZeroDivision
    ensures Sma200(ctx) > 0.0 ==> r.Success?
    ensures r.Success? ==> (r.value.triggered <==> DollarWeaknessPasses(minTrendSpread, requireMacdPositive, ctx))
    ensures r.Success? && r.value.triggered ==> r.value.signal == Some(Buy) && 0.55 <= r.value.confidence <= 0.8
  {
    var rsi := Ind(ctx, "RSI_14");
    var sma20 := Ind(ctx, "SMA_20");
    var sma50 := Ind(ctx, "SMA_50");
    var sma200 := Ind(ctx, "SMA_200");
    var close := Ind(ctx, "close");
    var commodity := CommodityOf(ctx.symbol);
    if commodity.None? then Untriggered()
    else if !(sma20 > sma50 > sma200) then Untriggered()
    else if sma50 == 0.0 || sma200 == 0.0 then Failure(ZeroDivision)
    else
      var spread2050 := PercentFrom(sma20, sma50);
      var spread50200 := PercentFrom(sma50, sma200);
      if spread2050 < minTrendSpread then Untriggered()
      else if requireMacdPositive && Ind(ctx, "MACD") <= Ind(ctx, "MACD_SIGNAL") then Untriggered()
      else if rsi < 50.0 then Untriggered()
      else if rsi > 75.0 then Untriggered()
      else if sma20 == 0.0 then Failure(ZeroDivision)
      else
        var pricePosition := PercentFrom(close, sma20);
        MakeResult(true, Some(Buy), DollarWeaknessConfidence(spread2050, spread50200, rsi),
          map["commodity" := Text(CommodityName(commodity.value)), "RSI_14" := Num(rsi),
              "trend_spread_20_50" := Num(spread2050), "trend_spread_50_200" := Num(spread50200),
              "price_vs_sma20_pct" := Num(pricePosition)])
  }

  /**
   * The Dollar Weakness confidence: 0.55 plus the 20/50 and 50/200 spread
   * bonuses and the RSI sweet-spot bonus; the 0.85 cap is never reached.
   */
  function DollarWeaknessConfidence(spread2050: real, spread50200: real, rsi: real): (c: real)
    ensures 0.55 <= c <= 0.8
    ensures spread2050 <= 3.0 && spread50200 <= 4.0 && !(55.0 <= rsi <= 65.0) ==> c == 0.55
  {
    var confidence :=
      0.55
      + (if spread2050 > 4.0 then 0.10 else if spread2050 > 3.0 then 0.05 else 0.0)
      + (if spread50200 > 6.0 then 0.10 else if spread50200 > 4.0 then 0.05 else 0.0)
      + (if 55.0 <= rsi <= 65.0 then 0.05 else 0.0);
    Min(confidence, 0.85)
  }

  function SeasonalStatus(commodity: Commodity, month: Month): string {
    if month in StrongMonths(commodity) then "STRONG"
    else if month in WeakMonths(commodity) then "WEAK"
    else "NEUTRAL"
  }

  /** The seasonal confidence before the trend bonus and the clamp. */
  function SeasonalBase(commodity: Commodity, month: Month, boost: real, penalty: real): real {
    if month in StrongMonths(commodity) then 0.55 + boost
    else if month in WeakMonths(commodity) then 0.55 - penalty
    else 0.55
  }

  /** The gates of the Seasonality Filter, in order, with SMA_50 non-zero. */
  predicate SeasonalityPasses(ctx: SymbolContext) {
    && IsMiner(ctx) && Sma20(ctx) > Sma50(ctx) && 30.0 <= Rsi(ctx) <= 65.0
    && !(ctx.month in WeakMonths(CommodityOf(ctx.symbol).value) && ctx.currentPosition != Some("long"))
    && Sma50(ctx) != 0.0
  }

  /**
   * Seasonality Filter: BUY for a miner in an uptrend with RSI in [30, 65],
   * its confidence raised in seasonally strong months and lowered in weak
   * ones, clamped to [0.40, 0.85]. In a weak month it fires only for a
   * symbol already held long. The base-signal option has no effect.
   */
  function Seasonality(strongMonthBoost: real, weakMonthPenalty: real, requireBaseSignal: bool, ctx: SymbolContext)
    : (r: Result<RuleResult, RuleError>)
    ensures r.Success? ==> WellFormed(r.value)
    ensures !IsMiner(ctx) ==> r == Untriggered()
    ensures r.Failure? <==>
      && IsMiner(ctx) && Sma20(ctx) > Sma50(ctx) && 30.0 <= Rsi(ctx) <= 65.0
      && !(ctx.month in WeakMonths(CommodityOf(ctx.symbol).value) && ctx.currentPosition != Some("long"))
      && Sma50(ctx) == 0.0
    ensures r.Failure? ==> r.error == ZeroDivision
    ensures r.Success? ==> (r.value.triggered <==> SeasonalityPasses(ctx))
    ensures r.Success? && r.value.triggered ==>
      && r.value.signal == Some(Buy) && 0.40 <= r.value.confidence <= 0.85
      && "seasonal_status" in r.value.factors
      && r.value.factors["seasonal_status"]
         == Text(SeasonalStatus(CommodityOf(ctx.symbol).value, ctx.month))
    ensures r.Success? && r.value.triggered && IsMiner(ctx)
      && SeasonalStatus(CommodityOf(ctx.symbol).value, ctx.month) == "WEAK"
      ==> ctx.currentPosition == Some("long")
  {
    var rsi := Ind(ctx, "RSI_14");
    var sma20 := Ind(ctx, "SMA_20");
    var sma50 := Ind(ctx, "SMA_50");
    var commodity := CommodityOf(ctx.symbol);
    if commodity.None? then Untriggered()
    else
      var isWeakMonth := ctx.month in WeakMonths(commodity.value);
      if !(sma20 > sma50) then Untriggered()
      else if !(30.0 <= rsi <= 65.0) then Untriggered()
      else
        var base := SeasonalBase(commodity.value, ctx.month, strongMonthBoost, weakMonthPenalty);
        if isWeakMonth && ctx.currentPosition != Some("long") then Untriggered()
        else if sma50 == 0.0 then Failure(ZeroDivision)
        else
          var trendSpread := PercentFrom(sma20, sma50);
          var confidence := base + (if trendSpread > 2.0 then 0.05 else 0.0);
          MakeResult(true, Some(Buy), Max(Min(confidence, 0.85), 0.40),
            map["commodity" := Text(CommodityName(commodity.value)), "month" := Num(ctx.month as real),
                "seasonal_status" := Text(SeasonalStatus(commodity.value, ctx.month)),
                "RSI_14" := Num(rsi), "trend_spread_pct" := Num(trendSpread)])
  }

  /**
   * With non-negative boost and penalty, the same indicators score at least
   * as high in a strong month as in a neutral one, and at least as high in a
   * neutral month as in a weak one.
   */
  lemma SeasonalOrdering(commodity: Commodity, strong: Month, neutral: Month, weak: Month, boost: real, penalty: real)
    requires boost >= 0.0 && penalty >= 0.0
    requires strong in StrongMonths(commodity)
    requires neutral !in StrongMonths(commodity) && neutral !in WeakMonths(commodity)
    requires weak !in StrongMonths(commodity) && weak in WeakMonths(commodity)
    ensures SeasonalBase(commodity, weak, boost, penalty) <= SeasonalBase(commodity, neutral, boost, penalty)
    ensures SeasonalBase(commodity, neutral, boost, penalty) <= SeasonalBase(commodity, strong, boost, penalty)
  {
  }

  /** Volume over its 20-day average, 0 when the average is not positive. */
  function BreakoutVolumeRatio(ctx: SymbolContext): real {
    var avgVolume := GetIndicator(ctx, "volume_sma_20", Ind(ctx, "volume"));
    if avgVolume > 0.0 then Ind(ctx, "volume") / avgVolume else 0.0
  }

  /** The gates of Volume Breakout, in order, with SMA_20 non-zero. */
  predicate VolumeBreakoutPasses(minVolumeRatio: real, breakoutThreshold: real, rsiMin: real, rsiMax: real, ctx: SymbolContext) {
    && IsMiner(ctx) && Sma20(ctx) > Sma50(ctx)
    && BreakoutVolumeRatio(ctx) >= minVolumeRatio
    && Sma20(ctx) != 0.0
    && PercentFrom(Close(ctx), Sma20(ctx)) >= breakoutThreshold
    && rsiMin <= Rsi(ctx) <= rsiMax
  }

  /**
   * Volume Breakout: BUY for a miner in an uptrend whose volume is at least
   * the minimum multiple of its average (a non-positive average counts as
   * ratio 0), whose close breaks above SMA_20 by the threshold, with RSI in
   * [min, max]; confidence 0.6 plus volume and breakout bonuses.
   */
  function VolumeBreakout(minVolumeRatio: real, breakoutThreshold: real, rsiMin: real, rsiMax: real, ctx: SymbolContext)
    : (r: Result<RuleResult, RuleError>)
    ensures r.Success? ==> WellFormed(r.value)
    ensures !IsMiner(ctx) ==> r == Untriggered()
    ensures r.Failure? <==>
      IsMiner(ctx) && Sma20(ctx) > Sma50(ctx) && BreakoutVolumeRatio(ctx) >= minVolumeRatio && Sma20(ctx) == 0.0
    ensures r.Failure? ==> r.error == ZeroDivision
    ensures r.Success? ==>
      (r.value.triggered <==> VolumeBreakoutPasses(minVolumeRatio, breakoutThreshold, rsiMin, rsiMax, ctx))
    ensures r.Success? && r.value.triggered ==>
      && r.value.signal == Some(Buy) && 0.6 <= r.value.confidence <= 0.85
    ensures GetIndicator(ctx, "volume_sma_20", Ind(ctx, "volume")) <= 0.0 && minVolumeRatio > 0.0
      ==> r.Success? && !r.value.triggered
  {
    var rsi := Ind(ctx, "RSI_14");
    var sma20 := Ind(ctx, "SMA_20");
    var sma50 := Ind(ctx, "SMA_50");
    var close := Ind(ctx, "close");
    var commodity := CommodityOf(ctx.symbol);
    if commodity.None? then Untriggered()
    else if sma20 <= sma50 then Untriggered()
    else
      var volumeRatio := BreakoutVolumeRatio(ctx);
      if volumeRatio < minVolumeRatio then Untriggered()
      else if sma20 == 0.0 then Failure(ZeroDivision)
      else
        var breakout := PercentFrom(close, sma20);
        if breakout < breakoutThreshold then Untriggered()
        else if rsi < rsiMin then Untriggered()
        else if rsi > rsiMax then Untriggered()
        else
          var confidence :=
            0.60
            + (if volumeRatio > 2.5 then 0.15 else if volumeRatio > 2.0 then 0.10 else if volumeRatio > 1.5 then 0.05 else 0.0)
            + (if breakout > 4.0 then 0.10 else if breakout > 3.0 then 0.05 else 0.0);
          MakeResult(true, Some(Buy), Min(confidence, 0.90),
            map["commodity" := Text(CommodityName(commodity.value)), "volume_ratio" := Num(volumeRatio),
                "breakout_pct" := Num(breakout), "RSI_14" := Num(rsi)])
  }
}

=== FILE: position_tracker.dfy ===
/**
 * The position tracker: the book of open positions kept from filled orders.
 * A buy opens a position or scales into it at a share-weighted average cost,
 * a sell reduces it and removes it once no shares remain. The message bus,
 * the consumer thread and JSON decoding are replaced by an already decoded
 * message; the callbacks become the notice each message produces.
 */
module PositionTracker {
  import opened Wrappers
  import opened Base

  /** One open position: share count, average cost, first fill price, scale-ins since. */
  datatype Position = Position(shares: real, avgCost: real, entryPrice: real, scaleInCount: nat)

  type Book = map<string, Position>

  /** What a position cost in total: average cost times shares. */
  function Basis(pos: Position): real {
    pos.avgCost * pos.shares
  }

  /** What one fill costs. */
  function Cost(price: real, quantity: real): real {
    price * quantity
  }

  /** Every tracked position holds shares at a positive average cost. */
  predicate Valid(book: Book) {
    forall s :: s in book ==> book[s].shares > 0.0 && book[s].avgCost > 0.0
  }

  /**
   * An order message after decoding. Missing `symbol` and `side` read as "",
   * missing `quantity` and `price` as 0; `Malformed` stands for text that is
   * not JSON or fields that do not convert, which the handler logs and drops.
   */
  datatype Message =
    | Malformed
    | Order(eventType: string, symbol: string, side: string, quantity: real, price: real)

  /** Which callback a message fires, if any. */
  datatype Notice =
    | Silent
    | Opened(symbol: string, price: real, quantity: real)
    | ScaledIn(symbol: string, price: real, quantity: real)
    | Closed(symbol: string)

  /** The fields of a filled order pass the handler's validity test. */
  predicate Acceptable(m: Message) {
    m.Order? && m.eventType == "ORDER_FILLED" && m.symbol != "" && m.side != ""
    && m.quantity > 0.0 && m.price > 0.0
  }

  /** `_handle_buy`: open at the fill price, or fold the fill into the running average. */
  function Buy(book: Book, symbol: string, price: real, quantity: real): (r: Book)
    requires Valid(book) && price > 0.0 && quantity > 0.0
    ensures Valid(r)
    ensures symbol in r && r.Keys == book.Keys + {symbol}
    ensures forall s :: s in book && s != symbol ==> r[s] == book[s]
    ensures symbol !in book ==> r[symbol] == Position(quantity, price, price, 0)
    ensures symbol in book ==>
      && r[symbol].shares == book[symbol].shares + quantity
      && Basis(r[symbol]) == Basis(book[symbol]) + Cost(price, quantity)
      && r[symbol].entryPrice == book[symbol].entryPrice
      && r[symbol].scaleInCount == book[symbol].scaleInCount + 1
      && Min(book[symbol].avgCost, price) <= r[symbol].avgCost <= Max(book[symbol].avgCost, price)
  {
    if symbol in book then book[symbol := ScaleIn(book[symbol], price, quantity)]
    else book[symbol := Position(quantity, price, price, 0)]
  }

  /** Folding one more fill into an open position at the share-weighted average cost. */
  function ScaleIn(pos: Position, price: real, quantity: real): (r: Position)
    requires pos.shares > 0.0 && pos.avgCost > 0.0 && price > 0.0 && quantity > 0.0
    ensures r.shares == pos.shares + quantity && r.avgCost > 0.0
    ensures Basis(r) == Basis(pos) + Cost(price, quantity)
    ensures r.entryPrice == pos.entryPrice && r.scaleInCount == pos.scaleInCount + 1
    ensures Min(pos.avgCost, price) <= r.avgCost <= Max(pos.avgCost, price)
  {
    var newShares := pos.shares + quantity;
    var newCost := pos.avgCost * pos.shares + price * quantity;
    var newAvg := newCost / newShares;
    AverageIsCostPerShare(newCost, newShares);
    WeightedMeanBetween(pos.avgCost, pos.shares, price, quantity, newAvg);
    Position(newShares, newAvg, pos.entryPrice, pos.scaleInCount + 1)
  }

  lemma AverageIsCostPerShare(cost: real, shares: real)
    requires shares != 0.0
    ensures cost / shares * shares == cost
  {
  }

  /** The share-weighted mean of two prices lies between them. */
  lemma WeightedMeanBetween(a: real, s: real, p: real, q: real, m: real)
    requires s > 0.0 && q > 0.0 && m * (s + q) == a * s + p * q
    ensures Min(a, p) <= m <= Max(a, p)
  {
    var lo := Min(a, p);
    var hi := Max(a, p);
    ScaleUp(lo, a, s);
    ScaleUp(a, hi, s);
    ScaleUp(lo, p, q);
    ScaleUp(p, hi, q);
    Distribute(lo, s, q);
    Distribute(hi, s, q);
    var ls, lq, as_, pq, hs, hq := lo * s, lo * q, a * s, p * q, hi * s, hi * q;
    assert ls + lq <= as_ + pq <= hs + hq;
    ScaledOrder(lo, m, s + q);
    ScaledOrder(m, hi, s + q);
  }

  lemma ScaleUp(x: real, y: real, k: real)
    requires x <= y && k > 0.0
    ensures x * k <= y * k
  {
  }

  lemma Distribute(x: real, s: real, q: real)
    ensures x * (s + q) == x * s + x * q
  {
  }

  lemma ScaledOrder(x: real, y: real, w: real)
    requires w > 0.0 && x * w <= y * w
    ensures x <= y
  {
  }

  /** `_handle_sell`: without a position nothing happens; otherwise shares drop and a non-positive remainder closes it. */
  function Sell(book: Book, symbol: string, quantity: real): (r: Book)
    requires Valid(book) && quantity > 0.0
    ensures Valid(r)
    ensures symbol !in book ==> r == book
    ensures symbol in book ==>
      (symbol !in r <==> book[symbol].shares <= quantity)
    ensures symbol in r ==>
      && r[symbol].shares == book[symbol].shares - quantity
      && r[symbol].avgCost == book[symbol].avgCost
      && r[symbol].entryPrice == book[symbol].entryPrice
      && r[symbol].scaleInCount == book[symbol].scaleInCount
    ensures r.Keys <= book.Keys
    ensures forall s :: s in book && s != symbol ==> s in r && r[s] == book[s]
  {
    if symbol !in book then book
    else
      var pos := book[symbol];
      var remaining := pos.shares - quantity;
      if remaining <= 0.0 then book - {symbol}
      else book[symbol := pos.(shares := remaining)]
  }

  /** The result of handling one message: the new book and the callback fired. */
  datatype Step = Step(book: Book, notice: Notice)

  /**
   * `_handle_message`: anything but a valid ORDER_FILLED is dropped; the side
   * is compared after lower-casing, and a side other than buy or sell is
   * accepted by the validity test but changes nothing.
   */
  function HandleMessage(book: Book, m: Message): (r: Step)
    requires Valid(book)
    ensures Valid(r.book)
    ensures !Acceptable(m) ==> r == Step(book, Silent)
    ensures Acceptable(m) && Lower(m.side) == "buy" ==>
      r.book == Buy(book, m.symbol, m.price, m.quantity)
      && r.notice == (if m.symbol in book then ScaledIn(m.symbol, m.price, m.quantity)
                      else Opened(m.symbol, m.price, m.quantity))
    ensures Acceptable(m) && Lower(m.side) == "sell" ==>
      r.book == Sell(book, m.symbol, m.quantity)
      && (r.notice == Closed(m.symbol) <==> m.symbol in book && m.symbol !in r.book)
      && (r.notice != Closed(m.symbol) ==> r.notice == Silent)
    ensures Acceptable(m) && Lower(m.side) != "buy" && Lower(m.side) != "sell" ==> r == Step(book, Silent)
    ensures r.notice != Silent ==> Acceptable(m)
  {
    if !Acceptable(m) then Step(book, Silent)
    else
      var side := Lower(m.side);
      if side == "buy" then
        var notice := if m.symbol in book then ScaledIn(m.symbol, m.price, m.quantity)
                      else Opened(m.symbol, m.price, m.quantity);
        Step(Buy(book, m.symbol, m.price, m.quantity), notice)
      else if side == "sell" then
        var after := Sell(book, m.symbol, m.quantity);
        var notice := if m.symbol in book && m.symbol !in after then Closed(m.symbol) else Silent;
        Step(after, notice)
      else Step(book, Silent)
  }

  /** `has_position`. */
  function HasPosition(book: Book, symbol: string): (b: bool)
    ensures b <==> symbol in book
  {
    symbol in book
  }

  /** `get_position`. */
  function GetPosition(book: Book, symbol: string): (p: Option<Position>)
    ensures p.Some? <==> HasPosition(book, symbol)
    ensures p.Some? ==> p.value == book[symbol]
  {
    if symbol in book then Some(book[symbol]) else None
  }

  /** The book after handling a sequence of messages in order. */
  function Replay(book: Book, ms: seq<Message>): (r: Book)
    requires Valid(book)
    ensures Valid(r)
    decreases |ms|
  {
    if |ms| == 0 then book
    else HandleMessage(Replay(book, ms[..|ms| - 1]), ms[|ms| - 1]).book
  }

  /** A buy fill for one symbol. */
  datatype Fill = Fill(price: real, quantity: real)

  predicate PositiveFills(fills: seq<Fill>) {
    forall i :: 0 <= i < |fills| ==> fills[i].price > 0.0 && fills[i].quantity > 0.0
  }

  function TotalQuantity(fills: seq<Fill>): real
    decreases |fills|
  {
    if |fills| == 0 then 0.0 else TotalQuantity(fills[..|fills| - 1]) + fills[|fills| - 1].quantity
  }

  function TotalCost(fills: seq<Fill>): real
    decreases |fills|
  {
    if |fills| == 0 then 0.0
    else TotalCost(fills[..|fills| - 1]) + Cost(fills[|fills| - 1].price, fills[|fills| - 1].quantity)
  }

  function LowestPrice(fills: seq<Fill>): real
    requires |fills| > 0
    decreases |fills|
  {
    if |fills| == 1 then fills[0].price
    else Min(LowestPrice(fills[..|fills| - 1]), fills[|fills| - 1].price)
  }

  function HighestPrice(fills: seq<Fill>): real
    requires |fills| > 0
    decreases |fills|
  {
    if |fills| == 1 then fills[0].price
    else Max(HighestPrice(fills[..|fills| - 1]), fills[|fills| - 1].price)
  }

  /** The book after a run of buy fills of one symbol. */
  function BuyAll(book: Book, symbol: string, fills: seq<Fill>): (r: Book)
    requires Valid(book) && PositiveFills(fills)
    ensures Valid(r)
    decreases |fills|
  {
    if |fills| == 0 then book
    else
      var last := fills[|fills| - 1];
      Buy(BuyAll(book, symbol, fills[..|fills| - 1]), symbol, last.price, last.quantity)
  }

  /**
   * Buying a run of fills into a symbol not yet held: the shares are the sum
   * of the quantities, average cost times shares is the total paid, the entry
   * price is the first fill's, every later fill counts as a scale-in, and the
   * average cost lies between the lowest and highest fill price.
   */
  lemma {:induction false} BuyAllCostBasis(book: Book, symbol: string, fills: seq<Fill>)
    requires Valid(book) && PositiveFills(fills) && |fills| > 0 && symbol !in book
    ensures var r := BuyAll(book, symbol, fills);
      && symbol in r
      && r[symbol].shares == TotalQuantity(fills)
      && Basis(r[symbol]) == TotalCost(fills)
      && r[symbol].entryPrice == fills[0].price
      && r[symbol].scaleInCount == |fills| - 1
      && LowestPrice(fills) <= r[symbol].avgCost <= HighestPrice(fills)
    decreases |fills|
  {
    var init := fills[..|fills| - 1];
    var last := fills[|fills| - 1];
    assert PositiveFills(init);
    var prev := BuyAll(book, symbol, init);
    var r := BuyAll(book, symbol, fills);
    assert r == Buy(prev, symbol, last.price, last.quantity);
    if |init| == 0 {
      assert prev == book;
      assert r[symbol] == Position(last.quantity, last.price, last.price, 0);
      assert TotalQuantity(fills) == last.quantity;
      assert TotalCost(fills) == Cost(last.price, last.quantity);
    } else {
      BuyAllCostBasis(book, symbol, init);
      assert init[0] == fills[0];
      assert TotalQuantity(fills) == TotalQuantity(init) + last.quantity;
      assert TotalCost(fills) == TotalCost(init) + Cost(last.price, last.quantity);
      assert LowestPrice(fills) == Min(LowestPrice(init), last.price);
      assert HighestPrice(fills) == Max(HighestPrice(init), last.price);
    }
  }

  /** Buying a quantity into an empty slot and selling the same quantity closes the position again. */
  lemma BuyThenSellCloses(book: Book, symbol: string, price: real, quantity: real)
    requires Valid(book) && price > 0.0 && quantity > 0.0 && symbol !in book
    ensures Sell(Buy(book, symbol, price, quantity), symbol, quantity) == book
  {
    var after := Sell(Buy(book, symbol, price, quantity), symbol, quantity);
    assert after.Keys == book.Keys;
  }

  /** A partial sell keeps the position and its cost basis; a sell without a position is ignored. */
  lemma SellExamples()
    ensures var b := map["CCJ" := Position(100.0, 50.0, 48.0, 1)];
      && Sell(b, "CCJ", 40.0) == map["CCJ" := Position(60.0, 50.0, 48.0, 1)]
      && Sell(b, "CCJ", 150.0) == map[]
      && Sell(b, "UUUU", 10.0) == b
  {
    var b := map["CCJ" := Position(100.0, 50.0, 48.0, 1)];
    assert (b - {"CCJ"}).Keys == {};
  }

  /** Upper-case sides are accepted; an unknown side and a non-fill event change nothing. */
  lemma MessageExamples()
    ensures HandleMessage(map[], Order("ORDER_FILLED", "CCJ", "BUY", 10.0, 52.3))
      == Step(map["CCJ" := Position(10.0, 52.3, 52.3, 0)], Opened("CCJ", 52.3, 10.0))
    ensures HandleMessage(map[], Order("ORDER_FILLED", "CCJ", "short", 10.0, 52.3)) == Step(map[], Silent)
    ensures HandleMessage(map[], Order("ORDER_PLACED", "CCJ", "buy", 10.0, 52.3)) == Step(map[], Silent)
    ensures HandleMessage(map[], Order("ORDER_FILLED", "CCJ", "buy", 0.0, 52.3)) == Step(map[], Silent)
  {
    assert Lower("BUY") == "buy";
    assert Lower("short") != "buy" && Lower("short") != "sell";
  }

  /** The order messages that report a run of buy fills of one symbol. */
  function BuyMessages(symbol: string, fills: seq<Fill>): (ms: seq<Message>)
    ensures |ms| == |fills|
    ensures forall i :: 0 <= i < |fills| ==>
      ms[i] == Order("ORDER_FILLED", symbol, "buy", fills[i].quantity, fills[i].price)
  {
    seq(|fills|, i requires 0 <= i < |fills| => Order("ORDER_FILLED", symbol, "buy", fills[i].quantity, fills[i].price))
  }

  /** Handling the buy messages of a run of fills in order is buying the run. */
  lemma {:induction false} ReplayBuyMessages(book: Book, symbol: string, fills: seq<Fill>)
    requires Valid(book) && PositiveFills(fills) && symbol != ""
    ensures Replay(book, BuyMessages(symbol, fills)) == BuyAll(book, symbol, fills)
    decreases |fills|
  {
    if |fills| > 0 {
      var init := fills[..|fills| - 1];
      var ms := BuyMessages(symbol, fills);
      assert ms[..|ms| - 1] == BuyMessages(symbol, init);
      assert PositiveFills(init);
      ReplayBuyMessages(book, symbol, init);
      assert Lower("buy") == "buy";
    }
  }
}

=== FILE: ranker.dfy ===
/**
 * Ranking symbols by a composite score: the per-signal ranking factors
 * (confidence, dip depth, trend strength, volatility), the weighted score,
 * the stable descending sort with sequential ranks, `top(n)` and the BUY
 * recommendation. The signal dictionary is a sequence of (symbol, signal)
 * pairs in its iteration order.
 */
module Ranker {
  import opened Wrappers
  import opened Base
  import opened Signals

  /** The four ranking factors of one signal. */
  datatype RankingFactors = RankingFactors(confidence: real, dipDepth: real, trendStrength: real, volatility: real)

  /** Weights as (factor name, weight) pairs in configuration order. */
  type Weights = seq<(string, real)>

  const DefaultWeights: Weights :=
    [("dip_depth", 0.30), ("trend_strength", 0.30), ("confidence", 0.25), ("volatility", 0.15)]

  /** The contributing factors of all contributing signals, later signals overriding earlier ones. */
  function AllFactors(s: seq<Signal>): Factors {
    if |s| == 0 then map[] else AllFactors(s[..|s| - 1]) + s[|s| - 1].factors
  }

  /** A numeric factor, when present as a number. */
  function NumFactor(f: Factors, key: string): Option<real> {
    if key in f && f[key].Num? then Some(f[key].n) else None
  }

  /**
   * Dip depth: how far RSI sits below 50 (BUY) or above 50 (SELL), in units
   * of 30 RSI points, never negative and not capped; 0.5 for WATCH or without RSI.
   */
  function DipDepth(t: SignalType, f: Factors): (d: real)
    ensures d >= 0.0
    ensures NumFactor(f, "RSI_14").None? || t == Watch ==> d == 0.5
    ensures NumFactor(f, "RSI_14").Some? && t == Buy ==> d == Max(0.0, (50.0 - NumFactor(f, "RSI_14").value) / 30.0)
    ensures NumFactor(f, "RSI_14").Some? && t == Sell ==> d == Max(0.0, (NumFactor(f, "RSI_14").value - 50.0) / 30.0)
  {
    match NumFactor(f, "RSI_14")
    case None => 0.5
    case Some(rsi) =>
      if t == Buy then Max(0.0, (50.0 - rsi) / 30.0)
      else if t == Sell then Max(0.0, (rsi - 50.0) / 30.0)
      else 0.5
  }

  /** A lower RSI never gives a BUY signal less dip depth. */
  lemma DipDepthDeeperIsMore(f: Factors, g: Factors)
    requires NumFactor(f, "RSI_14").Some? && NumFactor(g, "RSI_14").Some?
    requires NumFactor(f, "RSI_14").value <= NumFactor(g, "RSI_14").value
    ensures DipDepth(Buy, f) >= DipDepth(Buy, g)
  {
    ScaleMonotone(50.0 - NumFactor(g, "RSI_14").value, 50.0 - NumFactor(f, "RSI_14").value, 30.0);
  }

  /** Trend strength from the spread and the quality labels, kept within [0, 1]. */
  function TrendStrength(t: SignalType, f: Factors): (s: real)
    ensures 0.0 <= s <= 1.0
    ensures NumFactor(f, "spread_20_50").None? && f.Keys !! {"trend_quality", "dip_quality"} ==> s == 0.5
  {
    var base :=
      match NumFactor(f, "spread_20_50")
      case None => 0.5
      case Some(spread) => if t == Buy then Min(0.5 + spread / 10.0, 1.0) else Min(0.5 - spread / 10.0, 1.0);
    var boosted :=
      if "trend_quality" in f && f["trend_quality"] == Text("strong") then Min(base + 0.2, 1.0)
      else if "dip_quality" in f && f["dip_quality"] == Text("deep") then Min(base + 0.1, 1.0)
      else base;
    Max(0.0, boosted)
  }

  /** A "strong" trend label never lowers trend strength, and lifts the neutral 0.5 to 0.7. */
  lemma StrongTrendBoost(t: SignalType, f: Factors)
    requires f.Keys !! {"trend_quality", "dip_quality"}
    ensures TrendStrength(t, f["trend_quality" := Text("strong")]) >= TrendStrength(t, f)
    ensures NumFactor(f, "spread_20_50").None? ==> TrendStrength(t, f["trend_quality" := Text("strong")]) == 0.7
  {
    var g := f["trend_quality" := Text("strong")];
    assert NumFactor(g, "spread_20_50") == NumFactor(f, "spread_20_50");
  }

  /** `_calculate_score`'s factors for one aggregated signal. */
  function Factors(sig: AggregatedSignal): (r: RankingFactors)
    ensures r.confidence == sig.confidence
    ensures r.dipDepth >= 0.0
    ensures 0.0 <= r.trendStrength <= 1.0
    ensures r.volatility == 0.5
  {
    var all := AllFactors(sig.contributing);
    RankingFactors(sig.confidence, DipDepth(sig.signalType, all), TrendStrength(sig.signalType, all), 0.5)
  }

  /** A factor by name, 0.5 for names that are not factors. */
  function FactorNamed(f: RankingFactors, key: string): real {
    if key == "confidence" then f.confidence
    else if key == "dip_depth" then f.dipDepth
    else if key == "trend_strength" then f.trendStrength
    else if key == "volatility" then f.volatility
    else 0.5
  }

  /** The composite score: each weighted factor summed over the configured weights. */
  function Composite(weights: Weights, f: RankingFactors): real {
    if |weights| == 0 then 0.0
    else FactorNamed(f, weights[0].0) * weights[0].1 + Composite(weights[1..], f)
  }

  /** With only the confidence weighted (1.0), the score is the confidence itself. */
  lemma ConfidenceOnlyScore(f: RankingFactors)
    ensures Composite([("confidence", 1.0), ("dip_depth", 0.0), ("trend_strength", 0.0), ("volatility", 0.0)], f) == f.confidence
  {
    var w: Weights := [("confidence", 1.0), ("dip_depth", 0.0), ("trend_strength", 0.0), ("volatility", 0.0)];
    assert w[1..][1..][1..][1..] == [];
    assert Composite(w[1..][1..][1..], f) == 0.0;
    assert Composite(w[1..][1..], f) == 0.0;
    assert Composite(w[1..], f) == 0.0;
  }

  /** With the default weights and factors in [0, 1], the score stays in [0, 1]. */
  lemma DefaultScoreInUnit(f: RankingFactors)
    requires 0.0 <= f.confidence <= 1.0 && 0.0 <= f.dipDepth <= 1.0
    requires 0.0 <= f.trendStrength <= 1.0 && f.volatility == 0.5
    ensures 0.0 <= Composite(DefaultWeights, f) <= 1.0
  {
    var w := DefaultWeights;
    assert w[1..][1..][1..][1..] == [];
    assert Composite(w[1..][1..][1..], f) == 0.5 * 0.15;
    assert Composite(w[1..][1..], f) == f.confidence * 0.25 + 0.5 * 0.15;
    assert Composite(w[1..], f) == f.trendStrength * 0.30 + f.confidence * 0.25 + 0.5 * 0.15;
    assert Composite(w, f) == f.dipDepth * 0.30 + f.trendStrength * 0.30 + f.confidence * 0.25 + 0.5 * 0.15;
  }

  /** A signal with its score, before ranks are assigned. */
  datatype Scored = Scored(symbol: string, signal: AggregatedSignal, score: real, factors: RankingFactors)

  predicate SortedDesc(s: seq<Scored>) {
    forall i, j :: 0 <= i < j < |s| ==> s[i].score >= s[j].score
  }

  /** Inserts after every entry scoring at least as much: equal scores keep their arrival order. */
  function Insert(x: Scored, s: seq<Scored>): (r: seq<Scored>)
    requires SortedDesc(s)
    ensures SortedDesc(r)
    ensures multiset(r) == multiset(s) + multiset{x}
    ensures |r| == |s| + 1
    ensures |s| == 0 ==> r == [x]
    ensures |s| > 0 ==> r[0] == x || r[0] == s[0]
    decreases |s|
  {
    if |s| == 0 then [x]
    else if s[0].score >= x.score then
      var tail := s[1..];
      SortedTail(s);
      var rest := Insert(x, tail);
      assert multiset(s) == multiset{s[0]} + multiset(tail) by {
        assert s == [s[0]] + tail;
      }
      assert |tail| > 0 ==> tail[0].score <= s[0].score;
      PrependSorted(s[0], rest);
      [s[0]] + rest
    else
      PrependSorted(x, s);
      [x] + s
  }

  lemma SortedTail(s: seq<Scored>)
    requires SortedDesc(s) && |s| > 0
    ensures SortedDesc(s[1..])
  {
    forall i, j | 0 <= i < j < |s| - 1 ensures s[1..][i].score >= s[1..][j].score {
      assert s[1..][i] == s[i + 1] && s[1..][j] == s[j + 1];
    }
  }

  /** A head scoring at least the first entry of a descending list keeps it descending. */
  lemma PrependSorted(a: Scored, s: seq<Scored>)
    requires SortedDesc(s) && (|s| > 0 ==> s[0].score <= a.score)
    ensures SortedDesc([a] + s)
  {
  }

  /** A stable sort by descending score. */
  function SortByScore(s: seq<Scored>): (r: seq<Scored>)
    ensures SortedDesc(r)
    ensures multiset(r) == multiset(s)
    ensures |r| == |s|
  {
    if |s| == 0 then []
    else
      assert s == s[..|s| - 1] + [s[|s| - 1]];
      Insert(s[|s| - 1], SortByScore(s[..|s| - 1]))
  }

  /** The signals of the requested type, scored, in dictionary order. */
  function ScoreAll(signals: seq<(string, AggregatedSignal)>, t: SignalType, weights: Weights): (r: seq<Scored>)
    ensures forall i :: 0 <= i < |r| ==> r[i].signal.signalType == t
    ensures forall i :: 0 <= i < |r| ==> (r[i].symbol, r[i].signal) in signals
    ensures forall i :: 0 <= i < |r| ==> r[i].score == Composite(weights, r[i].factors) && r[i].factors == Factors(r[i].signal)
    ensures |r| == 0 <==> forall i :: 0 <= i < |signals| ==> signals[i].1.signalType != t
  {
    if |signals| == 0 then []
    else
      var prior := ScoreAll(signals[..|signals| - 1], t, weights);
      var (symbol, sig) := signals[|signals| - 1];
      assert forall i :: 0 <= i < |signals| - 1 ==> signals[..|signals| - 1][i] == signals[i];
      if sig.signalType == t then prior + [Scored(symbol, sig, Composite(weights, Factors(sig)), Factors(sig))]
      else prior
  }

  /** A ranked symbol: its 1-based rank, score, signal and factors. */
  datatype RankedSymbol = RankedSymbol(symbol: string, rank: int, score: real, signal: AggregatedSignal, factors: RankingFactors)

  datatype RankingResult = RankingResult(signalType: SignalType, ranked: seq<RankedSymbol>)

  /** Assigns ranks 1, 2, 3, ... in order. */
  function Number(sorted: seq<Scored>): (r: seq<RankedSymbol>)
    ensures |r| == |sorted|
    ensures forall i :: 0 <= i < |r| ==> r[i] == RankedSymbol(sorted[i].symbol, i + 1, sorted[i].score, sorted[i].signal, sorted[i].factors)
  {
    seq(|sorted|, i requires 0 <= i < |sorted| =>
      RankedSymbol(sorted[i].symbol, i + 1, sorted[i].score, sorted[i].signal, sorted[i].factors))
  }

  /** Sorting keeps each entry's type, origin, factors and composite score. */
  lemma SortedFromScored(scored: seq<Scored>, sorted: seq<Scored>, signals: seq<(string, AggregatedSignal)>, t: SignalType, weights: Weights)
    requires multiset(sorted) == multiset(scored)
    requires forall i :: 0 <= i < |scored| ==> scored[i].signal.signalType == t && (scored[i].symbol, scored[i].signal) in signals
    requires forall i :: 0 <= i < |scored| ==> scored[i].factors == Factors(scored[i].signal) && scored[i].score == Composite(weights, scored[i].factors)
    ensures forall i :: 0 <= i < |sorted| ==> sorted[i].signal.signalType == t && (sorted[i].symbol, sorted[i].signal) in signals
    ensures forall i :: 0 <= i < |sorted| ==> sorted[i].factors == Factors(sorted[i].signal) && sorted[i].score == Composite(weights, sorted[i].factors)
  {
    forall i | 0 <= i < |sorted|
      ensures sorted[i].signal.signalType == t && (sorted[i].symbol, sorted[i].signal) in signals
      ensures sorted[i].factors == Factors(sorted[i].signal) && sorted[i].score == Composite(weights, sorted[i].factors)
    {
      assert sorted[i] in multiset(scored);
      var k :| 0 <= k < |scored| && scored[k] == sorted[i];
    }
  }

  /**
   * `rank`: only signals of the requested type, best score first, ranked
   * 1, 2, 3, ... in order; nothing when no signal has the type.
   */
  function Rank(signals: seq<(string, AggregatedSignal)>, t: SignalType, weights: Weights): (r: RankingResult)
    ensures r.signalType == t
    ensures forall i :: 0 <= i < |r.ranked| ==> r.ranked[i].rank == i + 1
    ensures forall i :: 0 <= i < |r.ranked| ==> r.ranked[i].signal.signalType == t
    ensures forall i :: 0 <= i < |r.ranked| ==> (r.ranked[i].symbol, r.ranked[i].signal) in signals
    ensures forall i :: 0 <= i < |r.ranked| ==>
      r.ranked[i].factors == Factors(r.ranked[i].signal) && r.ranked[i].score == Composite(weights, r.ranked[i].factors)
    ensures forall i, j :: 0 <= i < j < |r.ranked| ==> r.ranked[i].score >= r.ranked[j].score
    ensures |r.ranked| == 0 <==> forall i :: 0 <= i < |signals| ==> signals[i].1.signalType != t
  {
    var scored := ScoreAll(signals, t, weights);
    var sorted := SortByScore(scored);
    SortedFromScored(scored, sorted, signals, t, weights);
    RankingResult(t, Number(sorted))
  }

  /** How many entries carry a signal of type `t`. */
  function CountOfType(signals: seq<(string, AggregatedSignal)>, t: SignalType): nat {
    if |signals| == 0 then 0
    else CountOfType(signals[..|signals| - 1], t) + (if signals[|signals| - 1].1.signalType == t then 1 else 0)
  }

  lemma {:induction false} ScoreAllCount(signals: seq<(string, AggregatedSignal)>, t: SignalType, weights: Weights)
    ensures |ScoreAll(signals, t, weights)| == CountOfType(signals, t)
  {
    if |signals| > 0 {
      ScoreAllCount(signals[..|signals| - 1], t, weights);
    }
  }

  /** Some scored entry carries this symbol and signal. */
  predicate HasEntry(r: seq<Scored>, e: (string, AggregatedSignal)) {
    exists k :: 0 <= k < |r| && r[k].symbol == e.0 && r[k].signal == e.1
  }

  lemma HasEntryAppend(a: seq<Scored>, b: seq<Scored>, e: (string, AggregatedSignal))
    requires HasEntry(a, e)
    ensures HasEntry(a + b, e)
  {
    var k :| 0 <= k < |a| && a[k].symbol == e.0 && a[k].signal == e.1;
    assert (a + b)[k] == a[k];
  }

  /** One step of `ScoreAll`: the last entry is scored after the others when it has the type. */
  lemma ScoreAllStep(signals: seq<(string, AggregatedSignal)>, t: SignalType, weights: Weights)
    requires |signals| > 0
    ensures var last := signals[|signals| - 1];
      ScoreAll(signals, t, weights) == ScoreAll(signals[..|signals| - 1], t, weights)
        + (if last.1.signalType == t
           then [Scored(last.0, last.1, Composite(weights, Factors(last.1)), Factors(last.1))] else [])
  {
  }

  /** Every entry of the requested type is scored. */
  lemma {:induction false} ScoreAllHas(signals: seq<(string, AggregatedSignal)>, t: SignalType, weights: Weights, i: int)
    requires 0 <= i < |signals| && signals[i].1.signalType == t
    ensures HasEntry(ScoreAll(signals, t, weights), signals[i])
    decreases |signals|
  {
    var n := |signals| - 1;
    var init := signals[..n];
    var prior := ScoreAll(init, t, weights);
    ScoreAllStep(signals, t, weights);
    var tail := ScoreAll(signals, t, weights)[|prior|..];
    assert ScoreAll(signals, t, weights) == prior + tail;
    if i < n {
      assert init[i] == signals[i];
      ScoreAllHas(init, t, weights, i);
      HasEntryAppend(prior, tail, signals[i]);
    } else {
      var r := ScoreAll(signals, t, weights);
      assert r[|r| - 1].symbol == signals[i].0 && r[|r| - 1].signal == signals[i].1;
    }
  }

  /** Some ranked symbol carries this symbol and signal. */
  predicate InRanking(ranked: seq<RankedSymbol>, e: (string, AggregatedSignal)) {
    exists j :: 0 <= j < |ranked| && ranked[j].symbol == e.0 && ranked[j].signal == e.1
  }

  /**
   * Every entry of the requested type is ranked, and the ranking is exactly
   * as long as the number of such entries.
   */
  lemma RankIsComplete(signals: seq<(string, AggregatedSignal)>, t: SignalType, weights: Weights)
    ensures |Rank(signals, t, weights).ranked| == CountOfType(signals, t)
    ensures forall i :: 0 <= i < |signals| && signals[i].1.signalType == t ==>
      InRanking(Rank(signals, t, weights).ranked, signals[i])
  {
    ScoreAllCount(signals, t, weights);
    var scored := ScoreAll(signals, t, weights);
    var sorted := SortByScore(scored);
    var ranked := Rank(signals, t, weights).ranked;
    assert ranked == Number(sorted);
    forall i | 0 <= i < |signals| && signals[i].1.signalType == t
      ensures InRanking(ranked, signals[i])
    {
      ScoreAllHas(signals, t, weights, i);
      var k :| 0 <= k < |scored| && scored[k].symbol == signals[i].0 && scored[k].signal == signals[i].1;
      assert scored[k] in multiset(sorted);
      var j :| 0 <= j < |sorted| && sorted[j] == scored[k];
      assert ranked[j].symbol == sorted[j].symbol && ranked[j].signal == sorted[j].signal;
    }
  }

  /** Python's `s[:n]`: a negative end counts from the end, and both ends are clamped. */
  function SliceTo<T>(s: seq<T>, n: int): (r: seq<T>)
    ensures n >= 0 ==> r == s[..if n <= |s| then n else |s|]
    ensures n < 0 ==> r == s[..if |s| + n >= 0 then |s| + n else 0]
  {
    var end := if n < 0 then (if |s| + n >= 0 then |s| + n else 0) else (if n <= |s| then n else |s|);
    s[..end]
  }

  /** `top(n)`: the first min(n, len) ranked symbols. */
  function Top(r: RankingResult, n: int): (s: seq<RankedSymbol>)
    ensures n >= 0 ==> |s| == if n <= |r.ranked| then n else |r.ranked|
    ensures s <= r.ranked
  {
    SliceTo(r.ranked, n)
  }

  /** `get_recommendation`: the best BUY symbol and its score, if any BUY signal exists. */
  function Recommendation(signals: seq<(string, AggregatedSignal)>, weights: Weights): (r: Option<(string, real)>)
    ensures r.None? <==> forall i :: 0 <= i < |signals| ==> signals[i].1.signalType != Buy
    ensures r.Some? ==> exists i :: 0 <= i < |signals| && signals[i].0 == r.value.0 && signals[i].1.signalType == Buy &&
                                     r.value.1 == Composite(weights, Factors(signals[i].1))
  {
    var ranking := Rank(signals, Buy, weights);
    if |ranking.ranked| == 0 then None
    else
      var best := ranking.ranked[0];
      assert (best.symbol, best.signal) in signals;
      Some((best.symbol, best.score))
  }

  /**
   * The recommended symbol scores at least as well as every ranked BUY symbol,
   * and so at least as well as the composite score of every BUY signal given.
   */
  lemma RecommendationIsBest(signals: seq<(string, AggregatedSignal)>, weights: Weights)
    requires Recommendation(signals, weights).Some?
    ensures var ranked := Rank(signals, Buy, weights).ranked;
      forall i :: 0 <= i < |ranked| ==> ranked[i].score <= Recommendation(signals, weights).value.1
    ensures forall i :: 0 <= i < |signals| && signals[i].1.signalType == Buy ==>
      Composite(weights, Factors(signals[i].1)) <= Recommendation(signals, weights).value.1
  {
    var ranked := Rank(signals, Buy, weights).ranked;
    var best := Recommendation(signals, weights).value.1;
    RankIsComplete(signals, Buy, weights);
    forall i | 0 <= i < |signals| && signals[i].1.signalType == Buy
      ensures Composite(weights, Factors(signals[i].1)) <= best
    {
      assert InRanking(ranked, signals[i]);
      var j :| 0 <= j < |ranked| && ranked[j].symbol == signals[i].0 && ranked[j].signal == signals[i].1;
      assert ranked[j].score == Composite(weights, Factors(signals[i].1));
    }
  }
}

=== FILE: registry.dfy ===
/**
 * The rule registry: config names to rule constructors, creation with
 * parameter pass-through, and loading the enabled rules with their weights.
 */
module Registry {
  import opened Wrappers
  import opened Rules

  /** The registered config names, in table order. */
  const RegistryNames: seq<string> := [
    "rsi_oversold", "rsi_overbought", "rsi_approaching_oversold",
    "macd_bullish_crossover", "macd_bearish_crossover", "macd_momentum",
    "weekly_uptrend", "monthly_uptrend", "trend_alignment", "trend_break_warning",
    "golden_cross", "death_cross",
    "buy_dip_in_uptrend", "strong_buy_signal", "rsi_macd_confluence", "dip_recovery"]

  /** The only config keys passed on to a rule constructor. */
  const ForwardedKeys: set<string> := {"threshold", "extreme_threshold", "rsi_threshold", "histogram_threshold"}

  /** The config entries that are passed on. */
  function Forwarded(config: map<string, real>): (p: map<string, real>)
    ensures p.Keys == config.Keys * ForwardedKeys
    ensures forall k :: k in p ==> p[k] == config[k]
  {
    map k | k in config.Keys * ForwardedKeys :: config[k]
  }

  /** The keyword parameters a registered constructor accepts, among the forwarded ones. */
  function AcceptedKeys(name: string): set<string> {
    if name in {"rsi_oversold", "rsi_overbought"} then {"threshold", "extreme_threshold"}
    else if name in {"macd_bullish_crossover", "macd_bearish_crossover"} then {"histogram_threshold"}
    else if name in {"buy_dip_in_uptrend", "strong_buy_signal", "rsi_macd_confluence"} then {"rsi_threshold"}
    else {}
  }

  function Get(p: map<string, real>, key: string, default: real): real {
    if key in p then p[key] else default
  }

  /** The rule a registered name builds from accepted parameters, defaults filling the rest. */
  function Construct(name: string, p: map<string, real>): Rule
    requires name in RegistryNames
  {
    match name
    case "rsi_oversold" => RsiOversold(Get(p, "threshold", 30.0), Get(p, "extreme_threshold", 20.0))
    case "rsi_overbought" => RsiOverbought(Get(p, "threshold", 70.0), Get(p, "extreme_threshold", 80.0))
    case "rsi_approaching_oversold" => RsiApproachingOversold(40.0, 30.0)
    case "macd_bullish_crossover" => MacdBullishCrossover(Get(p, "histogram_threshold", 0.1))
    case "macd_bearish_crossover" => MacdBearishCrossover(Get(p, "histogram_threshold", 0.1))
    case "macd_momentum" => MacdMomentum
    case "weekly_uptrend" => WeeklyUptrend
    case "monthly_uptrend" => MonthlyUptrend
    case "trend_alignment" => FullTrendAlignment
    case "trend_break_warning" => TrendBreakWarning
    case "golden_cross" => GoldenCross
    case "death_cross" => DeathCross
    case "buy_dip_in_uptrend" => BuyDipInUptrend(Get(p, "rsi_threshold", 40.0))
    case "strong_buy_signal" => StrongBuySignal(Get(p, "rsi_threshold", 35.0))
    case "rsi_macd_confluence" => RsiMacdConfluence(Get(p, "rsi_threshold", 35.0))
    case _ => DipRecovery(30.0, 45.0)
  }

  /**
   * `create_rule`: None for an unregistered name, and None when the
   * constructor rejects a forwarded parameter; otherwise the rule built
   * from the forwarded parameters.
   */
  function CreateRule(name: string, config: map<string, real>): (r: Option<Rule>)
    ensures name !in RegistryNames ==> r.None?
    ensures r.Some? <==> name in RegistryNames && Forwarded(config).Keys <= AcceptedKeys(name)
    ensures r.Some? ==> r.value == Construct(name, Forwarded(config))
  {
    if name !in RegistryNames then None
    else
      var params := Forwarded(config);
      if params.Keys <= AcceptedKeys(name) then Some(Construct(name, params)) else None
  }

  /** The table holds sixteen distinct names, each building its rule from an empty config. */
  lemma RegistryTable()
    ensures |RegistryNames| == 16
    ensures forall i, j :: 0 <= i < j < |RegistryNames| ==> RegistryNames[i] != RegistryNames[j]
    ensures forall i :: 0 <= i < |RegistryNames| ==> CreateRule(RegistryNames[i], map[]).Some?
  {
  }

  /** Config keys that are not forwarded never influence creation. */
  lemma CreateRuleIgnoresOtherKeys(name: string, config: map<string, real>, key: string, value: real)
    requires key !in ForwardedKeys
    ensures CreateRule(name, config[key := value]) == CreateRule(name, config)
  {
    assert Forwarded(config[key := value]) == Forwarded(config);
  }

  /** A forwarded threshold reaches the constructor; the other parameter keeps its default. */
  lemma CreateRulePassesThreshold(t: real)
    ensures CreateRule("rsi_oversold", map["threshold" := t]) == Some(RsiOversold(t, 20.0))
  {
    var c := map["threshold" := t];
    assert Forwarded(c) == c;
  }

  /** A forwarded parameter the constructor does not accept yields None. */
  lemma CreateRuleRejectsUnaccepted(t: real)
    ensures CreateRule("weekly_uptrend", map["threshold" := t]) == None
  {
    assert "threshold" in Forwarded(map["threshold" := t]);
  }

  /** One rule's configuration: its enable flag, weight and numeric parameters. */
  datatype RuleConfig = RuleConfig(enabled: Option<bool>, weight: Option<real>, params: map<string, real>)

  predicate Enabled(c: RuleConfig) {
    c.enabled.GetOr(true)
  }

  /** The rule an entry contributes, if it is enabled and creatable. */
  function EntryRule(entry: (string, RuleConfig)): Option<Rule> {
    if Enabled(entry.1) then CreateRule(entry.0, entry.1.params) else None
  }

  /** Each entry's outcome: the rule it creates, if any, with its weight (default 1.0). */
  function Outcomes(entries: seq<(string, RuleConfig)>): (o: seq<(Option<Rule>, real)>)
    ensures |o| == |entries|
    ensures forall j :: 0 <= j < |entries| ==> o[j] == (EntryRule(entries[j]), entries[j].1.weight.GetOr(1.0))
  {
    seq(|entries|, j requires 0 <= j < |entries| => (EntryRule(entries[j]), entries[j].1.weight.GetOr(1.0)))
  }

  /** Display names of a rule list. */
  function Names(rules: seq<Rule>): set<string> {
    if |rules| == 0 then {} else Names(rules[..|rules| - 1]) + {Name(rules[|rules| - 1])}
  }

  /** Appends each created rule in order and records its weight under its display name. */
  function Collect(outcomes: seq<(Option<Rule>, real)>): (r: (seq<Rule>, map<string, real>))
    ensures |r.0| <= |outcomes|
    ensures r.1.Keys == Names(r.0)
  {
    if |outcomes| == 0 then ([], map[])
    else
      var prior := Collect(outcomes[..|outcomes| - 1]);
      var last := outcomes[|outcomes| - 1];
      match last.0
      case None => prior
      case Some(rule) =>
        var rules := prior.0 + [rule];
        assert rules[..|rules| - 1] == prior.0;
        (rules, prior.1[Name(rule) := last.1])
  }

  /**
   * `load_rules_from_config` over the config entries in order: each enabled
   * entry that creates a rule appends it and records its weight under the
   * rule's display name; an empty config loads nothing.
   */
  function LoadRulesFromConfig(entries: seq<(string, RuleConfig)>): (r: (seq<Rule>, map<string, real>))
    ensures |r.0| <= |entries|
    ensures r.1.Keys == Names(r.0)
    ensures |entries| == 0 ==> r == ([], map[])
  {
    Collect(Outcomes(entries))
  }

  lemma {:induction false} CollectMembership(outcomes: seq<(Option<Rule>, real)>, rule: Rule)
    ensures rule in Collect(outcomes).0 <==> exists j :: 0 <= j < |outcomes| && outcomes[j].0 == Some(rule)
  {
    if |outcomes| > 0 {
      var init := outcomes[..|outcomes| - 1];
      CollectMembership(init, rule);
      assert forall j :: 0 <= j < |init| ==> init[j] == outcomes[j];
      if exists j :: 0 <= j < |outcomes| && outcomes[j].0 == Some(rule) {
        var j :| 0 <= j < |outcomes| && outcomes[j].0 == Some(rule);
        if j < |init| {
          assert init[j].0 == Some(rule);
        }
      }
    }
  }

  /** Exactly the rules of enabled, creatable entries are loaded. */
  lemma LoadedRulesAreEnabledEntries(entries: seq<(string, RuleConfig)>, rule: Rule)
    ensures rule in LoadRulesFromConfig(entries).0 <==>
      exists j :: 0 <= j < |entries| && EntryRule(entries[j]) == Some(rule)
  {
    var o := Outcomes(entries);
    CollectMembership(o, rule);
    if exists j :: 0 <= j < |o| && o[j].0 == Some(rule) {
      var j :| 0 <= j < |o| && o[j].0 == Some(rule);
      assert EntryRule(entries[j]) == Some(rule);
    }
    if exists j :: 0 <= j < |entries| && EntryRule(entries[j]) == Some(rule) {
      var j :| 0 <= j < |entries| && EntryRule(entries[j]) == Some(rule);
      assert o[j].0 == Some(rule);
    }
  }

  lemma {:induction false} CollectAppend(a: seq<(Option<Rule>, real)>, b: seq<(Option<Rule>, real)>)
    ensures Collect(a + b).0 == Collect(a).0 + Collect(b).0
    decreases |b|
  {
    if |b| == 0 {
      assert a + b == a;
    } else {
      var b' := b[..|b| - 1];
      assert (a + b)[..|a + b| - 1] == a + b';
      assert (a + b)[|a + b| - 1] == b[|b| - 1];
      CollectAppend(a, b');
    }
  }

  /** Loading two config sections one after the other concatenates their rules: order is kept. */
  lemma LoadPreservesOrder(a: seq<(string, RuleConfig)>, b: seq<(string, RuleConfig)>)
    ensures LoadRulesFromConfig(a + b).0 == LoadRulesFromConfig(a).0 + LoadRulesFromConfig(b).0
  {
    assert Outcomes(a + b) == Outcomes(a) + Outcomes(b);
    CollectAppend(Outcomes(a), Outcomes(b));
  }

  /** A disabled entry contributes nothing. */
  lemma LoadSkipsDisabled(entries: seq<(string, RuleConfig)>, e: (string, RuleConfig))
    requires !Enabled(e.1)
    ensures LoadRulesFromConfig(entries + [e]) == LoadRulesFromConfig(entries)
  {
    var o := Outcomes(entries + [e]);
    assert o[..|entries|] == Outcomes(entries);
  }

  /** A loaded rule's weight is its entry's weight, 1.0 when absent, under its display name. */
  lemma LoadRecordsWeight(entries: seq<(string, RuleConfig)>, e: (string, RuleConfig), rule: Rule)
    requires EntryRule(e) == Some(rule)
    ensures LoadRulesFromConfig(entries + [e]).0 == LoadRulesFromConfig(entries).0 + [rule]
    ensures LoadRulesFromConfig(entries + [e]).1[Name(rule)] == e.1.weight.GetOr(1.0)
  {
    var o := Outcomes(entries + [e]);
    assert o[..|entries|] == Outcomes(entries);
  }
}

=== FILE: rsi_rules.dfy ===
/** RSI-based rules: oversold (BUY), overbought (WATCH/SELL), approaching oversold (WATCH). */
module RsiRules {
  import opened Wrappers
  import opened Base

  /**
   * RSI Oversold: BUY exactly when RSI is below the threshold; confidence
   * 0.9 at or below the extreme level, otherwise rising linearly from 0.5
   * at the threshold towards 0.9 at the extreme.
   */
  function Oversold(threshold: real, extreme: real, ctx: SymbolContext): (r: Result<RuleResult, RuleError>)
    ensures r.Success? ==> WellFormed(r.value)
    ensures r.Success?
    ensures r.value.triggered <==> Rsi(ctx) < threshold
    ensures r.value.triggered ==> r.value.signal == Some(Buy)
    ensures r.value.triggered ==> 0.5 < r.value.confidence <= 0.9
    ensures r.value.triggered && Rsi(ctx) <= extreme ==> r.value.confidence == 0.9
    ensures r.value.triggered ==> r.value.factors == map["RSI_14" := Num(Rsi(ctx))]
  {
    var rsi := Ind(ctx, "RSI_14");
    if rsi >= threshold then Untriggered()
    else
      var confidence :=
        if rsi <= extreme then 0.9
        else
          (var rangeSize := threshold - extreme;
           var distance := threshold - rsi;
           if rangeSize > 0.0 then
             ScaleWithinUnit(distance, rangeSize);
             0.5 + 0.4 * (distance / rangeSize)
           else 0.7);
      MakeResult(true, Some(Buy), Min(confidence, 1.0), map["RSI_14" := Num(rsi)])
  }

  /** A deeper oversold reading never yields a lower confidence. */
  lemma OversoldDeeperIsStronger(threshold: real, extreme: real, deeper: SymbolContext, shallower: SymbolContext)
    requires Rsi(deeper) <= Rsi(shallower) < threshold
    ensures Oversold(threshold, extreme, deeper).value.confidence
         >= Oversold(threshold, extreme, shallower).value.confidence
  {
    if Rsi(shallower) > extreme && Rsi(deeper) > extreme {
      ScaleMonotone(threshold - Rsi(shallower), threshold - Rsi(deeper), threshold - extreme);
    }
  }

  /**
   * RSI Overbought: triggers exactly when RSI is above the threshold; SELL
   * with 0.85 at or above the extreme level, otherwise WATCH with a
   * confidence rising from 0.4 towards 0.7.
   */
  function Overbought(threshold: real, extreme: real, ctx: SymbolContext): (r: Result<RuleResult, RuleError>)
    ensures r.Success? ==> WellFormed(r.value)
    ensures r.Success?
    ensures r.value.triggered <==> Rsi(ctx) > threshold
    ensures r.value.triggered ==>
      (r.value.signal == Some(Sell) <==> Rsi(ctx) >= extreme) &&
      (r.value.signal == Some(Watch) <==> Rsi(ctx) < extreme)
    ensures r.value.triggered && r.value.signal == Some(Sell) ==> r.value.confidence == 0.85
    ensures r.value.triggered && r.value.signal == Some(Watch) ==> 0.4 < r.value.confidence < 0.7
    ensures r.value.triggered ==> r.value.factors == map["RSI_14" := Num(Rsi(ctx))]
  {
    var rsi := Ind(ctx, "RSI_14");
    if rsi <= threshold then Untriggered()
    else if rsi >= extreme then
      MakeResult(true, Some(Sell), Min(0.85, 1.0), map["RSI_14" := Num(rsi)])
    else
      var rangeSize := extreme - threshold;
      var distance := rsi - threshold;
      var confidence :=
        if rangeSize > 0.0 then
          ScaleWithinUnit(distance, rangeSize);
          0.4 + 0.3 * (distance / rangeSize)
        else 0.5;
      MakeResult(true, Some(Watch), Min(confidence, 1.0), map["RSI_14" := Num(rsi)])
  }

  /** The overbought rule never emits BUY, and the oversold rule never emits anything else. */
  lemma RsiRulesDirection(th1: real, ex1: real, th2: real, ex2: real, ctx: SymbolContext)
    ensures Oversold(th1, ex1, ctx).value.signal != Some(Sell)
    ensures Overbought(th2, ex2, ctx).value.signal != Some(Buy)
  {
  }

  /** RSI Approaching Oversold: WATCH at 0.4 exactly when RSI lies in [buy, watch]. */
  function ApproachingOversold(watchThreshold: real, buyThreshold: real, ctx: SymbolContext)
    : (r: Result<RuleResult, RuleError>)
    ensures r.Success? ==> WellFormed(r.value)
    ensures r.Success?
    ensures r.value.triggered <==> buyThreshold <= Rsi(ctx) <= watchThreshold
    ensures r.value.triggered ==> r.value.signal == Some(Watch) && r.value.confidence == 0.4
  {
    var rsi := Ind(ctx, "RSI_14");
    if buyThreshold <= rsi <= watchThreshold then
      MakeResult(true, Some(Watch), 0.4, map["RSI_14" := Num(rsi)])
    else Untriggered()
  }
}

=== FILE: rules.dfy ===
/**
 * The rule family as one datatype: each constructor is a rule class with
 * its constructor parameters. `Evaluate` dispatches to the rule's logic.
 */
module Rules {
  import opened Wrappers
  import opened Base
  import RsiRules
  import MacdRules
  import TrendRules
  import CompositeRules
  import EnhancedRules
  import MiningRules

  datatype Rule =
    | RsiOversold(threshold: real, extremeThreshold: real)
    | RsiOverbought(threshold: real, extremeThreshold: real)
    | RsiApproachingOversold(watchThreshold: real, buyThreshold: real)
    | MacdBullishCrossover(histogramThreshold: real)
    | MacdBearishCrossover(histogramThreshold: real)
    | MacdMomentum
    | WeeklyUptrend
    | MonthlyUptrend
    | FullTrendAlignment
    | TrendBreakWarning
    | GoldenCross
    | DeathCross
    | BuyDipInUptrend(rsiThreshold: real)
    | StrongBuySignal(rsiThreshold: real)
    | RsiMacdConfluence(rsiThreshold: real)
    | DipRecovery(zoneLow: real, zoneHigh: real)
    | EnhancedBuyDip(rsiOversold: real, rsiExtreme: real, minTrendSpread: real, requireVolumeConfirm: bool)
    | MomentumReversal(rsiRecoveryMin: real, rsiRecoveryMax: real)
    | TrendContinuation(pullbackTolerance: real)
    | CommodityBreakout(breakoutThreshold: real, minTrendStrength: real)
    | MinerMetalRatio(rsiOversoldLevel: real, supportTolerance: real)
    | DollarWeakness(minSpread: real, requireMacdPositive: bool)
    | Seasonality(strongMonthBoost: real, weakMonthPenalty: real, requireBaseSignal: bool)
    | VolumeBreakout(minVolumeRatio: real, breakoutThresholdPct: real, rsiMin: real, rsiMax: real)

  /** The rule's display name. */
  function Name(rule: Rule): string {
    match rule
    case RsiOversold(_, _) => "RSI Oversold"
    case RsiOverbought(_, _) => "RSI Overbought"
    case RsiApproachingOversold(_, _) => "RSI Approaching Oversold"
    case MacdBullishCrossover(_) => "MACD Bullish Crossover"
    case MacdBearishCrossover(_) => "MACD Bearish Crossover"
    case MacdMomentum => "MACD Momentum"
    case WeeklyUptrend => "Weekly Uptrend"
    case MonthlyUptrend => "Monthly Uptrend"
    case FullTrendAlignment => "Full Trend Alignment"
    case TrendBreakWarning => "Trend Break Warning"
    case GoldenCross => "Golden Cross"
    case DeathCross => "Death Cross"
    case BuyDipInUptrend(_) => "Buy Dip in Uptrend"
    case StrongBuySignal(_) => "Strong Buy Signal"
    case RsiMacdConfluence(_) => "RSI + MACD Confluence"
    case DipRecovery(_, _) => "Dip Recovery"
    case EnhancedBuyDip(_, _, _, _) => "Enhanced Buy Dip"
    case MomentumReversal(_, _) => "Momentum Reversal"
    case TrendContinuation(_) => "Trend Continuation"
    case CommodityBreakout(_, _) => "Commodity Breakout"
    case MinerMetalRatio(_, _) => "Miner Metal Ratio"
    case DollarWeakness(_, _) => "Dollar Weakness"
    case Seasonality(_, _, _) => "Seasonality Filter"
    case VolumeBreakout(_, _, _, _) => "Volume Breakout"
  }

  /** The indicators a rule declares it needs. */
  function RequiredIndicators(rule: Rule): seq<string> {
    match rule
    case RsiOversold(_, _) => ["RSI_14"]
    case RsiOverbought(_, _) => ["RSI_14"]
    case RsiApproachingOversold(_, _) => ["RSI_14"]
    case MacdBullishCrossover(_) => ["MACD", "MACD_SIGNAL"]
    case MacdBearishCrossover(_) => ["MACD", "MACD_SIGNAL"]
    case MacdMomentum => ["MACD", "MACD_SIGNAL"]
    case WeeklyUptrend => ["SMA_20", "SMA_50"]
    case MonthlyUptrend => ["SMA_50", "SMA_200"]
    case FullTrendAlignment => ["SMA_20", "SMA_50", "SMA_200"]
    case TrendBreakWarning => ["SMA_20", "SMA_50"]
    case GoldenCross => ["SMA_50", "SMA_200"]
    case DeathCross => ["SMA_50", "SMA_200"]
    case BuyDipInUptrend(_) => ["RSI_14", "SMA_20", "SMA_50"]
    case StrongBuySignal(_) => ["RSI_14", "SMA_20", "SMA_50", "SMA_200"]
    case RsiMacdConfluence(_) => ["RSI_14", "MACD", "MACD_SIGNAL"]
    case DipRecovery(_, _) => ["RSI_14", "SMA_20", "SMA_50"]
    case EnhancedBuyDip(_, _, _, _) => ["RSI_14", "SMA_20", "SMA_50", "SMA_200", "ATR_14", "close", "volume"]
    case MomentumReversal(_, _) => ["RSI_14", "MACD", "MACD_SIGNAL", "MACD_HISTOGRAM", "SMA_20", "SMA_50", "volume"]
    case TrendContinuation(_) => ["RSI_14", "SMA_20", "SMA_50", "SMA_200", "close", "volume"]
    case CommodityBreakout(_, _) => ["RSI_14", "SMA_20", "SMA_50", "close", "volume"]
    case MinerMetalRatio(_, _) => ["RSI_14", "SMA_20", "SMA_50", "SMA_200", "close"]
    case DollarWeakness(_, requireMacd) => MiningRules.DollarWeaknessIndicators(requireMacd)
    case Seasonality(_, _, _) => ["RSI_14", "SMA_20", "SMA_50", "close"]
    case VolumeBreakout(_, _, _, _) => ["RSI_14", "SMA_20", "SMA_50", "close", "volume"]
  }

  /** `can_evaluate`: every required indicator is present. */
  predicate CanEvaluate(rule: Rule, ctx: SymbolContext) {
    HasIndicators(ctx, RequiredIndicators(rule))
  }

  /** Rules whose evaluation divides by an average without a guard. */
  predicate MayDivideByZero(rule: Rule) {
    rule.EnhancedBuyDip? || rule.TrendContinuation? || rule.CommodityBreakout? || rule.MinerMetalRatio?
    || rule.DollarWeakness? || rule.Seasonality? || rule.VolumeBreakout?
  }

  /** All three moving averages are positive, as they are for any real price series. */
  predicate PositiveAverages(ctx: SymbolContext) {
    Sma20(ctx) > 0.0 && Sma50(ctx) > 0.0 && Sma200(ctx) > 0.0
  }

  /**
   * `evaluate`: every rule yields a well-formed result; the only failure is
   * a division by a zero average, only in rules that divide unguarded, and
   * never when the averages are positive.
   */
  function Evaluate(rule: Rule, ctx: SymbolContext): (r: Result<RuleResult, RuleError>)
    ensures r.Success? ==> WellFormed(r.value)
    ensures r.Failure? ==> r.error == ZeroDivision && MayDivideByZero(rule)
    ensures PositiveAverages(ctx) ==> r.Success?
  {
    match rule
    case RsiOversold(t, e) => RsiRules.Oversold(t, e, ctx)
    case RsiOverbought(t, e) => RsiRules.Overbought(t, e, ctx)
    case RsiApproachingOversold(w, b) => RsiRules.ApproachingOversold(w, b, ctx)
    case MacdBullishCrossover(h) => MacdRules.BullishCrossover(h, ctx)
    case MacdBearishCrossover(h) => MacdRules.BearishCrossover(h, ctx)
    case MacdMomentum => MacdRules.Momentum(ctx)
    case WeeklyUptrend => TrendRules.WeeklyUptrend(ctx)
    case MonthlyUptrend => TrendRules.MonthlyUptrend(ctx)
    case FullTrendAlignment => TrendRules.FullTrendAlignment(ctx)
    case TrendBreakWarning => TrendRules.TrendBreakWarning(ctx)
    case GoldenCross => TrendRules.GoldenCross(ctx)
    case DeathCross => TrendRules.DeathCross(ctx)
    case BuyDipInUptrend(t) => CompositeRules.BuyDipInUptrend(t, ctx)
    case StrongBuySignal(t) => CompositeRules.StrongBuySignal(t, ctx)
    case RsiMacdConfluence(t) => CompositeRules.RsiMacdConfluence(t, ctx)
    case DipRecovery(lo, hi) => CompositeRules.DipRecovery(lo, hi, ctx)
    case EnhancedBuyDip(o, e, m, v) => EnhancedRules.EnhancedBuyDip(o, e, m, v, ctx)
    case MomentumReversal(lo, hi) => EnhancedRules.MomentumReversal(lo, hi, ctx)
    case TrendContinuation(t) => EnhancedRules.TrendContinuation(t, ctx)
    case CommodityBreakout(b, m) => MiningRules.CommodityBreakout(b, m, ctx)
    case MinerMetalRatio(o, t) => MiningRules.MinerMetalRatio(o, t, ctx)
    case DollarWeakness(m, req) => MiningRules.DollarWeakness(m, req, ctx)
    case Seasonality(b, p, req) => MiningRules.Seasonality(b, p, req, ctx)
    case VolumeBreakout(v, b, lo, hi) => MiningRules.VolumeBreakout(v, b, lo, hi, ctx)
  }

  /** Rules that only ever emit BUY when they trigger. */
  predicate BuyOnly(rule: Rule) {
    !(rule.RsiOverbought? || rule.RsiApproachingOversold? || rule.MacdBearishCrossover? || rule.MacdMomentum?
      || rule.WeeklyUptrend? || rule.MonthlyUptrend? || rule.TrendBreakWarning? || rule.DeathCross?)
  }

  /** Every rule not listed as mixed emits only BUY; the crossover warning and trend confirmations never emit BUY. */
  lemma SignalDirections(rule: Rule, ctx: SymbolContext)
    requires Evaluate(rule, ctx).Success? && Evaluate(rule, ctx).value.triggered
    ensures BuyOnly(rule) ==> Evaluate(rule, ctx).value.signal == Some(Buy)
    ensures rule.MacdBearishCrossover? || rule.WeeklyUptrend? || rule.MonthlyUptrend? || rule.RsiApproachingOversold?
      ==> Evaluate(rule, ctx).value.signal == Some(Watch)
    ensures rule.TrendBreakWarning? || rule.DeathCross? ==> Evaluate(rule, ctx).value.signal == Some(Sell)
  {
  }

  /** A strong buy implies the plain dip-in-uptrend rule at the same threshold, and full alignment. */
  lemma StrongBuyImpliesDipAndAlignment(t: real, ctx: SymbolContext)
    requires Evaluate(StrongBuySignal(t), ctx).value.triggered
    ensures Evaluate(BuyDipInUptrend(t), ctx).value.triggered
    ensures Evaluate(FullTrendAlignment, ctx).value.triggered
  {
  }

  /** `can_evaluate` is `has_indicators` over the declared names; each RSI rule declares exactly RSI_14. */
  lemma CanEvaluateRsiRules(t: real, e: real, ctx: SymbolContext)
    ensures CanEvaluate(RsiOversold(t, e), ctx) <==> "RSI_14" in ctx.indicators
    ensures RequiredIndicators(RsiOverbought(t, e)) == ["RSI_14"]
    ensures RequiredIndicators(RsiApproachingOversold(t, e)) == ["RSI_14"]
  {
    assert RequiredIndicators(RsiOversold(t, e))[0] == "RSI_14";
  }
}

=== FILE: service.dfy ===
/**
 * The decision service's per-event logic: admitting an indicator event,
 * evaluating the symbol's rules into BUY / SELL / WATCH buckets, choosing a
 * direction by strict majority, aggregating the winning bucket, and the gates
 * a signal passes before it is published. The message bus, the key-value
 * stores, the risk engine and the wall clock become inputs.
 */
module Service {
  import opened Wrappers
  import opened Base
  import opened Signals
  import Rules
  import MarketContext
  import StateManager
  import TradePlanner
  import Checklist

  const MaxSymbolLength: int := 10
  /** The debounce table is pruned only once it tracks more than this many symbols. */
  const EvictionThreshold: int := 100
  /** Entries younger than this many seconds survive pruning. */
  const EvictionAge: int := 1800

  /** The service settings and aggregation options the event path reads. */
  datatype ServiceConfig = ServiceConfig(
    activeTickersOnly: bool,
    activeTickers: set<string>,
    requireConsensus: bool,
    consensusMinRules: int,
    minPublishConfidence: real,
    debounceSeconds: int)

  // ---------------------------------------------------------------------
  // Admitting an event
  // ---------------------------------------------------------------------

  /** An indicator value as received: a finite number, or a NaN / infinite float. */
  datatype IndicatorValue = Finite(v: real) | NonFinite

  /** The `symbol` field: absent or empty, a non-empty string, or some other truthy value. */
  datatype SymbolField = NoSymbol | Text(s: string) | NonText

  /** The `indicators` field: a table (empty when absent), or some other truthy value. */
  datatype IndicatorsField = Table(values: map<string, IndicatorValue>) | NotTable

  /**
   * A decoded indicator event. `isReady` is the `is_ready` flag of the data
   * quality block, `None` when the block or the flag is absent; `time` and
   * `month` are the parsed event timestamp.
   */
  datatype IndicatorEvent = IndicatorEvent(
    eventType: string,
    symbol: SymbolField,
    indicators: IndicatorsField,
    isReady: Option<bool>,
    time: int,
    month: Month)

  predicate AllFinite(values: map<string, IndicatorValue>) {
    forall k :: k in values ==> values[k].Finite?
  }

  /**
   * The admission checks of `handle_indicator_event`: the result is the
   * symbol and its numeric indicators, or `None` for an ignored event.
   */
  function Admit(e: IndicatorEvent, cfg: ServiceConfig): (r: Option<(string, Indicators)>)
    ensures r.Some? <==>
      && e.eventType == "INDICATOR_UPDATE"
      && e.symbol.Text? && e.symbol.s != "" && |e.symbol.s| <= MaxSymbolLength
      && e.indicators.Table? && |e.indicators.values| > 0 && AllFinite(e.indicators.values)
      && e.isReady != Some(false)
      && (cfg.activeTickersOnly ==> e.symbol.s in cfg.activeTickers)
    ensures r.Some? ==>
      && r.value.0 == e.symbol.s
      && r.value.1.Keys == e.indicators.values.Keys
      && forall k :: k in r.value.1 ==> e.indicators.values[k] == Finite(r.value.1[k])
  {
    if e.eventType != "INDICATOR_UPDATE" then None
    else if e.symbol.NoSymbol? || (e.symbol.Text? && e.symbol.s == "") then None
    else if e.indicators.Table? && |e.indicators.values| == 0 then None
    else if !e.symbol.Text? || |e.symbol.s| > MaxSymbolLength then None
    else if !e.indicators.Table? then None
    else if !AllFinite(e.indicators.values) then None
    else if e.isReady == Some(false) then None
    else if cfg.activeTickersOnly && e.symbol.s !in cfg.activeTickers then None
    else
      var values := e.indicators.values;
      Some((e.symbol.s, map k | k in values :: values[k].v))
  }

  // ---------------------------------------------------------------------
  // Evaluating the rules
  // ---------------------------------------------------------------------

  /** The bucket a triggered result lands in: BUY, SELL, and everything else as WATCH. */
  function TypeOf(res: RuleResult): SignalType {
    res.signal.GetOr(Watch)
  }

  /** What one rule did in the loop: skipped by `can_evaluate`, raised, or returned a result. */
  datatype Outcome = Skipped | Raised(error: RuleError) | Returned(rule: Rules.Rule, res: RuleResult)

  function OutcomeOf(rule: Rules.Rule, ctx: SymbolContext): (o: Outcome)
    ensures o.Skipped? <==> !Rules.CanEvaluate(rule, ctx)
    ensures o.Raised? ==> o.error == ZeroDivision && Rules.MayDivideByZero(rule)
    ensures o.Returned? ==> o.rule == rule && WellFormed(o.res)
    ensures Rules.PositiveAverages(ctx) ==> !o.Raised?
  {
    if !Rules.CanEvaluate(rule, ctx) then Skipped
    else
      match Rules.Evaluate(rule, ctx)
      case Success(res) => Returned(rule, res)
      case Failure(e) => Raised(e)
  }

  function Outcomes(rules: seq<Rules.Rule>, ctx: SymbolContext): (o: seq<Outcome>)
    ensures |o| == |rules|
    ensures forall i :: 0 <= i < |rules| ==> o[i] == OutcomeOf(rules[i], ctx)
  {
    seq(|rules|, i requires 0 <= i < |rules| => OutcomeOf(rules[i], ctx))
  }

  /** The outcome is a triggered result of type `t`. */
  predicate FiresAs(o: Outcome, t: SignalType) {
    o.Returned? && o.res.triggered && TypeOf(o.res) == t
  }

  /** The signal recorded for a returned result. */
  function SignalOf(o: Outcome, time: int): Signal
    requires o.Returned?
  {
    Signal(Rules.Name(o.rule), TypeOf(o.res), o.res.confidence, o.res.factors, time)
  }

  /** Every returned result satisfies the result invariant. */
  predicate Sound(o: seq<Outcome>) {
    forall i :: 0 <= i < |o| ==> o[i].Returned? ==> WellFormed(o[i].res)
  }

  /** The outcomes of the rules that did run. */
  function Ran(o: seq<Outcome>): (r: seq<Outcome>)
    ensures |r| <= |o|
    ensures forall i :: 0 <= i < |r| ==> !r[i].Skipped?
    decreases |o|
  {
    if |o| == 0 then []
    else if o[|o| - 1].Skipped? then Ran(o[..|o| - 1])
    else Ran(o[..|o| - 1]) + [o[|o| - 1]]
  }

  /** The triggered signals by type and the number of rules evaluated. */
  datatype Buckets = Buckets(buy: seq<Signal>, sell: seq<Signal>, watch: seq<Signal>, evaluated: nat)

  function Bucket(b: Buckets, t: SignalType): seq<Signal> {
    match t
    case Buy => b.buy
    case Sell => b.sell
    case Watch => b.watch
  }

  predicate TypedBucket(s: seq<Signal>, t: SignalType) {
    forall i :: 0 <= i < |s| ==> s[i].signalType == t && 0.0 <= s[i].confidence <= 1.0
  }

  /**
   * The loop body of `_evaluate_rules` over the rules' outcomes: skipped
   * rules are not counted, the first raised error aborts the loop, and a
   * triggered result is appended to its type's bucket.
   */
  function Tally(o: seq<Outcome>, time: int): (r: Result<Buckets, RuleError>)
    ensures r.Success? ==> r.value.evaluated == |Ran(o)|
    ensures r.Success? ==> |r.value.buy| + |r.value.sell| + |r.value.watch| <= r.value.evaluated
    ensures r.Success? && Sound(o) ==>
      TypedBucket(r.value.buy, Buy) && TypedBucket(r.value.sell, Sell) && TypedBucket(r.value.watch, Watch)
    ensures r.Failure? ==> exists j :: 0 <= j < |o| && o[j].Raised? && r.error == o[j].error
    ensures (forall j :: 0 <= j < |o| ==> !o[j].Raised?) ==> r.Success?
    decreases |o|
  {
    if |o| == 0 then Success(Buckets([], [], [], 0))
    else
      var init := o[..|o| - 1];
      assert forall j :: 0 <= j < |init| ==> init[j] == o[j];
      Extend(Tally(init, time), o[|o| - 1], time)
  }

  /** One step of the loop: an earlier error stands, otherwise the outcome is counted and filed. */
  function Extend(prev: Result<Buckets, RuleError>, last: Outcome, time: int): Result<Buckets, RuleError> {
    if prev.Failure? then prev
    else
      var b := prev.value;
      match last
      case Skipped => prev
      case Raised(e) => Failure(e)
      case Returned(_, res) =>
        var counted := b.(evaluated := b.evaluated + 1);
        if !res.triggered then Success(counted)
        else
          var signal := SignalOf(last, time);
          match TypeOf(res)
          case Buy => Success(counted.(buy := b.buy + [signal]))
          case Sell => Success(counted.(sell := b.sell + [signal]))
          case Watch => Success(counted.(watch := b.watch + [signal]))
  }

  /** Skipped rules leave no trace: tallying all outcomes is tallying the outcomes of the rules that ran. */
  lemma {:induction false} TallyIgnoresSkipped(o: seq<Outcome>, time: int)
    ensures Tally(o, time) == Tally(Ran(o), time)
    decreases |o|
  {
    if |o| > 0 {
      var init := o[..|o| - 1];
      var last := o[|o| - 1];
      TallyIgnoresSkipped(init, time);
      assert Tally(o, time) == Extend(Tally(init, time), last, time);
      if last.Skipped? {
        assert Ran(o) == Ran(init);
      } else {
        var f := Ran(init) + [last];
        assert Ran(o) == f;
        assert f[..|f| - 1] == Ran(init);
        assert Tally(f, time) == Extend(Tally(Ran(init), time), last, time);
      }
    }
  }

  /**
   * A signal is in the bucket of type `t` exactly when some outcome fired
   * with that type and this is the signal recorded for it.
   */
  lemma {:induction false} TallyMembership(o: seq<Outcome>, time: int, t: SignalType, s: Signal)
    requires Tally(o, time).Success?
    ensures s in Bucket(Tally(o, time).value, t) <==>
      exists j :: 0 <= j < |o| && FiresAs(o[j], t) && s == SignalOf(o[j], time)
    decreases |o|
  {
    if |o| > 0 {
      var n := |o| - 1;
      var init := o[..n];
      assert Tally(o, time) == Extend(Tally(init, time), o[n], time);
      assert Tally(init, time).Success?;
      TallyMembership(init, time, t, s);
      ExtendMembership(Tally(init, time).value, o[n], time, t, s);
      FiredSplit(o, time, t, s);
    }
  }

  /** Some outcome of `o` fired with type `t` and recorded `s`. */
  predicate Fired(o: seq<Outcome>, time: int, t: SignalType, s: Signal) {
    exists j :: 0 <= j < |o| && FiresAs(o[j], t) && s == SignalOf(o[j], time)
  }

  /** Some outcome of `o` fired as `t` and recorded `s`: either one before the last, or the last. */
  lemma FiredSplit(o: seq<Outcome>, time: int, t: SignalType, s: Signal)
    requires |o| > 0
    ensures Fired(o, time, t, s) <==>
      Fired(o[..|o| - 1], time, t, s) || (FiresAs(o[|o| - 1], t) && s == SignalOf(o[|o| - 1], time))
  {
    var n := |o| - 1;
    var init := o[..n];
    if Fired(init, time, t, s) {
      var j :| 0 <= j < |init| && FiresAs(init[j], t) && s == SignalOf(init[j], time);
      assert o[j] == init[j];
      assert 0 <= j < |o| && FiresAs(o[j], t) && s == SignalOf(o[j], time);
    }
    if FiresAs(o[n], t) && s == SignalOf(o[n], time) {
      assert 0 <= n < |o| && FiresAs(o[n], t) && s == SignalOf(o[n], time);
    }
    if Fired(o, time, t, s) {
      var j :| 0 <= j < |o| && FiresAs(o[j], t) && s == SignalOf(o[j], time);
      if j < n {
        assert init[j] == o[j];
        assert 0 <= j < |init| && FiresAs(init[j], t) && s == SignalOf(init[j], time);
      }
    }
  }

  /** One step files a signal in the bucket of `t` exactly when the outcome fired with that type. */
  lemma ExtendMembership(prev: Buckets, last: Outcome, time: int, t: SignalType, s: Signal)
    requires Extend(Success(prev), last, time).Success?
    ensures s in Bucket(Extend(Success(prev), last, time).value, t) <==>
      s in Bucket(prev, t) || (FiresAs(last, t) && s == SignalOf(last, time))
  {
  }

  /** The rules that pass `can_evaluate`, in order. */
  function Evaluable(rules: seq<Rules.Rule>, ctx: SymbolContext): (r: seq<Rules.Rule>)
    ensures |r| <= |rules|
    ensures forall i :: 0 <= i < |r| ==> Rules.CanEvaluate(r[i], ctx)
    decreases |rules|
  {
    if |rules| == 0 then []
    else
      var init := Evaluable(rules[..|rules| - 1], ctx);
      if Rules.CanEvaluate(rules[|rules| - 1], ctx) then init + [rules[|rules| - 1]] else init
  }

  /** The outcomes of the evaluable rules are the outcomes that were not skipped. */
  lemma {:induction false} EvaluableOutcomes(rules: seq<Rules.Rule>, ctx: SymbolContext)
    ensures Outcomes(Evaluable(rules, ctx), ctx) == Ran(Outcomes(rules, ctx))
    decreases |rules|
  {
    if |rules| > 0 {
      var init := rules[..|rules| - 1];
      var o := Outcomes(rules, ctx);
      assert o[..|o| - 1] == Outcomes(init, ctx);
      EvaluableOutcomes(init, ctx);
    }
  }

  /**
   * `_evaluate_rules`' loop on the symbol's rules: only evaluable rules are
   * counted, the buckets hold well-formed signals of their type, and the only
   * error, a division by a zero average, cannot happen for positive averages.
   */
  function EvaluateAll(rules: seq<Rules.Rule>, ctx: SymbolContext): (r: Result<Buckets, RuleError>)
    ensures r.Success? ==> r.value.evaluated == |Evaluable(rules, ctx)|
    ensures r.Success? ==>
      && TypedBucket(r.value.buy, Buy) && TypedBucket(r.value.sell, Sell) && TypedBucket(r.value.watch, Watch)
      && |r.value.buy| + |r.value.sell| + |r.value.watch| <= r.value.evaluated
    ensures r.Failure? ==> r.error == ZeroDivision
    ensures Rules.PositiveAverages(ctx) ==> r.Success?
  {
    var o := Outcomes(rules, ctx);
    EvaluableOutcomes(rules, ctx);
    Tally(o, ctx.time)
  }

  /** Skipping the rules that cannot evaluate is the same as evaluating only the rules that can. */
  lemma SkippingIsFiltering(rules: seq<Rules.Rule>, ctx: SymbolContext)
    ensures EvaluateAll(rules, ctx) == EvaluateAll(Evaluable(rules, ctx), ctx)
  {
    EvaluableOutcomes(rules, ctx);
    TallyIgnoresSkipped(Outcomes(rules, ctx), ctx.time);
    EvaluableOutcomes(Evaluable(rules, ctx), ctx);
    assert Evaluable(Evaluable(rules, ctx), ctx) == Evaluable(rules, ctx) by {
      EvaluableIdempotent(rules, ctx);
    }
  }

  lemma {:induction false} EvaluableIdempotent(rules: seq<Rules.Rule>, ctx: SymbolContext)
    ensures Evaluable(Evaluable(rules, ctx), ctx) == Evaluable(rules, ctx)
    decreases |rules|
  {
    if |rules| > 0 {
      var init := rules[..|rules| - 1];
      EvaluableIdempotent(init, ctx);
      var f := Evaluable(rules, ctx);
      if Rules.CanEvaluate(rules[|rules| - 1], ctx) {
        assert f[..|f| - 1] == Evaluable(init, ctx);
      }
    }
  }

  /**
   * A signal is in the bucket of type `t` exactly when some evaluable rule
   * triggered with that type and this is the signal recorded for it.
   */
  lemma BucketMembership(rules: seq<Rules.Rule>, ctx: SymbolContext, t: SignalType, s: Signal)
    requires EvaluateAll(rules, ctx).Success?
    ensures s in Bucket(EvaluateAll(rules, ctx).value, t) <==>
      exists j :: 0 <= j < |rules| && FiresAs(OutcomeOf(rules[j], ctx), t) && s == SignalOf(OutcomeOf(rules[j], ctx), ctx.time)
  {
    TallyMembership(Outcomes(rules, ctx), ctx.time, t, s);
  }

  /** How many outcomes fired with type `t`. */
  function FireCount(o: seq<Outcome>, t: SignalType): nat {
    if |o| == 0 then 0
    else FireCount(o[..|o| - 1], t) + (if FiresAs(o[|o| - 1], t) then 1 else 0)
  }

  /** One step grows the bucket of `t` by one exactly when the outcome fired with that type. */
  lemma ExtendSize(prev: Buckets, last: Outcome, time: int, t: SignalType)
    requires Extend(Success(prev), last, time).Success?
    ensures |Bucket(Extend(Success(prev), last, time).value, t)| == |Bucket(prev, t)| + (if FiresAs(last, t) then 1 else 0)
  {
  }

  /** Every firing is counted: the bucket of `t` holds one signal per outcome that fired with that type. */
  lemma {:induction false} BucketSize(o: seq<Outcome>, time: int, t: SignalType)
    requires Tally(o, time).Success?
    ensures |Bucket(Tally(o, time).value, t)| == FireCount(o, t)
    decreases |o|
  {
    if |o| > 0 {
      var n := |o| - 1;
      var init := o[..n];
      assert Tally(o, time) == Extend(Tally(init, time), o[n], time);
      assert Tally(init, time).Success?;
      BucketSize(init, time, t);
      ExtendSize(Tally(init, time).value, o[n], time, t);
    }
  }

  /** The vote counts: the bucket of `t` has one signal per configured rule that triggered with type `t`. */
  lemma BucketCount(rules: seq<Rules.Rule>, ctx: SymbolContext, t: SignalType)
    ensures EvaluateAll(rules, ctx).Success? ==>
      |Bucket(EvaluateAll(rules, ctx).value, t)| == FireCount(Outcomes(rules, ctx), t)
  {
    if EvaluateAll(rules, ctx).Success? {
      BucketSize(Outcomes(rules, ctx), ctx.time, t);
    }
  }

  // ---------------------------------------------------------------------
  // Choosing a direction
  // ---------------------------------------------------------------------

  /**
   * The dominant type: BUY or SELL need a strict majority over the other
   * (and, with the consensus gate on, at least the minimum number of rules);
   * WATCH is considered only when neither side has a strict majority.
   */
  function Direction(nBuy: nat, nSell: nat, nWatch: nat, requireConsensus: bool, minRules: int): (d: Option<SignalType>)
    ensures d == Some(Buy) <==> nBuy > nSell && !(requireConsensus && nBuy < minRules)
    ensures d == Some(Sell) <==> nSell > nBuy && !(requireConsensus && nSell < minRules)
    ensures d == Some(Watch) <==> nBuy == nSell && nWatch > 0
  {
    if nBuy > 0 && nBuy > nSell then
      if requireConsensus && nBuy < minRules then None else Some(Buy)
    else if nSell > 0 && nSell > nBuy then
      if requireConsensus && nSell < minRules then None else Some(Sell)
    else if nWatch > 0 then Some(Watch)
    else None
  }

  /** A tied vote never acts; a majority stopped by the consensus gate does not fall back to WATCH. */
  lemma DirectionExamples()
    ensures Direction(2, 2, 0, false, 1) == None
    ensures Direction(2, 2, 1, false, 1) == Some(Watch)
    ensures Direction(1, 0, 3, true, 2) == None
    ensures Direction(2, 1, 0, true, 2) == Some(Buy)
    ensures Direction(0, 0, 0, false, 1) == None
  {
  }

  // ---------------------------------------------------------------------
  // Aggregating the winning bucket
  // ---------------------------------------------------------------------

  /** The first signal of highest confidence, as `max` picks it. */
  function Strongest(s: seq<Signal>): (i: nat)
    requires |s| > 0
    ensures i < |s|
    ensures forall j :: 0 <= j < |s| ==> s[j].confidence <= s[i].confidence
    ensures forall j :: 0 <= j < i ==> s[j].confidence < s[i].confidence
    decreases |s|
  {
    if |s| == 1 then 0
    else
      var k := Strongest(s[..|s| - 1]);
      if s[|s| - 1].confidence > s[k].confidence then |s| - 1 else k
  }

  /** The regime multiplier for a type, 1.0 when no regime reader is configured. */
  function RegimeFactor(reader: Option<MarketContext.RegimeState>, t: SignalType): real {
    if reader.Some? then MarketContext.Multiplier(reader.value, t) else 1.0
  }

  /**
   * `_aggregate_signals`: the consensus-boosted confidence, scaled by the
   * regime multiplier only when that is not 1.0 and capped at 1.0; the
   * primary signal is the first of highest confidence.
   */
  function Aggregate(symbol: string, t: SignalType, signals: seq<Signal>, evaluated: nat, time: int,
                     reader: Option<MarketContext.RegimeState>): (a: AggregatedSignal)
    requires |signals| > 0
    ensures a.confidence == Min(ConsensusBoost(signals) * RegimeFactor(reader, t), 1.0)
    ensures ConfidencesInUnit(signals) ==> 0.0 <= a.confidence <= ConsensusBoost(signals)
    ensures t != Buy ==> a.confidence == ConsensusBoost(signals)
    ensures a.primary in signals && forall i :: 0 <= i < |signals| ==> signals[i].confidence <= a.primary.confidence
    ensures a.symbol == symbol && a.signalType == t && a.contributing == signals && a.time == time
    ensures a.rulesTriggered == |signals| && a.rulesEvaluated == evaluated
    ensures reader.None? ==> a.regimeId == "UNKNOWN" && a.regimeConfidence == 0.0
    ensures reader.Some? ==> a.regimeId == reader.value.regime && a.regimeConfidence == reader.value.confidence
  {
    var boosted := ConsensusBoost(signals);
    var m := RegimeFactor(reader, t);
    var confidence := if m != 1.0 then Min(boosted * m, 1.0) else boosted;
    ScaledBoostBounds(boosted, m);
    var regime := if reader.Some? then reader.value.regime else "UNKNOWN";
    var regimeConfidence := if reader.Some? then reader.value.confidence else 0.0;
    AggregatedSignal(symbol, t, confidence, signals[Strongest(signals)], signals, time,
      |signals|, evaluated, regime, regimeConfidence)
  }

  lemma ScaledBoostBounds(c: real, m: real)
    requires c <= 1.0 && 0.0 < m <= 1.0
    ensures Min(c * 1.0, 1.0) == c
    ensures 0.0 <= c ==> 0.0 <= Min(c * m, 1.0) <= c
  {
    if 0.0 <= c {
      assert c * m <= c * 1.0;
    }
  }

  /** The regime can only lower a BUY: a BEAR regime scales it to 30%, a bull regime leaves it as it is. */
  lemma RegimeDampensBuy(symbol: string, signals: seq<Signal>, evaluated: nat, time: int)
    requires |signals| > 0 && ConfidencesInUnit(signals)
    ensures Aggregate(symbol, Buy, signals, evaluated, time, Some(MarketContext.RegimeState("BEAR", 0.8))).confidence
      == ConsensusBoost(signals) * 0.3
    ensures Aggregate(symbol, Buy, signals, evaluated, time, Some(MarketContext.RegimeState("BULL", 0.8))).confidence
      == ConsensusBoost(signals)
    ensures Aggregate(symbol, Sell, signals, evaluated, time, Some(MarketContext.RegimeState("BEAR", 0.8))).confidence
      == ConsensusBoost(signals)
  {
  }

  /** `_evaluate_rules` end to end: the buckets, the direction and the aggregate. */
  function EvaluateRules(rules: seq<Rules.Rule>, ctx: SymbolContext, cfg: ServiceConfig,
                         reader: Option<MarketContext.RegimeState>): (r: Result<Option<AggregatedSignal>, RuleError>)
    ensures r.Success? <==> EvaluateAll(rules, ctx).Success?
    ensures r.Success? && r.value.Some? ==> var b := EvaluateAll(rules, ctx).value; var a := r.value.value;
      && Direction(|b.buy|, |b.sell|, |b.watch|, cfg.requireConsensus, cfg.consensusMinRules) == Some(a.signalType)
      && a.contributing == Bucket(b, a.signalType)
      && |a.contributing| > 0
      && TypedBucket(a.contributing, a.signalType)
      && a.rulesEvaluated == |Evaluable(rules, ctx)|
      && 0.0 <= a.confidence <= 1.0
      && a.symbol == ctx.symbol
    ensures r.Success? && r.value.None? ==> var b := EvaluateAll(rules, ctx).value;
      Direction(|b.buy|, |b.sell|, |b.watch|, cfg.requireConsensus, cfg.consensusMinRules).None?
  {
    var b :- EvaluateAll(rules, ctx);
    match Direction(|b.buy|, |b.sell|, |b.watch|, cfg.requireConsensus, cfg.consensusMinRules)
    case None => Success(None)
    case Some(t) =>
      var signals := Bucket(b, t);
      assert ConfidencesInUnit(signals);
      Success(Some(Aggregate(ctx.symbol, t, signals, b.evaluated, ctx.time, reader)))
  }

  // ---------------------------------------------------------------------
  // Publication gates
  // ---------------------------------------------------------------------

  /** When each symbol's signal was last published, in seconds. */
  type PublishLog = map<string, int>

  /** The pruning of the debounce table once it tracks more than 100 symbols. */
  function Evict(log: PublishLog, now: int): (r: PublishLog)
    ensures |log| <= EvictionThreshold ==> r == log
    ensures |log| > EvictionThreshold ==> forall s :: s in r <==> s in log && log[s] > now - EvictionAge
    ensures forall s :: s in r ==> s in log && r[s] == log[s]
  {
    if |log| > EvictionThreshold then map s | s in log && log[s] > now - EvictionAge :: log[s]
    else log
  }

  /** A publish for the symbol in the table is more recent than the debounce interval. */
  predicate Debounced(log: PublishLog, symbol: string, now: int, debounceSeconds: int) {
    symbol in log && now - log[symbol] < debounceSeconds
  }

  /**
   * `_should_publish`: the confidence threshold first (the table is left
   * alone when it fails), then pruning, the debounce interval, and for SELL
   * a tracked position whenever the position tracker is connected.
   */
  function ShouldPublish(cfg: ServiceConfig, symbol: string, signal: AggregatedSignal, log: PublishLog, now: int,
                         trackerConnected: bool, hasPosition: bool): (r: (bool, PublishLog))
    ensures r.0 <==>
      && signal.confidence >= cfg.minPublishConfidence
      && !Debounced(r.1, symbol, now, cfg.debounceSeconds)
      && !(signal.signalType == Sell && trackerConnected && !hasPosition)
    ensures signal.confidence < cfg.minPublishConfidence ==> r.1 == log
    ensures forall s :: s in r.1 ==> s in log && r.1[s] == log[s]
    ensures |log| <= EvictionThreshold ==> r.1 == log
  {
    if signal.confidence < cfg.minPublishConfidence then (false, log)
    else
      var pruned := Evict(log, now);
      if Debounced(pruned, symbol, now, cfg.debounceSeconds) then (false, pruned)
      else if signal.signalType == Sell && trackerConnected && !hasPosition then (false, pruned)
      else (true, pruned)
  }

  /** With a debounce interval of at most 30 minutes, pruning never changes the debounce verdict. */
  lemma PruningKeepsDebounce(log: PublishLog, symbol: string, now: int, debounceSeconds: int)
    requires debounceSeconds <= EvictionAge
    ensures Debounced(Evict(log, now), symbol, now, debounceSeconds) <==> Debounced(log, symbol, now, debounceSeconds)
  {
  }

  /** What the risk engine would say about a BUY: no engine, pass, reject, or an error. */
  datatype RiskOutcome = NoRiskEngine | RiskPassed | RiskRejected | RiskFailed

  /** A published decision: the signal and what accompanies it. */
  datatype Decision = Decision(
    signal: AggregatedSignal,
    plan: Option<TradePlanner.TradePlan>,
    checklist: Option<Checklist.ChecklistResult>,
    riskAssessed: bool)

  /** The environment an event is handled in. */
  datatype Environment = Environment(
    config: ServiceConfig,
    rules: seq<Rules.Rule>,                          // the rules configured for the event's symbol
    reader: Option<MarketContext.RegimeState>,       // the regime reader's state, if configured
    planner: Option<TradePlanner.PlannerConfig>,     // the trade plan engine, if enabled
    balance: real,
    sizer: TradePlanner.SizerOutcome,
    earnings: Option<Checklist.EarningsStore>,       // the checklist evaluator's store, if configured
    risk: RiskOutcome,
    trackerConnected: bool,
    hasPosition: bool,
    now: int)

  /** What the plan engine is given: the contributing rules' names in order, the indicators and the sizing inputs. */
  function PlanInputOf(env: Environment, a: AggregatedSignal, indicators: Indicators): (input: TradePlanner.PlanInput)
    ensures input.symbol == a.symbol && input.indicators == indicators
    ensures |input.ruleNames| == |a.contributing|
    ensures forall i :: 0 <= i < |a.contributing| ==> input.ruleNames[i] == a.contributing[i].ruleName
  {
    var names := seq(|a.contributing|, i requires 0 <= i < |a.contributing| => a.contributing[i].ruleName);
    TradePlanner.PlanInput(a.symbol, names, indicators, env.balance, env.sizer)
  }

  /** The trade plan for a BUY, or none when the engine is off, the signal is not a BUY, or generation raised. */
  function PlanFor(env: Environment, a: AggregatedSignal, indicators: Indicators): (p: Option<TradePlanner.TradePlan>)
    ensures p.Some? ==> a.signalType == Buy && env.planner.Some?
    ensures p.Some? ==>
      && |p.value.rulesContributed| == |a.contributing|
      && forall i :: 0 <= i < |a.contributing| ==> p.value.rulesContributed[i] == a.contributing[i].ruleName
    ensures TradePlanner.Lookup(indicators, "close", 0.0) <= 0.0 ==> p.None?
    ensures env.planner.Some? && a.signalType == Buy ==>
      var g := TradePlanner.Generate(env.planner.value, PlanInputOf(env, a, indicators));
      && (p.Some? <==> g.Success?)
      && (p.Some? ==> p.value == g.value)
  {
    if env.planner.None? || a.signalType != Buy then None
    else
      match TradePlanner.Generate(env.planner.value, PlanInputOf(env, a, indicators))
      case Success(plan) => Some(plan)
      case Failure(_) => None
  }

  /** The checklist for a BUY, run with or without a plan, whenever an evaluator is configured. */
  function ChecklistFor(env: Environment, a: AggregatedSignal, plan: Option<TradePlanner.TradePlan>)
    : (c: Option<Checklist.ChecklistResult>)
    ensures c.Some? <==> a.signalType == Buy && env.earnings.Some?
    ensures c.Some? ==> (c.value.regimeCompatible <==> a.regimeId != "BEAR")
    ensures c.Some? && plan.None? ==> !c.value.stopLossDefined && !c.value.allChecksPassed
    ensures c.Some? ==> c.value == Checklist.Evaluate(if plan.Some? then Some(Checklist.FactsOf(plan.value)) else None,
                                                      a.regimeId, env.earnings.value, env.now as real)
  {
    if env.earnings.None? || a.signalType != Buy then None
    else
      var facts := if plan.Some? then Some(Checklist.FactsOf(plan.value)) else None;
      Some(Checklist.Evaluate(facts, a.regimeId, env.earnings.value, env.now as real))
  }

  /**
   * Every publication gate passes: the checklist is not BLOCKED, a BUY's plan
   * (if any) is valid, `_should_publish` accepts, and the risk check of a BUY
   * did not reject it.
   */
  predicate PassesGates(env: Environment, a: AggregatedSignal, plan: Option<TradePlanner.TradePlan>,
                        checklist: Option<Checklist.ChecklistResult>, log: PublishLog) {
    && (checklist.None? || checklist.value.status != Checklist.Blocked)
    && !(a.signalType == Buy && plan.Some? && !plan.value.planValid)
    && ShouldPublish(env.config, a.symbol, a, log, env.now, env.trackerConnected, env.hasPosition).0
    && !(a.signalType == Buy && env.risk == RiskRejected)
  }

  /**
   * The suppression sequence after a signal is recorded: a BLOCKED checklist,
   * then a BUY whose plan exists but is invalid, then `_should_publish`, then
   * a risk rejection of a BUY. A publish stamps the table with the current
   * time; a risk error publishes without a risk assessment.
   */
  function Publish(env: Environment, a: AggregatedSignal, plan: Option<TradePlanner.TradePlan>,
                   checklist: Option<Checklist.ChecklistResult>, log: PublishLog): (r: (Option<Decision>, PublishLog))
    ensures checklist.Some? && checklist.value.status == Checklist.Blocked ==> r == (None, log)
    ensures a.signalType == Buy && plan.Some? && !plan.value.planValid ==> r == (None, log)
    ensures r.0.Some? ==>
      && r.0.value == Decision(a, plan, checklist, a.signalType == Buy && env.risk == RiskPassed)
      && ShouldPublish(env.config, a.symbol, a, log, env.now, env.trackerConnected, env.hasPosition).0
      && !(a.signalType == Buy && env.risk == RiskRejected)
      && r.1 == ShouldPublish(env.config, a.symbol, a, log, env.now, env.trackerConnected, env.hasPosition).1[a.symbol := env.now]
    ensures r.0.None? ==> forall s :: s in r.1 ==> s in log && r.1[s] == log[s]
    ensures (checklist.None? || checklist.value.status != Checklist.Blocked)
      && !(a.signalType == Buy && plan.Some? && !plan.value.planValid)
      && ShouldPublish(env.config, a.symbol, a, log, env.now, env.trackerConnected, env.hasPosition).0
      && !(a.signalType == Buy && env.risk == RiskRejected)
      ==> r.0.Some?
    ensures r.0.Some? <==> PassesGates(env, a, plan, checklist, log)
  {
    if checklist.Some? && checklist.value.status == Checklist.Blocked then (None, log)
    else if plan.Some? && a.signalType == Buy && !plan.value.planValid then (None, log)
    else
      var (ok, pruned) := ShouldPublish(env.config, a.symbol, a, log, env.now, env.trackerConnected, env.hasPosition);
      if !ok then (None, pruned)
      else if a.signalType == Buy && env.risk == RiskRejected then (None, pruned)
      else
        var assessed := a.signalType == Buy && env.risk == RiskPassed;
        (Some(Decision(a, plan, checklist, assessed)), pruned[a.symbol := env.now])
  }

  /** The service's mutable state: the per-symbol state and the debounce table. */
  datatype ServiceState = ServiceState(manager: StateManager.Manager, log: PublishLog)

  datatype EventOutcome = EventOutcome(state: ServiceState, published: Option<Decision>)

  /**
   * `handle_indicator_event`: an ignored event changes nothing; an admitted
   * one updates the symbol's indicators first, so that a rule error, which
   * abandons the event, still leaves them stored; a signal is recorded
   * before any gate can suppress it.
   */
  function HandleIndicatorEvent(st: ServiceState, e: IndicatorEvent, env: Environment): (r: EventOutcome)
    ensures Admit(e, env.config).None? ==> r == EventOutcome(st, None)
    ensures Admit(e, env.config).Some? ==> var symbol := Admit(e, env.config).value.0;
      && symbol in r.state.manager.states
      && r.state.manager.states[symbol].lastIndicators == Admit(e, env.config).value.1
      && r.state.manager.states[symbol].lastUpdate == Some(e.time)
    ensures r.published.Some? ==> var d := r.published.value;
      && Admit(e, env.config).Some?
      && d.signal.symbol == Admit(e, env.config).value.0
      && d.signal.confidence >= env.config.minPublishConfidence
      && (d.checklist.Some? ==> d.checklist.value.status != Checklist.Blocked)
      && (d.plan.Some? ==> d.signal.signalType == Buy && d.plan.value.planValid)
      && (d.signal.signalType == Sell && env.trackerConnected ==> env.hasPosition)
      && d.signal.symbol in r.state.log && r.state.log[d.signal.symbol] == env.now
      && r.state.manager.states[d.signal.symbol].currentSignal == Some(d.signal)
    ensures r.published.None? ==> forall s :: s in r.state.log ==> s in st.log && r.state.log[s] == st.log[s]
    ensures Admit(e, env.config).Some? ==> var (symbol, ind) := Admit(e, env.config).value;
      var ev := EvaluateRules(env.rules, EventContext(st.manager, e, symbol, ind), env.config, env.reader);
      && (r.published.Some? ==> ev.Success? && ev.value.Some? && r.published.value.signal == ev.value.value)
      && (ev.Success? && ev.value.Some? ==>
            var a := ev.value.value; var plan := PlanFor(env, a, ind);
            (r.published.Some? <==> PassesGates(env, a, plan, ChecklistFor(env, a, plan), st.log)))
  {
    match Admit(e, env.config)
    case None => EventOutcome(st, None)
    case Some((symbol, indicators)) =>
      var m1 := StateManager.UpdateIndicators(st.manager, symbol, indicators, e.time);
      var ctx := EventContext(st.manager, e, symbol, indicators);
      Respond(m1, symbol, EvaluateRules(env.rules, ctx, env.config, env.reader), indicators, env, st.log)
  }

  /**
   * The context the rules see for an admitted event: its symbol, indicators,
   * time and month, and the position side already held for the symbol, which
   * storing the new indicators leaves alone.
   */
  function EventContext(m: StateManager.Manager, e: IndicatorEvent, symbol: string, indicators: Indicators): (ctx: SymbolContext)
    ensures ctx.symbol == symbol && ctx.indicators == indicators && ctx.time == e.time && ctx.month == e.month
    ensures ctx.currentPosition == StateManager.GetState(m, symbol).0.positionSide
  {
    var m1 := StateManager.UpdateIndicators(m, symbol, indicators, e.time);
    SymbolContext(symbol, indicators, e.time, e.month, StateManager.GetState(m1, symbol).0.positionSide)
  }

  /**
   * The part of `handle_indicator_event` after the rules are evaluated for
   * `symbol`: a rule error or no direction ends the event with nothing else
   * changed; a signal goes on to `Act`.
   */
  function Respond(m: StateManager.Manager, symbol: string, evaluated: Result<Option<AggregatedSignal>, RuleError>,
                   indicators: Indicators, env: Environment, log: PublishLog): (r: EventOutcome)
    requires evaluated.Success? && evaluated.value.Some? ==> evaluated.value.value.symbol == symbol
    ensures evaluated.Failure? || evaluated.value.None? ==> r == EventOutcome(ServiceState(m, log), None)
    ensures r.published.None? ==> forall s :: s in r.state.log ==> s in log && r.state.log[s] == log[s]
    ensures symbol in m.states ==>
      && symbol in r.state.manager.states
      && r.state.manager.states[symbol].lastIndicators == m.states[symbol].lastIndicators
      && r.state.manager.states[symbol].lastUpdate == m.states[symbol].lastUpdate
    ensures r.published.Some? ==> var d := r.published.value;
      && d.signal.symbol == symbol
      && d.signal.confidence >= env.config.minPublishConfidence
      && (d.checklist.Some? ==> d.checklist.value.status != Checklist.Blocked)
      && (d.plan.Some? ==> d.signal.signalType == Buy && d.plan.value.planValid)
      && (d.signal.signalType == Sell && env.trackerConnected ==> env.hasPosition)
      && symbol in r.state.log && r.state.log[symbol] == env.now
      && symbol in r.state.manager.states
      && r.state.manager.states[symbol].currentSignal == Some(d.signal)
    ensures evaluated.Success? && evaluated.value.Some? ==> var a := evaluated.value.value;
      var plan := PlanFor(env, a, indicators); var checklist := ChecklistFor(env, a, plan);
      && (r.published.Some? <==> PassesGates(env, a, plan, checklist, log))
      && (r.published.Some? ==> r.published.value.signal == a)
  {
    match evaluated
    case Failure(_) => EventOutcome(ServiceState(m, log), None)
    case Success(None) => EventOutcome(ServiceState(m, log), None)
    case Success(Some(a)) => Act(m, a, indicators, env, log)
  }

  /**
   * The part of `handle_indicator_event` after a signal is produced: record
   * it, plan a BUY, run the checklist, and pass the publication gates.
   * Recording touches only the signal fields of the symbol's state.
   */
  function Act(m: StateManager.Manager, a: AggregatedSignal, indicators: Indicators, env: Environment,
               log: PublishLog): (r: EventOutcome)
    ensures a.symbol in r.state.manager.states
    ensures a.symbol in m.states ==>
      && r.state.manager.states[a.symbol].lastIndicators == m.states[a.symbol].lastIndicators
      && r.state.manager.states[a.symbol].lastUpdate == m.states[a.symbol].lastUpdate
    ensures r.published.Some? ==> var d := r.published.value;
      && d.signal == a
      && a.confidence >= env.config.minPublishConfidence
      && (d.checklist.Some? ==> d.checklist.value.status != Checklist.Blocked)
      && (d.plan.Some? ==> a.signalType == Buy && d.plan.value.planValid)
      && (a.signalType == Sell && env.trackerConnected ==> env.hasPosition)
      && a.symbol in r.state.log && r.state.log[a.symbol] == env.now
      && r.state.manager.states[a.symbol].currentSignal == Some(a)
    ensures r.published.None? ==> forall s :: s in r.state.log ==> s in log && r.state.log[s] == log[s]
    ensures var plan := PlanFor(env, a, indicators); var checklist := ChecklistFor(env, a, plan);
      && (r.published.Some? <==> PassesGates(env, a, plan, checklist, log))
      && (r.published.Some? ==> r.published.value == Decision(a, plan, checklist, a.signalType == Buy && env.risk == RiskPassed))
  {
    var m2 := StateManager.RecordSignal(m, a.symbol, a);
    var plan := PlanFor(env, a, indicators);
    var checklist := ChecklistFor(env, a, plan);
    var (decision, log') := Publish(env, a, plan, checklist, log);
    EventOutcome(ServiceState(m2, log'), decision)
  }
}

=== FILE: signals.dfy ===
/**
 * Individual and aggregated signals, and the confidence aggregation
 * strategies: weighted average, highest, and consensus boost.
 */
module Signals {
  import opened Wrappers
  import opened Base

  /** A signal from one rule (description and reasoning text are not modelled). */
  datatype Signal = Signal(
    ruleName: string,
    signalType: SignalType,
    confidence: real,
    factors: Factors,
    time: int)

  /** The signals of all agreeing rules for one symbol, with regime context. */
  datatype AggregatedSignal = AggregatedSignal(
    symbol: string,
    signalType: SignalType,
    confidence: real,
    primary: Signal,
    contributing: seq<Signal>,
    time: int,
    rulesTriggered: int,
    rulesEvaluated: int,
    regimeId: string,
    regimeConfidence: real)

  predicate ConfidencesInUnit(s: seq<Signal>) {
    forall i :: 0 <= i < |s| ==> 0.0 <= s[i].confidence <= 1.0
  }

  /** The weight of a rule: its configured weight, else 1.0. */
  function WeightOf(weights: map<string, real>, name: string): real {
    if name in weights then weights[name] else 1.0
  }

  predicate WeightsNonNegative(s: seq<Signal>, weights: map<string, real>) {
    forall i :: 0 <= i < |s| ==> WeightOf(weights, s[i].ruleName) >= 0.0
  }

  function TotalWeight(s: seq<Signal>, weights: map<string, real>): real {
    if |s| == 0 then 0.0 else WeightOf(weights, s[0].ruleName) + TotalWeight(s[1..], weights)
  }

  function WeightedSum(s: seq<Signal>, weights: map<string, real>): real {
    if |s| == 0 then 0.0
    else s[0].confidence * WeightOf(weights, s[0].ruleName) + WeightedSum(s[1..], weights)
  }

  /** Sum of confidences. */
  function SumConfidence(s: seq<Signal>): real {
    if |s| == 0 then 0.0 else s[0].confidence + SumConfidence(s[1..])
  }

  /** The plain (unweighted) mean confidence. */
  function Mean(s: seq<Signal>): real
    requires |s| > 0
  {
    SumConfidence(s) / |s| as real
  }

  /** The weight table built when no weights are given: every rule at 1.0. */
  function UnitWeights(s: seq<Signal>): map<string, real> {
    map name | name in RuleNames(s) :: 1.0
  }

  function RuleNames(s: seq<Signal>): set<string> {
    set i | 0 <= i < |s| :: s[i].ruleName
  }

  lemma {:induction false} UnitWeightsReduceToMean(s: seq<Signal>, weights: map<string, real>)
    requires forall i :: 0 <= i < |s| ==> WeightOf(weights, s[i].ruleName) == 1.0
    ensures TotalWeight(s, weights) == |s| as real
    ensures WeightedSum(s, weights) == SumConfidence(s)
  {
    if |s| > 0 {
      assert WeightOf(weights, s[0].ruleName) == 1.0;
      forall i | 0 <= i < |s[1..]|
        ensures WeightOf(weights, s[1..][i].ruleName) == 1.0
      {
        assert s[1..][i] == s[i + 1];
      }
      UnitWeightsReduceToMean(s[1..], weights);
    }
  }

  lemma {:induction false} WeightedSumBounds(s: seq<Signal>, weights: map<string, real>)
    requires ConfidencesInUnit(s)
    requires WeightsNonNegative(s, weights)
    ensures 0.0 <= WeightedSum(s, weights) <= TotalWeight(s, weights)
  {
    if |s| > 0 {
      var c, w := s[0].confidence, WeightOf(weights, s[0].ruleName);
      forall i | 0 <= i < |s[1..]|
        ensures 0.0 <= s[1..][i].confidence <= 1.0
        ensures WeightOf(weights, s[1..][i].ruleName) >= 0.0
      {
        assert s[1..][i] == s[i + 1];
      }
      WeightedSumBounds(s[1..], weights);
      var restSum, restTotal := WeightedSum(s[1..], weights), TotalWeight(s[1..], weights);
      assert WeightedSum(s, weights) == c * w + restSum;
      assert TotalWeight(s, weights) == w + restTotal;
      ProductWithinWeight(c, w);
      var p := c * w;
      assert 0.0 <= p <= w;
      assert 0.0 <= restSum;
      assert restSum <= restTotal;
      SumWithinSum(p, w, restSum, restTotal);
    }
  }

  /** When every signal has the same confidence, the weighted sum is that confidence times the total weight. */
  lemma {:induction false} UniformWeightedSum(s: seq<Signal>, weights: map<string, real>, c: real)
    requires forall i :: 0 <= i < |s| ==> s[i].confidence == c
    ensures WeightedSum(s, weights) == c * TotalWeight(s, weights)
  {
    if |s| > 0 {
      forall i | 0 <= i < |s[1..]| ensures s[1..][i].confidence == c {
        assert s[1..][i] == s[i + 1];
      }
      UniformWeightedSum(s[1..], weights, c);
      var w, rest := WeightOf(weights, s[0].ruleName), TotalWeight(s[1..], weights);
      assert WeightedSum(s, weights) == c * w + c * rest;
      assert TotalWeight(s, weights) == w + rest;
      assert c * w + c * rest == c * (w + rest);
    }
  }

  lemma SumWithinSum(p: real, w: real, a: real, b: real)
    requires 0.0 <= p <= w && 0.0 <= a <= b
    ensures 0.0 <= p + a <= w + b
  {
  }

  /** Dividing a product by one of its non-zero factors gives the other. */
  lemma QuotientOfProduct(sum: real, c: real, t: real)
    requires t != 0.0 && sum == c * t
    ensures sum / t == c
  {
  }

  /**
   * `weighted_average`: sum of confidence times weight over the sum of
   * weights, 0.0 for no signals or a non-positive total weight. Without a
   * weight table every rule weighs 1.0, which makes it the plain mean.
   */
  function WeightedAverage(s: seq<Signal>, weights: Option<map<string, real>>): (r: real)
    ensures |s| == 0 ==> r == 0.0
    ensures weights.None? && |s| > 0 ==> r == Mean(s)
    ensures |s| > 0 && weights.Some? ==>
      r == (if TotalWeight(s, weights.value) > 0.0
            then WeightedSum(s, weights.value) / TotalWeight(s, weights.value) else 0.0)
    ensures ConfidencesInUnit(s) && (weights.Some? ==> WeightsNonNegative(s, weights.value))
      ==> 0.0 <= r <= 1.0
  {
    if |s| == 0 then 0.0
    else
      var w := if weights.Some? then weights.value else UnitWeights(s);
      var total := TotalWeight(s, w);
      var weighted := WeightedSum(s, w);
      assert weights.None? ==> total == |s| as real && weighted == SumConfidence(s) by {
        if weights.None? {
          forall i | 0 <= i < |s| ensures WeightOf(w, s[i].ruleName) == 1.0 {
            assert s[i].ruleName in RuleNames(s);
          }
          UnitWeightsReduceToMean(s, w);
        }
      }
      assert ConfidencesInUnit(s) && WeightsNonNegative(s, w) ==> 0.0 <= weighted <= total by {
        if ConfidencesInUnit(s) && WeightsNonNegative(s, w) {
          WeightedSumBounds(s, w);
        }
      }
      assert weights.None? ==> WeightsNonNegative(s, w) by {
        if weights.None? {
          forall i | 0 <= i < |s| ensures WeightOf(w, s[i].ruleName) >= 0.0 {
            assert s[i].ruleName in RuleNames(s);
          }
        }
      }
      if total > 0.0 then
        assert ConfidencesInUnit(s) && WeightsNonNegative(s, w) ==> 0.0 <= weighted / total <= 1.0 by {
          if ConfidencesInUnit(s) && WeightsNonNegative(s, w) {
            QuotientWithinUnit(weighted, total);
          }
        }
        weighted / total
      else 0.0
  }

  /** Weighting never moves the average of equally confident signals: with a positive total it is that confidence. */
  lemma {:induction false} WeightedAverageOfEqual(s: seq<Signal>, weights: map<string, real>, c: real)
    requires |s| > 0 && forall i :: 0 <= i < |s| ==> s[i].confidence == c
    requires TotalWeight(s, weights) > 0.0
    ensures WeightedAverage(s, Some(weights)) == c
  {
    var t, sum := TotalWeight(s, weights), WeightedSum(s, weights);
    UniformWeightedSum(s, weights, c);
    QuotientOfProduct(sum, c, t);
    assert WeightedAverage(s, Some(weights)) == sum / t;
  }

  /** `highest`: the largest confidence, 0.0 for no signals. */
  function Highest(s: seq<Signal>): (r: real)
    ensures |s| == 0 ==> r == 0.0
    ensures |s| > 0 ==> exists i :: 0 <= i < |s| && r == s[i].confidence
    ensures forall i :: 0 <= i < |s| ==> s[i].confidence <= r
  {
    if |s| == 0 then 0.0
    else if |s| == 1 then s[0].confidence
    else
      var rest := Highest(s[1..]);
      assert forall i :: 1 <= i < |s| ==> s[i] == s[1..][i - 1];
      Max(s[0].confidence, rest)
  }

  /** The agreement bonus: 5% per additional rule, capped at 15%. */
  function AgreementBoost(n: nat): real {
    Min((n - 1) as real * 0.05, 0.15)
  }

  /**
   * `consensus_boost`: the unweighted mean plus the agreement bonus,
   * capped at 1.0; per-rule weights play no part.
   */
  function ConsensusBoost(s: seq<Signal>): (r: real)
    ensures |s| == 0 ==> r == 0.0
    ensures |s| > 0 ==> r == Min(Mean(s) + AgreementBoost(|s|), 1.0)
    ensures ConfidencesInUnit(s) ==> 0.0 <= r <= 1.0
    ensures ConfidencesInUnit(s) && |s| > 0 ==> Mean(s) <= r
  {
    if |s| == 0 then 0.0
    else
      var base := WeightedAverage(s, None);
      var boost := AgreementBoost(|s|);
      Min(base + boost, 1.0)
  }

  predicate Uniform(s: seq<Signal>, c: real) {
    forall i :: 0 <= i < |s| ==> s[i].confidence == c
  }

  lemma {:induction false} UniformSum(s: seq<Signal>, c: real)
    requires Uniform(s, c)
    ensures SumConfidence(s) == |s| as real * c
  {
    if |s| > 0 {
      assert forall i :: 0 <= i < |s[1..]| ==> s[1..][i] == s[i + 1];
      UniformSum(s[1..], c);
    }
  }

  /** With equal confidences the boost is that confidence plus the capped bonus. */
  lemma ConsensusBoostUniform(s: seq<Signal>, c: real)
    requires |s| > 0 && Uniform(s, c)
    ensures ConsensusBoost(s) == Min(c + AgreementBoost(|s|), 1.0)
  {
    UniformSum(s, c);
    assert Mean(s) == c;
  }

  /** With equal confidences, more agreeing rules never lower the boosted confidence. */
  lemma ConsensusBoostMonotoneInCount(s1: seq<Signal>, s2: seq<Signal>, c: real)
    requires 0 < |s1| <= |s2|
    requires Uniform(s1, c) && Uniform(s2, c)
    ensures ConsensusBoost(s1) <= ConsensusBoost(s2)
  {
    ConsensusBoostUniform(s1, c);
    ConsensusBoostUniform(s2, c);
  }

  /** Five rules at 0.7 give 0.85 (the bonus stops at 15%); four at 0.95 cap at 1.0. */
  lemma ConsensusBoostCaps(s5: seq<Signal>, s4: seq<Signal>)
    requires |s5| == 5 && Uniform(s5, 0.7)
    requires |s4| == 4 && Uniform(s4, 0.95)
    ensures ConsensusBoost(s5) == 0.85
    ensures ConsensusBoost(s4) == 1.0
  {
    ConsensusBoostUniform(s5, 0.7);
    ConsensusBoostUniform(s4, 0.95);
  }
}

=== FILE: state_manager.dfy ===
/**
 * Per-symbol bookkeeping: the bounded signal history, the state kept for
 * each symbol (latest indicators, current aggregated signal, history), and
 * the manager's operations over all symbols. Times are whole seconds
 * passed in by the caller.
 */
module StateManager {
  import opened Wrappers
  import opened Base
  import opened Signals

  /** The history's fixed capacity: the deque is created with room for 50 whatever `max_history` says. */
  const HistoryCapacity: nat := 50

  type HistorySeq = s: seq<Signal> | |s| <= HistoryCapacity

  /** A symbol's signal history; `maxHistory` is stored but never consulted. */
  datatype SignalHistory = SignalHistory(symbol: string, maxHistory: int, signals: HistorySeq)

  /** The last `n` elements of `s` (all of them when there are fewer). */
  function LastN<T>(s: seq<T>, n: nat): (r: seq<T>)
    ensures |r| == if |s| <= n then |s| else n
    ensures r == s[|s| - |r|..]
  {
    if |s| <= n then s else s[|s| - n..]
  }

  /** `add_signal`: append, dropping the oldest signal once 50 are held. */
  function AddSignal(h: SignalHistory, s: Signal): (r: SignalHistory)
    ensures r.symbol == h.symbol && r.maxHistory == h.maxHistory
    ensures |r.signals| == if |h.signals| < HistoryCapacity then |h.signals| + 1 else HistoryCapacity
    ensures r.signals[|r.signals| - 1] == s
  {
    h.(signals := LastN(h.signals + [s], HistoryCapacity))
  }

  /** Besides the new signal, the history keeps the newest old signals in order, dropping at most the oldest one. */
  lemma AddSignalDropsOldest(h: SignalHistory, s: Signal)
    ensures var r := AddSignal(h, s);
      && r.signals[..|r.signals| - 1] == h.signals[|h.signals| + 1 - |r.signals|..]
      && (|h.signals| < HistoryCapacity ==> r.signals == h.signals + [s])
  {
  }

  /** Adds signals one after another, in order. */
  function AddAll(h: SignalHistory, xs: seq<Signal>): (r: SignalHistory)
    ensures r.symbol == h.symbol && r.maxHistory == h.maxHistory
    decreases |xs|
  {
    if |xs| == 0 then h else AddAll(AddSignal(h, xs[0]), xs[1..])
  }

  /** Adding a batch keeps exactly the last 50 of the old history followed by the batch. */
  lemma {:induction false} AddAllKeepsLast(h: SignalHistory, xs: seq<Signal>)
    ensures AddAll(h, xs).signals == LastN(h.signals + xs, HistoryCapacity)
    decreases |xs|
  {
    if |xs| > 0 {
      var h1 := AddSignal(h, xs[0]);
      var rest := xs[1..];
      var a := h.signals + [xs[0]];
      calc {
        AddAll(h, xs).signals;
        { AddAllStep(h, xs); }
        AddAll(h1, rest).signals;
        { AddAllKeepsLast(h1, rest); }
        LastN(h1.signals + rest, HistoryCapacity);
        LastN(LastN(a, HistoryCapacity) + rest, HistoryCapacity);
        { LastNOfLastN(a, rest, HistoryCapacity); }
        LastN(a + rest, HistoryCapacity);
        { SplitHead(h.signals, xs); }
        LastN(h.signals + xs, HistoryCapacity);
      }
    }
  }

  /** One unfolding of `AddAll`. */
  lemma AddAllStep(h: SignalHistory, xs: seq<Signal>)
    requires |xs| > 0
    ensures AddAll(h, xs) == AddAll(AddSignal(h, xs[0]), xs[1..])
  {
  }

  /** Moving the head of a batch onto the end of what precedes it. */
  lemma SplitHead<T>(p: seq<T>, xs: seq<T>)
    requires |xs| > 0
    ensures p + xs == (p + [xs[0]]) + xs[1..]
  {
    assert xs == [xs[0]] + xs[1..];
  }

  lemma LastNOfLastN<T>(a: seq<T>, b: seq<T>, n: nat)
    ensures LastN(LastN(a, n) + b, n) == LastN(a + b, n)
  {
    var la := LastN(a, n);
    if |a| > n {
      var k := |a| - n;
      assert a + b == a[..k] + (la + b);
      assert (a + b)[|a + b| - |LastN(a + b, n)|..] == (la + b)[|la + b| - |LastN(la + b, n)|..];
    }
  }

  /** Whether a signal matches the optional type filter. */
  predicate Matches(s: Signal, t: Option<SignalType>) {
    t.None? || s.signalType == t.value
  }

  /** `get_last_signal`: scan from the newest signal back, return the first that matches. */
  method GetLastSignal(h: SignalHistory, t: Option<SignalType>) returns (r: Option<Signal>)
    ensures r.None? <==> forall i :: 0 <= i < |h.signals| ==> !Matches(h.signals[i], t)
    ensures r.Some? ==> exists i :: (0 <= i < |h.signals| && h.signals[i] == r.value && Matches(r.value, t)
      && forall j :: i < j < |h.signals| ==> !Matches(h.signals[j], t))
  {
    var i := |h.signals|;
    while i > 0
      invariant 0 <= i <= |h.signals|
      invariant forall j :: i <= j < |h.signals| ==> !Matches(h.signals[j], t)
    {
      i := i - 1;
      if Matches(h.signals[i], t) {
        return Some(h.signals[i]);
      }
    }
    return None;
  }

  /** Python's `s[k:]`: a negative start counts from the end, and both ends are clamped. */
  function SliceFrom<T>(s: seq<T>, k: int): (r: seq<T>)
    ensures k >= 0 ==> r == s[if k <= |s| then k else |s|..]
    ensures k < 0 ==> r == s[if |s| + k >= 0 then |s| + k else 0..]
  {
    var start := if k < 0 then (if |s| + k >= 0 then |s| + k else 0) else (if k <= |s| then k else |s|);
    s[start..]
  }

  /** `get_recent_signals(count)`, i.e. `signals[-count:]`. */
  function GetRecentSignals(h: SignalHistory, count: int): (r: seq<Signal>)
    ensures count >= 1 ==> r == LastN(h.signals, count)
    ensures count == 0 ==> r == h.signals
    ensures count < 0 ==> r == h.signals[if -count <= |h.signals| then -count else |h.signals|..]
  {
    SliceFrom(h.signals, -count)
  }

  /** Asking for zero recent signals returns the whole history, not nothing. */
  lemma RecentZeroReturnsAll(h: SignalHistory)
    requires |h.signals| > 0
    ensures GetRecentSignals(h, 0) == h.signals != []
  {
  }

  /** Everything kept for one symbol. */
  datatype SymbolState = SymbolState(
    symbol: string,
    lastUpdate: Option<int>,
    lastIndicators: Indicators,
    currentSignal: Option<AggregatedSignal>,
    history: SignalHistory,
    hasPosition: bool,
    positionSide: Option<string>)

  /** A newly created state: nothing seen yet, no position. */
  function NewState(symbol: string): SymbolState {
    SymbolState(symbol, None, map[], None, SignalHistory(symbol, 50, []), false, None)
  }

  datatype Manager = Manager(states: map<string, SymbolState>)

  /** `get_state`: the existing state, or a new one, which is then stored. */
  function GetState(m: Manager, symbol: string): (r: (SymbolState, Manager))
    ensures symbol in m.states ==> r == (m.states[symbol], m)
    ensures symbol !in m.states ==> r.0 == NewState(symbol) && r.1.states == m.states[symbol := r.0]
  {
    if symbol in m.states then (m.states[symbol], m)
    else (NewState(symbol), Manager(m.states[symbol := NewState(symbol)]))
  }

  /** A second access returns the state the first one created, and stores nothing new. */
  lemma GetStateStable(m: Manager, symbol: string)
    ensures var (s1, m1) := GetState(m, symbol);
      GetState(m1, symbol) == (s1, m1)
  {
  }

  /** `update_indicators`: replaces the symbol's latest indicators and update time; nothing else changes. */
  function UpdateIndicators(m: Manager, symbol: string, indicators: Indicators, time: int): (r: Manager)
    ensures r.states.Keys == m.states.Keys + {symbol}
    ensures symbol in r.states && var before := GetState(m, symbol).0;
      r.states[symbol] == before.(lastIndicators := indicators, lastUpdate := Some(time))
    ensures forall k :: k in m.states && k != symbol ==> k in r.states && r.states[k] == m.states[k]
  {
    var (state, m1) := GetState(m, symbol);
    Manager(m1.states[symbol := state.(lastIndicators := indicators, lastUpdate := Some(time))])
  }

  /** `record_signal`: the symbol's state (created if need be) gets the signal; nothing else changes. */
  function RecordSignal(m: Manager, symbol: string, signal: AggregatedSignal): (r: Manager)
    ensures r.states.Keys == m.states.Keys + {symbol}
    ensures symbol in r.states && r.states[symbol] == WithSignal(GetState(m, symbol).0, signal)
    ensures forall k :: k in m.states && k != symbol ==> k in r.states && r.states[k] == m.states[k]
  {
    var state := if symbol in m.states then m.states[symbol] else NewState(symbol);
    Manager(m.states[symbol := WithSignal(state, signal)])
  }

  /**
   * One symbol's state after recording a signal: the current signal is set
   * and the contributing signals are appended to the history in order; the
   * indicators, update time and position are untouched.
   */
  function WithSignal(state: SymbolState, signal: AggregatedSignal): (r: SymbolState)
    ensures r.currentSignal == Some(signal)
    ensures r.history.signals == LastN(state.history.signals + signal.contributing, HistoryCapacity)
    ensures r.symbol == state.symbol && r.lastIndicators == state.lastIndicators && r.lastUpdate == state.lastUpdate
    ensures r.hasPosition == state.hasPosition && r.positionSide == state.positionSide
  {
    AddAllKeepsLast(state.history, signal.contributing);
    state.(currentSignal := Some(signal), history := AddAll(state.history, signal.contributing))
  }

  /** `get_all_current_signals`: exactly the symbols holding a current signal, with that signal. */
  function CurrentSignals(m: Manager): (r: map<string, AggregatedSignal>)
    ensures forall k :: k in r <==> k in m.states && m.states[k].currentSignal.Some?
    ensures forall k :: k in r ==> r[k] == m.states[k].currentSignal.value
  {
    map k | k in m.states && m.states[k].currentSignal.Some? :: m.states[k].currentSignal.value
  }

  /** `get_symbols_with_signal`: the symbols whose current signal has type `t`. */
  function SymbolsWithSignal(m: Manager, t: SignalType): (r: set<string>)
    ensures forall k :: k in r <==> k in m.states && m.states[k].currentSignal.Some? && m.states[k].currentSignal.value.signalType == t
  {
    set k | k in m.states && m.states[k].currentSignal.Some? && m.states[k].currentSignal.value.signalType == t
  }

  /** Whether a current signal is older than `maxAge` seconds at `now`. */
  predicate IsStale(s: SymbolState, now: int, maxAge: int) {
    s.currentSignal.Some? && now - s.currentSignal.value.time > maxAge
  }

  /** `clear_stale_signals`: drops exactly the current signals older than `maxAge` seconds. */
  function ClearStaleSignals(m: Manager, now: int, maxAge: int): (r: Manager)
    ensures r.states.Keys == m.states.Keys
    ensures forall k :: k in m.states ==>
      && (IsStale(m.states[k], now, maxAge) ==> r.states[k] == m.states[k].(currentSignal := None))
      && (!IsStale(m.states[k], now, maxAge) ==> r.states[k] == m.states[k])
  {
    Manager(map k | k in m.states :: if IsStale(m.states[k], now, maxAge) then m.states[k].(currentSignal := None) else m.states[k])
  }

  /** After clearing, no symbol holds a stale signal, and clearing again changes nothing. */
  lemma ClearStaleComplete(m: Manager, now: int, maxAge: int)
    ensures var r := ClearStaleSignals(m, now, maxAge);
      && (forall k :: k in r.states ==> !IsStale(r.states[k], now, maxAge))
      && ClearStaleSignals(r, now, maxAge) == r
  {
  }

  /** `get_summary`: the number of tracked symbols and of current BUY, SELL and WATCH signals. */
  datatype Summary = Summary(totalSymbols: int, buySignals: int, sellSignals: int, watchSignals: int)

  function GetSummary(m: Manager): (r: Summary)
    ensures r.totalSymbols == |m.states|
    ensures r.buySignals == |SymbolsWithSignal(m, Buy)|
    ensures r.sellSignals == |SymbolsWithSignal(m, Sell)|
    ensures r.watchSignals == |SymbolsWithSignal(m, Watch)|
  {
    Summary(|m.states|, |SymbolsWithSignal(m, Buy)|, |SymbolsWithSignal(m, Sell)|, |SymbolsWithSignal(m, Watch)|)
  }

  lemma {:induction false} SubsetCardinality<T>(a: set<T>, b: set<T>)
    requires a <= b
    ensures |a| <= |b|
    decreases |b|
  {
    if a != {} {
      var x :| x in a;
      SubsetCardinality(a - {x}, b - {x});
    }
  }

  /** The signal counts never add up to more than the symbols tracked. */
  lemma SummaryCountsBounded(m: Manager)
    ensures var r := GetSummary(m);
      r.buySignals + r.sellSignals + r.watchSignals <= r.totalSymbols
  {
    var b := SymbolsWithSignal(m, Buy);
    var s := SymbolsWithSignal(m, Sell);
    var w := SymbolsWithSignal(m, Watch);
    assert b * s == {} && (b + s) * w == {};
    assert |b + s| == |b| + |s|;
    assert |b + s + w| == |b + s| + |w|;
    SubsetCardinality(b + s + w, m.states.Keys);
  }
}

=== FILE: trade_planner.dfy ===
/**
 * The trade plan engine: setup classification from the contributing rule
 * names, the entry zone, the ATR stop with its floor and cap, the
 * invalidation price, 2R/3R targets, the R:R validity flag, the fallback
 * 2%-risk sizer and the account-balance cache.
 *
 * Prices are exact reals (no rounding to cents); the expiry timestamp of a
 * plan, the warning texts and the external position sizer's arithmetic are
 * not modelled — the sizer's outcome is an input.
 */
module TradePlanner {
  import opened Wrappers
  import opened Base

  datatype SetupType = OversoldBounce | PullbackToSupport | Breakout | GenericSignal

  /** The engine's configuration. */
  datatype PlannerConfig = PlannerConfig(
    atrMultiplier: real,
    minRrRatio: real,
    stopMinPct: real,
    stopMaxPct: real,
    defaultAccountBalance: real,
    symbolProfitTargets: map<string, real>)

  /** The constructor defaults. */
  const DefaultConfig: PlannerConfig := PlannerConfig(2.0, 2.0, 3.0, 15.0, 888.80, map[])

  /** How the stop was placed. */
  datatype StopMethod =
    | Atr2x                        // the ATR stop, labelled "atr_2x" whatever the multiplier
    | PercentageFloor(pct: real)   // widened to the floor percentage
    | Percentage10                 // capped at 10%

  /** Non-blocking notes attached to a plan. */
  datatype PlanWarning =
    | StopWidened(floorPct: real)
    | StopCapped
    | SizerNote(text: string)

  /** Why no plan could be produced. */
  datatype PlanError =
    | InvalidClose   // close <= 0
    | InvalidAtr     // ATR_14 <= 0
    | DivisionByZero // a zero entry price or a zero risk per share

  /** The names of the rules whose presence marks an oversold bounce. */
  const BounceRules: set<string> := {
    "Enhanced Buy Dip", "Momentum Reversal", "Buy Dip in Uptrend",
    "Strong Buy Signal", "RSI + MACD Confluence", "Dip Recovery"}

  predicate Mentions(names: seq<string>, targets: set<string>) {
    exists i :: 0 <= i < |names| && names[i] in targets
  }

  /** `_classify_setup`: bounce rules first, then trend continuation, then breakouts. */
  function Classify(names: seq<string>): (t: SetupType)
    ensures t == OversoldBounce <==> Mentions(names, BounceRules)
    ensures t == PullbackToSupport <==> !Mentions(names, BounceRules) && "Trend Continuation" in names
    ensures t == Breakout <==>
      && !Mentions(names, BounceRules) && "Trend Continuation" !in names
      && ("Commodity Breakout" in names || "Volume Breakout" in names)
  {
    var ruleSet := set i | 0 <= i < |names| :: names[i];
    assert forall n :: n in ruleSet <==> n in names;
    assert ruleSet * BounceRules != {} <==> Mentions(names, BounceRules) by {
      if Mentions(names, BounceRules) {
        var i :| 0 <= i < |names| && names[i] in BounceRules;
        assert names[i] in ruleSet * BounceRules;
      }
    }
    if ruleSet * BounceRules != {} then
      var n :| n in ruleSet * BounceRules;
      OversoldBounce
    else if "Trend Continuation" in ruleSet then PullbackToSupport
    else if "Commodity Breakout" in ruleSet || "Volume Breakout" in ruleSet then Breakout
    else GenericSignal
  }

  /** A mixture of bounce and other rules is still an oversold bounce; no known name is a generic signal. */
  lemma ClassifyPrecedence()
    ensures Classify(["Trend Continuation", "Dip Recovery"]) == OversoldBounce
    ensures Classify(["Volume Breakout", "Trend Continuation"]) == PullbackToSupport
    ensures Classify(["Golden Cross"]) == GenericSignal
  {
    assert ["Trend Continuation", "Dip Recovery"][1] == "Dip Recovery";
    assert ["Volume Breakout", "Trend Continuation"][1] == "Trend Continuation";
  }

  /** Suggested entry price and entry range. */
  datatype EntryZone = EntryZone(entry: real, low: real, high: real)

  /** `_entry_zone`, prices only. */
  function MakeEntryZone(setup: SetupType, close: real, sma20: real): (z: EntryZone)
    ensures setup == PullbackToSupport ==> z.entry == sma20
    ensures setup == Breakout ==> z.entry == close * 1.001 && z.low == close
    ensures setup in {OversoldBounce, GenericSignal} ==> z.entry == close
    ensures (if setup == PullbackToSupport then sma20 else close) > 0.0 ==> z.low < z.entry < z.high
  {
    match setup
    case OversoldBounce => EntryZone(close, close * 0.997, close * 1.005)
    case PullbackToSupport => EntryZone(sma20, sma20 * 0.995, sma20 * 1.005)
    case Breakout => EntryZone(close * 1.001, close, close * 1.01)
    case GenericSignal => EntryZone(close, close * 0.998, close * 1.005)
  }

  /** A placed stop: its price, how it was placed, its distance from entry in percent. */
  datatype Stop = Stop(price: real, how: StopMethod, pct: real, warning: Option<PlanWarning>)

  /** The ATR stop's distance from entry, in percent of entry. */
  function AtrStopPct(cfg: PlannerConfig, entry: real, atr: real): real
    requires entry != 0.0
  {
    (entry - (entry - atr * cfg.atrMultiplier)) / entry * 100.0
  }

  lemma PercentOfEntry(entry: real, f: real)
    requires entry != 0.0
    ensures (entry - entry * (1.0 - f / 100.0)) / entry * 100.0 == f
  {
    assert entry - entry * (1.0 - f / 100.0) == entry * (f / 100.0);
    assert entry * (f / 100.0) / entry == f / 100.0;
  }

  /**
   * `_calculate_stop`: the ATR stop when its distance lies within
   * [stop_min_pct, stop_max_pct]; widened to stop_min_pct + 1 percent when
   * tighter; set to exactly 10% when wider, whatever stop_max_pct is. The
   * reported percentage is always the stop's actual distance from entry.
   */
  function CalculateStop(cfg: PlannerConfig, entry: real, atr: real): (s: Stop)
    requires entry != 0.0
    ensures var pct := AtrStopPct(cfg, entry, atr);
      && (cfg.stopMinPct <= pct <= cfg.stopMaxPct ==>
            s == Stop(entry - atr * cfg.atrMultiplier, Atr2x, pct, None))
      && (pct < cfg.stopMinPct ==>
            s.pct == cfg.stopMinPct + 1.0 && s.how == PercentageFloor(cfg.stopMinPct + 1.0)
            && s.warning == Some(StopWidened(cfg.stopMinPct + 1.0)))
      && (cfg.stopMinPct <= pct && pct > cfg.stopMaxPct ==>
            s.price == entry * 0.90 && s.pct == 10.0 && s.how == Percentage10 && s.warning == Some(StopCapped))
    ensures s.pct == (entry - s.price) / entry * 100.0
    ensures s.how == Atr2x <==> s.warning.None?
  {
    var raw := entry - atr * cfg.atrMultiplier;
    var pct := AtrStopPct(cfg, entry, atr);
    if pct < cfg.stopMinPct then
      var floorPct := cfg.stopMinPct + 1.0;
      PercentOfEntry(entry, floorPct);
      Stop(entry * (1.0 - floorPct / 100.0), PercentageFloor(floorPct), floorPct, Some(StopWidened(floorPct)))
    else if pct > cfg.stopMaxPct then
      PercentOfEntry(entry, 10.0);
      assert entry * (1.0 - 10.0 / 100.0) == entry * 0.90;
      Stop(entry * 0.90, Percentage10, 10.0, Some(StopCapped))
    else
      Stop(raw, Atr2x, pct, None)
  }

  /**
   * The cap does not honour stop_max_pct: with a 20% maximum, an ATR stop
   * 25% away is replaced by a 10% stop although 20% would have been allowed;
   * and a 3x-ATR stop within range is still labelled "atr_2x".
   */
  lemma StopCapIgnoresMaximum()
    ensures CalculateStop(DefaultConfig.(stopMaxPct := 20.0), 100.0, 12.5).pct == 10.0
    ensures CalculateStop(DefaultConfig.(atrMultiplier := 3.0), 100.0, 2.0).how == Atr2x
  {
    assert AtrStopPct(DefaultConfig.(stopMaxPct := 20.0), 100.0, 12.5) == 25.0;
    assert AtrStopPct(DefaultConfig.(atrMultiplier := 3.0), 100.0, 2.0) == 6.0;
  }

  /** With the defaults, a stop 2% away is widened to 4%, one 20% away is capped at 10%. */
  lemma StopFloorAndCapDefaults()
    ensures CalculateStop(DefaultConfig, 100.0, 1.0) == Stop(96.0, PercentageFloor(4.0), 4.0, Some(StopWidened(4.0)))
    ensures CalculateStop(DefaultConfig, 100.0, 10.0) == Stop(90.0, Percentage10, 10.0, Some(StopCapped))
    ensures CalculateStop(DefaultConfig, 100.0, 4.0) == Stop(92.0, Atr2x, 8.0, None)
  {
    assert AtrStopPct(DefaultConfig, 100.0, 1.0) == 2.0;
    assert AtrStopPct(DefaultConfig, 100.0, 10.0) == 20.0;
    assert AtrStopPct(DefaultConfig, 100.0, 4.0) == 8.0;
  }

  /** `_invalidation_price`: the level below which the setup is dead. */
  function InvalidationPrice(setup: SetupType, stop: real, sma50: real, close: real, atr: real): (p: real)
    ensures setup == OversoldBounce ==> p <= stop * 0.99 && p <= sma50 * 0.99
    ensures setup == OversoldBounce ==> p == stop * 0.99 || p == sma50 * 0.99
    ensures setup == PullbackToSupport ==> p == sma50 * 0.99
    ensures setup == Breakout ==> p == close - atr * 0.5
    ensures setup == GenericSignal ==> p == stop * 0.99
    ensures setup in {OversoldBounce, GenericSignal} && stop > 0.0 ==> p < stop
    ensures setup == Breakout && atr > 0.0 ==> p < close
  {
    match setup
    case OversoldBounce => Min(stop * 0.99, sma50 * 0.99)
    case PullbackToSupport => sma50 * 0.99
    case Breakout => close - atr * 0.5
    case GenericSignal => stop * 0.99
  }

  /** Python's `int()` on a float: truncation toward zero. */
  function Trunc(x: real): (t: int)
    ensures x >= 0.0 ==> 0 <= t && t as real <= x < t as real + 1.0
    ensures x < 0.0 ==> t <= 0 && t as real - 1.0 < x <= t as real
  {
    if x >= 0.0 then x.Floor else -((-x).Floor)
  }

  /** Shares, dollar risk, risk as percent of balance, position value. */
  datatype Sizing = Sizing(shares: int, dollarRisk: real, riskPct: real, positionValue: real)

  lemma ProductBound(n: real, q: real, r: real)
    requires r > 0.0 && 0.0 <= n <= q
    ensures n * r <= q * r
  {
  }

  lemma ProductStrict(a: real, b: real, r: real)
    requires r > 0.0 && a < b
    ensures a * r < b * r
  {
  }

  lemma QuotientTimesDivisor(a: real, r: real)
    requires r != 0.0
    ensures a / r * r == a
  {
  }

  lemma RiskPctBound(d: real, b: real)
    requires 0.0 <= d <= 0.02 * b && b > 0.0
    ensures 0.0 <= d / b * 100.0 <= 2.0
  {
    assert d / b <= 0.02 * b / b;
  }

  lemma FallbackBounds(maxDollarRisk: real, riskPerShare: real, shares: int, balance: real)
    requires riskPerShare > 0.0 && maxDollarRisk == balance * 0.02
    requires shares == Trunc(maxDollarRisk / riskPerShare)
    ensures balance >= 0.0 ==>
      && shares >= 0
      && 0.0 <= shares as real * riskPerShare <= 0.02 * balance
      && (shares + 1) as real * riskPerShare > 0.02 * balance
    ensures balance > 0.0 ==> 0.0 <= shares as real * riskPerShare / balance * 100.0 <= 2.0
  {
    if balance >= 0.0 {
      NonNegativeBudget(maxDollarRisk, riskPerShare, shares);
    }
    if balance > 0.0 {
      RiskPctBound(shares as real * riskPerShare, balance);
    }
  }

  lemma NonNegativeBudget(budget: real, riskPerShare: real, shares: int)
    requires riskPerShare > 0.0 && budget >= 0.0
    requires shares == Trunc(budget / riskPerShare)
    ensures shares >= 0
    ensures 0.0 <= shares as real * riskPerShare <= budget
    ensures (shares + 1) as real * riskPerShare > budget
  {
    var q := budget / riskPerShare;
    QuotientTimesDivisor(budget, riskPerShare);
    assert q >= 0.0 by {
      if q < 0.0 {
        ProductStrict(q, 0.0, riskPerShare);
      }
    }
    assert shares as real <= q < shares as real + 1.0;
    ProductBound(shares as real, q, riskPerShare);
    ProductStrict(q, shares as real + 1.0, riskPerShare);
    assert q * riskPerShare < (shares as real + 1.0) * riskPerShare;
    assert q * riskPerShare == budget;
    var next := (shares + 1) as real;
    assert next == shares as real + 1.0;
    assert next * riskPerShare > budget;
  }

  /**
   * The fallback sizer: as many whole shares as fit a 2% risk budget. With a
   * positive risk per share and a non-negative balance, the dollar risk stays
   * within 2% of the balance and one more share would exceed it; every output
   * is zero when entry <= stop.
   */
  function FallbackSizing(entry: real, stop: real, balance: real): (z: Sizing)
    ensures entry - stop <= 0.0 ==> z == Sizing(0, 0.0, 0.0, 0.0)
    ensures entry - stop > 0.0 ==> z.dollarRisk == z.shares as real * (entry - stop)
    ensures entry - stop > 0.0 ==> z.positionValue == z.shares as real * entry
    ensures entry - stop > 0.0 && balance >= 0.0 ==>
      && z.shares >= 0
      && 0.0 <= z.dollarRisk <= 0.02 * balance
      && (z.shares + 1) as real * (entry - stop) > 0.02 * balance
    ensures entry - stop > 0.0 && balance > 0.0 ==> 0.0 <= z.riskPct <= 2.0
    ensures balance <= 0.0 ==> z.riskPct == 0.0
  {
    var maxDollarRisk := balance * 0.02;
    var riskPerShare := entry - stop;
    if riskPerShare <= 0.0 then Sizing(0, 0.0, 0.0, 0.0)
    else
      var q := maxDollarRisk / riskPerShare;
      var shares := Trunc(q);
      var dollarRisk := shares as real * riskPerShare;
      FallbackBounds(maxDollarRisk, riskPerShare, shares, balance);
      var riskPct := if balance > 0.0 then dollarRisk / balance * 100.0 else 0.0;
      Sizing(shares, dollarRisk, riskPct, shares as real * entry)
  }

  /** The external position sizer's outcome: absent, raised, or a result with its notes. */
  datatype SizerOutcome =
    | NoSizer
    | SizerFailed
    | Sized(sizing: Sizing, notes: seq<string>)

  /** `_size_position`: the external sizer's result when it produced one, else the fallback. */
  function SizePosition(outcome: SizerOutcome, entry: real, stop: real, balance: real): (r: (Sizing, seq<PlanWarning>))
    ensures outcome.Sized? ==> r.0 == outcome.sizing && |r.1| == |outcome.notes|
    ensures !outcome.Sized? ==> r == (FallbackSizing(entry, stop, balance), [])
  {
    match outcome
    case Sized(sizing, notes) => (sizing, seq(|notes|, i requires 0 <= i < |notes| => SizerNote(notes[i])))
    case _ => (FallbackSizing(entry, stop, balance), [])
  }

  /** The cached account balance and the second it was cached at. */
  datatype BalanceCache = BalanceCache(cached: Option<(real, int)>)

  const BalanceCacheTtl: int := 60

  predicate CacheFresh(cache: BalanceCache, now: int) {
    cache.cached.Some? && now - cache.cached.value.1 < BalanceCacheTtl
  }

  /**
   * `_get_account_balance` at second `now`, given what a fetch would return:
   * a fresh cached value is used without fetching; otherwise a fetched value
   * is used and cached; otherwise the default is used and the cache kept.
   */
  function AccountBalance(cache: BalanceCache, now: int, fetched: Option<real>, default: real): (r: (real, BalanceCache))
    ensures CacheFresh(cache, now) ==> r == (cache.cached.value.0, cache)
    ensures !CacheFresh(cache, now) && fetched.Some? ==> r == (fetched.value, BalanceCache(Some((fetched.value, now))))
    ensures !CacheFresh(cache, now) && fetched.None? ==> r == (default, cache)
  {
    if CacheFresh(cache, now) then (cache.cached.value.0, cache)
    else
      match fetched
      case Some(b) => (b, BalanceCache(Some((b, now))))
      case None => (default, cache)
  }

  /** A freshly fetched balance is served from the cache for the next 59 seconds, whatever a fetch would say. */
  lemma BalanceCachedForTtl(cache: BalanceCache, now: int, b: real, later: int, other: Option<real>, default: real)
    requires !CacheFresh(cache, now)
    requires now <= later < now + BalanceCacheTtl
    ensures AccountBalance(AccountBalance(cache, now, Some(b), default).1, later, other, default).0 == b
  {
  }

  /** The engine's output, prices exact. */
  datatype TradePlan = TradePlan(
    setupType: SetupType,
    rulesContributed: seq<string>,
    entryPrice: real,
    entryZoneLow: real,
    entryZoneHigh: real,
    stopPrice: real,
    stopMethod: StopMethod,
    stopPct: real,
    target1: real,
    target2: real,
    symbolTargetPct: Option<real>,
    resistance: Option<real>,    // the BB_UPPER level that may cap the move before target 1
    riskRewardRatio: real,
    sizing: Sizing,
    invalidationPrice: real,
    planValid: bool,
    rrWarning: bool,
    warnings: seq<PlanWarning>)

  /** Everything `generate` reads besides the configuration. */
  datatype PlanInput = PlanInput(
    symbol: string,
    ruleNames: seq<string>,
    indicators: Indicators,
    balance: real,
    sizer: SizerOutcome)

  function Lookup(m: Indicators, key: string, default: real): real {
    if key in m then m[key] else default
  }

  /** Steps 5 to 7 of `generate`: targets, resistance, sizing and the validity flag, for a nonzero risk. */
  function Assemble(cfg: PlannerConfig, input: PlanInput, setup: SetupType, zone: EntryZone, stop: Stop, invalidation: real)
    : (p: TradePlan)
    requires zone.entry - stop.price != 0.0
    ensures p.setupType == setup && p.rulesContributed == input.ruleNames
    ensures p.entryPrice == zone.entry && p.entryZoneLow == zone.low && p.entryZoneHigh == zone.high
    ensures p.stopPrice == stop.price && p.stopPct == stop.pct && p.invalidationPrice == invalidation
    ensures p.target1 == p.entryPrice + 2.0 * (p.entryPrice - p.stopPrice)
    ensures p.target2 == p.entryPrice + 3.0 * (p.entryPrice - p.stopPrice)
    ensures p.riskRewardRatio == 2.0
    ensures p.planValid <==> 2.0 >= cfg.minRrRatio
    ensures p.rrWarning <==> !p.planValid
    ensures p.resistance.Some? <==> "BB_UPPER" in input.indicators && input.indicators["BB_UPPER"] < p.target1
    ensures p.symbolTargetPct.Some? <==> input.symbol in cfg.symbolProfitTargets
    ensures p.sizing == SizePosition(input.sizer, zone.entry, stop.price, input.balance).0
  {
    var ind := input.indicators;
    var risk := zone.entry - stop.price;
    var target1 := zone.entry + risk * 2.0;
    var target2 := zone.entry + risk * 3.0;
    var rr := (target1 - zone.entry) / risk;
    assert rr == 2.0 by {
      assert target1 - zone.entry == 2.0 * risk;
    }
    var resistance := if "BB_UPPER" in ind && ind["BB_UPPER"] < target1 then Some(ind["BB_UPPER"]) else None;
    var targetPct := if input.symbol in cfg.symbolProfitTargets then Some(cfg.symbolProfitTargets[input.symbol]) else None;
    var sized := SizePosition(input.sizer, zone.entry, stop.price, input.balance);
    var valid := rr >= cfg.minRrRatio;
    var stopWarnings := if stop.warning.Some? then [stop.warning.value] else [];
    TradePlan(
      setup, input.ruleNames, zone.entry, zone.low, zone.high,
      stop.price, stop.how, stop.pct, target1, target2, targetPct, resistance,
      rr, sized.0, invalidation, valid, !valid, stopWarnings + sized.1)
  }

  /** A zero risk per share needs a stop exactly at entry: a non-positive multiplier or a floor of 0%. */
  lemma ZeroRiskCause(cfg: PlannerConfig, entry: real, atr: real)
    requires entry != 0.0 && atr > 0.0
    requires entry - CalculateStop(cfg, entry, atr).price == 0.0
    ensures cfg.atrMultiplier == 0.0 || cfg.stopMinPct == -1.0
  {
    var s := CalculateStop(cfg, entry, atr);
    assert s.pct == 0.0;
    if s.how == Atr2x {
      assert atr * cfg.atrMultiplier == 0.0;
    }
  }

  /**
   * `generate`: rejects a non-positive close or ATR, then classifies,
   * places entry, stop and invalidation, sets 2R and 3R targets and sizes
   * the position. A pullback entry at a zero SMA_20, or a zero risk per
   * share, raises a division by zero.
   */
  function Generate(cfg: PlannerConfig, input: PlanInput): (r: Result<TradePlan, PlanError>)
    ensures Lookup(input.indicators, "close", 0.0) <= 0.0 ==> r == Failure(InvalidClose)
    ensures Lookup(input.indicators, "close", 0.0) > 0.0 && Lookup(input.indicators, "ATR_14", 0.0) <= 0.0 ==>
      r == Failure(InvalidAtr)
    ensures r.Failure? && r.error == DivisionByZero ==>
      Classify(input.ruleNames) == PullbackToSupport || cfg.atrMultiplier == 0.0 || cfg.stopMinPct == -1.0
    ensures r.Success? ==> var p := r.value;
      && p.setupType == Classify(input.ruleNames)
      && p.rulesContributed == input.ruleNames
      && (p.entryPrice > 0.0 ==> p.entryZoneLow < p.entryPrice < p.entryZoneHigh)
      && (p.setupType != PullbackToSupport ==> p.entryPrice > 0.0)
      && p.target1 == p.entryPrice + 2.0 * (p.entryPrice - p.stopPrice)
      && p.target2 == p.entryPrice + 3.0 * (p.entryPrice - p.stopPrice)
      && p.riskRewardRatio == 2.0
      && (p.planValid <==> 2.0 >= cfg.minRrRatio)
      && (p.rrWarning <==> !p.planValid)
      && p.entryPrice != 0.0
      && p.stopPct == (p.entryPrice - p.stopPrice) / p.entryPrice * 100.0
      && (p.resistance.Some? <==> "BB_UPPER" in input.indicators && input.indicators["BB_UPPER"] < p.target1)
      && (p.symbolTargetPct.Some? <==> input.symbol in cfg.symbolProfitTargets)
    ensures r.Success? ==> var p := r.value; var ind := input.indicators;
      var close := Lookup(ind, "close", 0.0); var atr := Lookup(ind, "ATR_14", 0.0);
      && p.entryPrice == MakeEntryZone(p.setupType, close, Lookup(ind, "SMA_20", close)).entry
      && p.stopPrice == CalculateStop(cfg, p.entryPrice, atr).price
      && p.invalidationPrice == InvalidationPrice(p.setupType, p.stopPrice, Lookup(ind, "SMA_50", close * 0.95), close, atr)
      && p.sizing == SizePosition(input.sizer, p.entryPrice, p.stopPrice, input.balance).0
  {
    var ind := input.indicators;
    var close := Lookup(ind, "close", 0.0);
    var atr := Lookup(ind, "ATR_14", 0.0);
    var sma20 := Lookup(ind, "SMA_20", close);
    var sma50 := Lookup(ind, "SMA_50", close * 0.95);
    if close <= 0.0 then Failure(InvalidClose)
    else if atr <= 0.0 then Failure(InvalidAtr)
    else
      var setup := Classify(input.ruleNames);
      var zone := MakeEntryZone(setup, close, sma20);
      if zone.entry == 0.0 then Failure(DivisionByZero)
      else
        var stop := CalculateStop(cfg, zone.entry, atr);
        if zone.entry - stop.price == 0.0 then
          ZeroRiskCause(cfg, zone.entry, atr);
          Failure(DivisionByZero)
        else
          Success(Assemble(cfg, input, setup, zone, stop, InvalidationPrice(setup, stop.price, sma50, close, atr)))
  }

  /**
   * A missing SMA_20 puts a pullback entry at the close; a missing SMA_50
   * puts a pullback invalidation 1% under 95% of the close.
   */
  lemma MissingAveragesDefault(cfg: PlannerConfig, input: PlanInput)
    requires Generate(cfg, input).Success?
    ensures var p := Generate(cfg, input).value; var close := input.indicators["close"];
      && ("SMA_20" !in input.indicators && p.setupType == PullbackToSupport ==> p.entryPrice == close)
      && ("SMA_50" !in input.indicators && p.setupType == PullbackToSupport ==> p.invalidationPrice == close * 0.95 * 0.99)
  {
  }

  /** With the default minimum R:R of 2, every plan produced is valid. */
  lemma DefaultPlansValid(input: PlanInput)
    ensures Generate(DefaultConfig, input).Success? ==> Generate(DefaultConfig, input).value.planValid
  {
  }

  /** With positive close, SMA_20 and ATR, the default engine always produces a plan. */
  lemma DefaultPlanExists(input: PlanInput)
    requires "close" in input.indicators && input.indicators["close"] > 0.0
    requires "ATR_14" in input.indicators && input.indicators["ATR_14"] > 0.0
    requires "SMA_20" in input.indicators ==> input.indicators["SMA_20"] > 0.0
    ensures Generate(DefaultConfig, input).Success?
  {
  }

  /**
   * For a bounce or generic setup with a positive stop, invalidation sits
   * strictly below the stop; the fallback sizer risks at most 2% of a
   * non-negative balance whenever the stop is below entry.
   */
  lemma PlanRiskBounds(cfg: PlannerConfig, input: PlanInput)
    requires Generate(cfg, input).Success?
    requires input.sizer.NoSizer? && input.balance >= 0.0
    ensures var p := Generate(cfg, input).value;
      && (p.setupType in {OversoldBounce, GenericSignal} && p.stopPrice > 0.0 ==> p.invalidationPrice < p.stopPrice)
      && (p.stopPrice < p.entryPrice ==> p.sizing.dollarRisk <= 0.02 * input.balance)
  {
  }
}

=== FILE: trend_rules.dfy ===
/**
 * Trend rules over simple moving averages: weekly and monthly uptrends,
 * full alignment, trend break, golden cross and death cross. Every spread
 * here is guarded against a non-positive denominator.
 */
module TrendRules {
  import opened Wrappers
  import opened Base

  /** Weekly Uptrend: WATCH exactly when SMA_20 > SMA_50; 0.85/0.7/0.55 by spread (>= 2%, >= 1%, else). */
  function WeeklyUptrend(ctx: SymbolContext): (r: Result<RuleResult, RuleError>)
    ensures r.Success? ==> WellFormed(r.value)
    ensures r.Success?
    ensures r.value.triggered <==> Sma20(ctx) > Sma50(ctx)
    ensures r.value.triggered ==> r.value.signal == Some(Watch)
    ensures r.value.triggered ==> r.value.confidence in {0.55, 0.7, 0.85}
    ensures r.value.triggered ==>
      (r.value.confidence == 0.85 <==> GuardedSpread(Sma20(ctx), Sma50(ctx)) >= 2.0) &&
      (r.value.confidence == 0.55 <==> GuardedSpread(Sma20(ctx), Sma50(ctx)) < 1.0)
  {
    var sma20 := Ind(ctx, "SMA_20");
    var sma50 := Ind(ctx, "SMA_50");
    if sma20 <= sma50 then Untriggered()
    else
      var spread := GuardedSpread(sma20, sma50);
      var confidence := if spread >= 2.0 then 0.85 else if spread >= 1.0 then 0.7 else 0.55;
      MakeResult(true, Some(Watch), confidence,
        map["SMA_20" := Num(sma20), "SMA_50" := Num(sma50), "spread_pct" := Num(spread)])
  }

  /** Monthly Uptrend: WATCH exactly when SMA_50 > SMA_200; 0.85/0.7/0.55 by spread (>= 5%, >= 2%, else). */
  function MonthlyUptrend(ctx: SymbolContext): (r: Result<RuleResult, RuleError>)
    ensures r.Success? ==> WellFormed(r.value)
    ensures r.Success?
    ensures r.value.triggered <==> Sma50(ctx) > Sma200(ctx)
    ensures r.value.triggered ==> r.value.signal == Some(Watch)
    ensures r.value.triggered ==> r.value.confidence in {0.55, 0.7, 0.85}
    ensures r.value.triggered ==>
      (r.value.confidence == 0.85 <==> GuardedSpread(Sma50(ctx), Sma200(ctx)) >= 5.0) &&
      (r.value.confidence == 0.55 <==> GuardedSpread(Sma50(ctx), Sma200(ctx)) < 2.0)
  {
    var sma50 := Ind(ctx, "SMA_50");
    var sma200 := Ind(ctx, "SMA_200");
    if sma50 <= sma200 then Untriggered()
    else
      var spread := GuardedSpread(sma50, sma200);
      var confidence := if spread >= 5.0 then 0.85 else if spread >= 2.0 then 0.7 else 0.55;
      MakeResult(true, Some(Watch), confidence,
        map["SMA_50" := Num(sma50), "SMA_200" := Num(sma200), "spread_pct" := Num(spread)])
  }

  predicate FullyAligned(ctx: SymbolContext) {
    Sma20(ctx) > Sma50(ctx) > Sma200(ctx)
  }

  /** The summed short- and long-term spreads that drive the alignment confidence. */
  function TotalSpread(ctx: SymbolContext): real {
    GuardedSpread(Sma20(ctx), Sma50(ctx)) + GuardedSpread(Sma50(ctx), Sma200(ctx))
  }

  /**
   * Full Trend Alignment: BUY exactly when SMA_20 > SMA_50 > SMA_200, with
   * confidence 0.6 plus a thirtieth of the total spread, capped at 0.95.
   */
  function FullTrendAlignment(ctx: SymbolContext): (r: Result<RuleResult, RuleError>)
    ensures r.Success? ==> WellFormed(r.value)
    ensures r.Success?
    ensures r.value.triggered <==> FullyAligned(ctx)
    ensures r.value.triggered ==> r.value.signal == Some(Buy)
    ensures r.value.triggered ==> 0.6 <= r.value.confidence <= 0.95
    ensures r.value.triggered ==>
      ("spread_20_50" in r.value.factors &&
       r.value.factors["spread_20_50"] == Num(GuardedSpread(Sma20(ctx), Sma50(ctx))))
  {
    var sma20 := Ind(ctx, "SMA_20");
    var sma50 := Ind(ctx, "SMA_50");
    var sma200 := Ind(ctx, "SMA_200");
    if !(sma20 > sma50 > sma200) then Untriggered()
    else
      var spread2050 := GuardedSpread(sma20, sma50);
      var spread50200 := GuardedSpread(sma50, sma200);
      var total := spread2050 + spread50200;
      MakeResult(true, Some(Buy), Min(0.6 + total / 30.0, 0.95),
        map["SMA_20" := Num(sma20), "SMA_50" := Num(sma50), "SMA_200" := Num(sma200),
            "spread_20_50" := Num(spread2050), "spread_50_200" := Num(spread50200)])
  }

  /** A wider total spread never lowers the alignment confidence. */
  lemma FullTrendAlignmentMonotone(narrow: SymbolContext, wide: SymbolContext)
    requires FullyAligned(narrow) && FullyAligned(wide)
    requires TotalSpread(narrow) <= TotalSpread(wide)
    ensures FullTrendAlignment(narrow).value.confidence <= FullTrendAlignment(wide).value.confidence
  {
  }

  /** Trend Break Warning: SELL exactly when SMA_20 < SMA_50; 0.7 for a fresh break (< 0.5%), else 0.6. */
  function TrendBreakWarning(ctx: SymbolContext): (r: Result<RuleResult, RuleError>)
    ensures r.Success? ==> WellFormed(r.value)
    ensures r.Success?
    ensures r.value.triggered <==> Sma20(ctx) < Sma50(ctx)
    ensures r.value.triggered ==> r.value.signal == Some(Sell)
    ensures r.value.triggered ==>
      (r.value.confidence == 0.7 <==> GuardedSpread(Sma20(ctx), Sma50(ctx)) > -0.5) &&
      (r.value.confidence == 0.6 <==> GuardedSpread(Sma20(ctx), Sma50(ctx)) <= -0.5)
  {
    var sma20 := Ind(ctx, "SMA_20");
    var sma50 := Ind(ctx, "SMA_50");
    if sma20 >= sma50 then Untriggered()
    else
      var spread := if sma50 > 0.0 then (sma50 - sma20) / sma50 * 100.0 else 0.0;
      assert spread == -GuardedSpread(sma20, sma50) by {
        if sma50 > 0.0 {
          NegatedQuotient(sma20 - sma50, sma50);
        }
      }
      var confidence := if spread < 0.5 then 0.7 else 0.6;
      MakeResult(true, Some(Sell), confidence,
        map["SMA_20" := Num(sma20), "SMA_50" := Num(sma50), "spread_pct" := Num(-spread)])
  }

  /** Weekly Uptrend and Trend Break Warning never fire together, and neither fires on equal averages. */
  lemma WeeklyTrendExclusive(ctx: SymbolContext)
    ensures !(WeeklyUptrend(ctx).value.triggered && TrendBreakWarning(ctx).value.triggered)
    ensures Sma20(ctx) == Sma50(ctx) ==>
      !WeeklyUptrend(ctx).value.triggered && !TrendBreakWarning(ctx).value.triggered
  {
  }

  /** Golden Cross: BUY exactly when SMA_50 > SMA_200; 0.75 for a fresh cross (< 1%), else 0.5. */
  function GoldenCross(ctx: SymbolContext): (r: Result<RuleResult, RuleError>)
    ensures r.Success? ==> WellFormed(r.value)
    ensures r.Success?
    ensures r.value.triggered <==> Sma50(ctx) > Sma200(ctx)
    ensures r.value.triggered ==> r.value.signal == Some(Buy)
    ensures r.value.triggered ==>
      (r.value.confidence == 0.75 <==> GuardedSpread(Sma50(ctx), Sma200(ctx)) < 1.0) &&
      (r.value.confidence == 0.5 <==> GuardedSpread(Sma50(ctx), Sma200(ctx)) >= 1.0)
  {
    var sma50 := Ind(ctx, "SMA_50");
    var sma200 := Ind(ctx, "SMA_200");
    if sma50 <= sma200 then Untriggered()
    else
      var spread := GuardedSpread(sma50, sma200);
      var confidence := if spread < 1.0 then 0.75 else 0.5;
      MakeResult(true, Some(Buy), confidence,
        map["SMA_50" := Num(sma50), "SMA_200" := Num(sma200), "spread_pct" := Num(spread)])
  }

  /** Death Cross: SELL exactly when SMA_50 < SMA_200; 0.75 for a fresh cross (< 1%), else 0.6. */
  function DeathCross(ctx: SymbolContext): (r: Result<RuleResult, RuleError>)
    ensures r.Success? ==> WellFormed(r.value)
    ensures r.Success?
    ensures r.value.triggered <==> Sma50(ctx) < Sma200(ctx)
    ensures r.value.triggered ==> r.value.signal == Some(Sell)
    ensures r.value.triggered ==> r.value.confidence in {0.6, 0.75}
    ensures r.value.triggered ==>
      (r.value.confidence == 0.75 <==> GuardedSpread(Sma50(ctx), Sma200(ctx)) > -1.0) &&
      (r.value.confidence == 0.6 <==> GuardedSpread(Sma50(ctx), Sma200(ctx)) <= -1.0)
  {
    var sma50 := Ind(ctx, "SMA_50");
    var sma200 := Ind(ctx, "SMA_200");
    if sma50 >= sma200 then Untriggered()
    else
      var spread := if sma200 > 0.0 then (sma200 - sma50) / sma200 * 100.0 else 0.0;
      assert spread == -GuardedSpread(sma50, sma200);
      var confidence := if spread < 1.0 then 0.75 else 0.6;
      MakeResult(true, Some(Sell), confidence,
        map["SMA_50" := Num(sma50), "SMA_200" := Num(sma200), "spread_pct" := Num(-spread)])
  }

  /** Golden Cross and Death Cross never fire together; Monthly Uptrend fires exactly with Golden Cross. */
  lemma CrossesExclusive(ctx: SymbolContext)
    ensures !(GoldenCross(ctx).value.triggered && DeathCross(ctx).value.triggered)
    ensures GoldenCross(ctx).value.triggered == MonthlyUptrend(ctx).value.triggered
  {
  }
}

=== FILE: wrappers.dfy ===
/** Failure-compatible Option and Result types used throughout the model. */
module Wrappers {

  datatype Option<+T> = None | Some(value: T) {

    /** The wrapped value, or `default` when there is none (Python's `x if x is not None else default`). */
    function GetOr(default: T): T {
      match this
      case Some(v) => v
      case None => default
    }
  }

  /** A value or an error; `Failure` stands for a Python exception escaping the call. */
  datatype Result<+R, +E> = Success(value: R) | Failure(error: E) {

    predicate IsFailure() {
      Failure?
    }

    function PropagateFailure<U>(): Result<U, E>
      requires Failure?
    {
      Failure(error)
    }

    function Extract(): R
      requires Success?
    {
      value
    }
  }
}
